=== FILE: README.md ===
# Lordai: a Dafny model of the conversation store and its client logic

Lordai is an Arabic-first platform for chatting with AI characters. This
project models its modellable core in Dafny:

- **Server store.** The Next.js API routes keep users, characters,
  conversations, messages, branches and memories in SQLite. The routes
  covered are:
  - branch listing, creation and merging;
  - the memory list and create;
  - conversation and character listing and creation;
  - the cascade-delete relations of the schema;
  - the analytics report.
- **Client transformations.** These are the pure parts of the client:
  - the vanilla single-page app (`js/app.js`) over its local storage;
  - the translation helper;
  - the character-sheet importer and the create form;
  - the conversation exporter;
  - the image picker;
  - the memory page.

The database is an immutable record of sequences, one per table. A single
`nextId` counter gives every inserted row a fresh id. Each route handler is
a pure function from a store and a request to an `Outcome`: a response (a
status with a payload, or a status with an error message) together with
the store afterwards. The request's time `now` is a parameter.

How the model represents the source:

- **Ordering.** `ORDER BY` and `Array.prototype.sort` are a stable sort on
  the table order.
- **Falsy values.** JavaScript truthiness of request fields is explicit: a
  field is `Absent`, a number or a text, and `0`, `""` and absence are
  falsy.
- **Local storage.** The SPA's storage is a record with the conversation
  list, a map from conversation id to message list, and the favourites.

Modules follow the source:

| module | source |
|---|---|
| Common, Text, Seqs, Http | shared: options and request fields, JavaScript string operations, filter and stable sort, responses and `parseInt` |
| Schema | `src/db/schema.ts` |
| Timeline, Branches, Merge | `src/app/api/chat/branches/route.ts`, `src/app/api/chat/branches/merge/route.ts` |
| MemoryApi, ConversationsApi, CharactersApi, Analytics | the corresponding `route.ts` under `src/app/api/` |
| SpaStore, SpaApp | `js/app.js` |
| I18n | `src/lib/i18n.ts` |
| CharacterForms | `src/app/characters/create/page.tsx`, `src/app/characters/import/page.tsx` |
| Export | `src/app/export/page.tsx` |
| ImageUpload | `src/components/ImageUpload.tsx` |
| MemoryPage | `src/app/memory/page.tsx` |

### Schema extensions

`src/db/schema.ts` declares no `branches` or `memories` table and no
`messages.branchId` column, yet the routes read and write all three. The
model adds them as the routes use them:

- a branch belongs to a conversation and has an optional parent;
- a message may belong to a branch;
- a memory belongs to a character and has a priority.

For cascades, deleting a conversation removes its branches, and deleting a
character removes its memories. A branch id on a message is a plain
column: only the merge route deletes messages by branch.

### Invariants

Two store invariants:

- `Schema.Valid`: ids are unique per table and below the counter.
- `Schema.RefIntegrity`: every foreign key names an existing row.

Both are proved to be kept by the character, conversation, memory and
branch `POST`s and by the user, character and conversation deletes
(`Schema.DeletesKeepInvariants`). A merge always keeps `Schema.Valid`.
It keeps `Schema.RefIntegrity` only when the target branch's conversation
exists (`Merge.MergeKeepsIntegrity`). The branch `POST` stores any parsed
`conversationId` without looking it up, so a branch can name a missing
conversation. Merging a non-empty branch into such a branch leaves
messages whose conversation is missing (`Merge.MergeCanDangle`).

## Model

| member | source | states |
|---|---|---|
| Common.OrElse | src/app/api/memory/route.ts:75 | `value \|\| fallback` on an optional text: the value when it is present and non-empty, the fallback otherwise |
| Http.ParseField | src/app/api/chat/branches/merge/route.ts:25 | `parseInt` of a request field: a number is itself, an absent field is `NaN`, a text is parsed as `parseInt` does, including the `0x` base-16 prefix |
| Http.IdString | src/app/api/chat/branches/route.ts:83 | `id.toString()`: the decimal digits, with a leading `-` for a negative id |
| Http.ParseIdString | src/app/api/chat/branches/route.ts:83 | `parseInt` reads back every id's text as that id |
| Http.IdStringInjective | src/app/api/chat/branches/route.ts:83 | distinct ids have distinct texts |
| Text.Trim | js/app.js:1331 | `trim()`: the result is the input with exactly its leading and trailing white space removed; it has no white space at either end, and every removed character is white space |
| Text.TrimIdempotent | js/app.js:1331 | trimming twice is trimming once |
| Text.Split | src/app/characters/import/page.tsx:59 | `split(sep)`: at least one piece, none contains the separator, and joining the pieces with the separator gives back the text |
| Text.SplitJoin | src/app/characters/create/page.tsx:33 | splitting the join of separator-free pieces gives back the pieces |
| Text.TrimAll | src/app/characters/import/page.tsx:59 | `map(t => t.trim())`: same length, each piece trimmed |
| Text.NonEmpty | src/app/characters/import/page.tsx:59 | `filter(l => l)`: the non-empty pieces, each kept as often as it occurs and in order, which is `Array.filter` with the non-empty test |
| Text.Pieces | src/app/characters/import/page.tsx:59 | `split(sep).map(trim)` then dropping empty pieces: a text is listed exactly when it is the non-empty trimming of some piece; items are trimmed and free of the separator; order is that of the pieces |
| Text.TrimAllMembers | src/app/characters/import/page.tsx:59 | the trimmed pieces are exactly the trimmings of the pieces |
| Text.TrimAllClean | src/app/characters/import/page.tsx:59 | trimming pieces free of the separator gives trimmed pieces free of it |
| Text.ToLower | js/app.js:742 | `toLowerCase()`: same length; each ASCII capital becomes its small letter and every other character is kept |
| Text.Contains | js/app.js:744 | `includes(sub)` holds exactly when `sub` occurs at some position |
| Text.ParseInt | src/app/api/chat/branches/route.ts:24 | `parseInt` without a radix: after the leading spaces and an optional sign, `0x` or `0X` selects base 16 and otherwise base 10; `NaN` exactly when no digit of that base follows; otherwise the signed value of the longest digit run |
| Text.HexExample | src/app/api/chat/branches/route.ts:24 | `parseInt("0x1A")` is 26 |
| Text.SignedHexExample | src/app/api/chat/branches/route.ts:24 | the sign is read before the base prefix: `parseInt(" -0Xff")` is -255 |
| Text.BareHexPrefixExample | src/app/api/chat/branches/route.ts:24 | a prefix with no digit after it is `NaN`: `parseInt("0x")` |
| Text.LeadingZeroExample | src/app/api/chat/branches/route.ts:24 | a leading zero does not switch base: `parseInt("012")` is 12 |
| Text.ParseDecimal | src/app/api/chat/branches/route.ts:83 | the decimal text of a natural number parses back to it |
| Text.DecimalInjective | src/app/api/chat/branches/route.ts:83 | distinct naturals have distinct decimal texts |
| Text.Words | src/app/api/analytics/route.ts:151 | `split(/\s+/)` without empty pieces: every word is non-empty and free of white space |
| Seqs.Filter | src/app/api/characters/route.ts:32-42 | `WHERE` and `Array.filter`: an element is kept exactly when it satisfies the test, and a list whose every element passes is kept whole |
| Seqs.FilterAppend | src/app/api/chat/branches/merge/route.ts:57-69 | filtering distributes over concatenation |
| Seqs.FilterFilter | src/app/api/analytics/route.ts:39-42 | two filters in a row are one filter on the conjunction |
| Seqs.FilterMultiset | src/app/api/analytics/route.ts:151 | a filter keeps each passing element exactly as often as it occurs and drops every failing one |
| Seqs.FirstIndex | js/app.js:124 | `findIndex(p)`: the first position whose element passes the test, or none exactly when no element passes |
| Seqs.SortDescBy | src/app/api/conversations/route.ts:54 | `orderBy(desc(key))`: a permutation of its input with non-increasing keys |
| Seqs.SortAscBy | src/app/api/memory/route.ts:32 | `orderBy(key)`: a permutation of its input with non-decreasing keys |
| Seqs.SortStable | src/app/api/analytics/route.ts:157-158 | the sort is stable: the elements of any one key keep their input order |
| Seqs.Limit | src/app/api/analytics/route.ts:146 | `limit(n)` and `slice(0, n)`: a prefix of length `min(n, \|s\|)` |
| Schema.Cascade | src/db/schema.ts:17-100 | deleting users, characters or conversations removes exactly the rows that reach a deleted row through an `onDelete: 'cascade'` reference, transitively |
| Schema.DeleteUser | src/db/schema.ts:19-87 | deleting a user cascades to the user's characters, conversations, subscriptions and favourites |
| Schema.DeleteUserEffect | src/db/schema.ts:19-87 | after a user delete: exactly the other users and the other users' subscriptions remain, none of the user's characters, conversations or favourites remain, and integrity is kept |
| Schema.DeleteCharacter | src/db/schema.ts:32-91 | deleting a character cascades to its images, relationships, conversations, favourites and memories |
| Schema.DeleteCharacterEffect | src/db/schema.ts:32-91 | after a character delete: exactly the other characters remain, with their images, relationships on both sides, conversations and memories; users are untouched; integrity is kept |
| Schema.DeleteConversation | src/db/schema.ts:62-100 | deleting a conversation cascades to its messages, generated images, favourites and branches |
| Schema.DeleteConversationEffect | src/db/schema.ts:62-100 | after a conversation delete: exactly the other conversations remain, with their messages, images and branches; users, characters and memories are untouched |
| Schema.CascadeKeepsTargets | src/db/schema.ts:17-100 | a cascade keeps every user, character and conversation it does not doom |
| Schema.CascadeKeepsOwnership | src/db/schema.ts:17-70 | after a cascade, every surviving character, conversation, message and generated image still names surviving owners |
| Schema.CascadeKeepsAttachments | src/db/schema.ts:31-100 | after a cascade, every surviving image, relationship, memory, subscription and favourite still names surviving rows |
| Schema.CascadeKeepsIntegrity | src/db/schema.ts:17-100 | a cascade from a store without dangling references leaves none |
| Schema.KeyedSubset | src/db/schema.ts:17-100 | rows taken from a table with unique ids below a bound have unique ids below it too |
| Schema.CascadeKeepsValid | src/db/schema.ts:17-100 | a cascade keeps ids unique and below the counter, because every surviving row was a row before and the counter is kept |
| Schema.DeletesKeepInvariants | src/db/schema.ts:17-100 | deleting a user, a character or a conversation keeps both store invariants |
| Schema.InsertUser | src/db/schema.ts:5-14 | a user insert is rejected exactly when the email or the username is taken; otherwise it appends the user, and emails and usernames stay unique |
| Schema.InsertSubscription | src/db/schema.ts:73-82 | a subscription needs an existing user; plan defaults to `free`, status to `active`, auto-renew to false |
| Timeline.CopyMessages | src/app/api/chat/branches/route.ts:86-95 | a copy loop inserts one message per input message, in order, with the same sender, content and voice fields, fresh consecutive ids, and the given conversation and branch |
| Timeline.BranchMessages | src/app/api/chat/branches/route.ts:30-34 | a branch's messages: exactly the messages with that branch id, oldest first |
| Timeline.FreshBranchMessages | src/app/api/chat/branches/route.ts:99-103 | a branch no earlier message names lists exactly the messages just added to it |
| Timeline.CopiesKeyed | src/app/api/chat/branches/route.ts:86-95 | the copies of one loop have distinct ids |
| Timeline.AddKeepsValid | src/app/api/chat/branches/route.ts:67-95 | adding branches and messages with fresh, distinct ids keeps the store valid |
| Timeline.GrowKeepsValid | src/app/api/chat/branches/route.ts:67-95 | adding a branch with the next id and then its messages with the following ids keeps the store valid |
| Timeline.AppendThenDeleteKeyed | src/app/api/chat/branches/merge/route.ts:57-69 | appending messages with fresh consecutive ids and then deleting some keeps the message table keyed |
| Branches.ListedBranches | src/app/api/chat/branches/route.ts:21-25 | exactly the branches of the conversation, newest first |
| Branches.ViewsOf | src/app/api/chat/branches/route.ts:28-41 | each listed branch comes with its own messages |
| Branches.ListBranches | src/app/api/chat/branches/route.ts:11-43 | `GET`: a falsy `conversationId` is exactly the 400 case; otherwise the listed branches, each with its messages oldest first; nothing is written |
| Branches.ParentOf | src/app/api/chat/branches/route.ts:70 | a falsy `parentId` is null, any other is parsed |
| Branches.ConversationMessages | src/app/api/chat/branches/route.ts:77-80 | exactly the messages of the conversation, on any branch |
| Branches.SelectSeedAsWritten | src/app/api/chat/branches/route.ts:82-84 | as written: a message is selected exactly when its id's decimal text is among the given ids |
| Branches.SelectSeed | src/app/api/chat/branches/route.ts:76-84 | corrected: a message is selected exactly when its id is given as a number or as its decimal text |
| Branches.BranchSeed | src/app/api/chat/branches/route.ts:76-84 | the messages to copy all belong to the conversation, and are those named as text (as written) or as number or text (corrected) |
| Branches.InsertBranch | src/app/api/chat/branches/route.ts:67-95 | one branch row with the next id, then a copy of every message of the given selection, in order, into the new branch; nothing else changes |
| Branches.CreateBranch | src/app/api/chat/branches/route.ts:56-108 | the handler as written: success exactly when `conversationId` and `name` are truthy and the id parses; failures change nothing; the new branch holds copies of exactly the messages of the conversation whose decimal id text was sent |
| Branches.CreateBranchWith | src/app/api/chat/branches/route.ts:56-108 | `POST` with either selection: 400 exactly when `conversationId` or `name` is falsy; success exactly when the id also parses; every failure leaves the store unchanged; success inserts the branch and its copies and returns the new branch with exactly its new messages |
| Branches.CreateBranchIntended | src/app/api/chat/branches/route.ts:56-108 | the handler with the corrected selection: same success condition; the new branch holds copies of exactly the messages of the conversation named by number or by text |
| Branches.CreateBranchKeepsValid | src/app/api/chat/branches/route.ts:67-95 | a `POST`, as written and corrected, keeps ids unique and below the counter |
| Branches.CreateBranchWithKeepsValid | src/app/api/chat/branches/route.ts:67-95 | a `POST` with either selection keeps ids unique and below the counter |
| Branches.InsertBranchKeepsValid | src/app/api/chat/branches/route.ts:67-95 | the inserts of a `POST` keep ids unique and below the counter |
| Branches.CreateBranchKeepsIntegrity | src/app/api/chat/branches/route.ts:86-95 | as written and corrected, copies name a conversation that exists, so no reference dangles |
| Branches.CreateBranchWithKeepsIntegrity | src/app/api/chat/branches/route.ts:86-95 | with either selection, copies name a conversation that exists |
| Branches.SeedIgnoresDuplicates | src/app/api/chat/branches/route.ts:82-84 | corrected selection: it depends only on which ids are named, so repeating an id copies nothing twice |
| Branches.SeedIgnoresDuplicatesAsWritten | src/app/api/chat/branches/route.ts:82-84 | the handler's selection: it depends only on which ids are named, so repeating an id copies nothing twice |
| Branches.SeedCopiesOnce | src/app/api/chat/branches/route.ts:82-95 | corrected selection: with unique message ids, every selected message is copied exactly once |
| Branches.SeedCopiesOnceAsWritten | src/app/api/chat/branches/route.ts:82-95 | the handler's selection: with unique message ids, every selected message is copied exactly once |
| Branches.SeedCopiesOnceAux | src/app/api/chat/branches/route.ts:82-84 | for either selection's test, a message that passes occurs once in the selection and one that fails does not occur |
| Branches.SeedAsWrittenIgnoresNumbers | src/app/api/chat/branches/route.ts:82-84 | as written, ids sent as numbers select nothing |
| Branches.SeedAgreesOnText | src/app/api/chat/branches/route.ts:82-84 | when every id is sent as text, the corrected selection is the handler's |
| Branches.ClientSelectionCopiesNothing | src/app/api/chat/branches/route.ts:82-84 | the request the branching page sends (number ids) copies nothing as written, but the message under the correction |
| Branches.CreateBranchWithoutSeed | src/app/api/chat/branches/route.ts:99-108 | a request with a conversation id and a name succeeds under both handlers; each returns its new branch empty and adds no message when its own test matches no message of the conversation |
| Branches.CreateBranchWithoutSeedWith | src/app/api/chat/branches/route.ts:99-108 | with either selection, when that selection's test matches no message of the conversation, the new branch is empty and no message is added |
| Branches.NumberIdsCreateEmptyBranch | src/app/api/chat/branches/route.ts:82-108 | ids sent as numbers: the handler returns an empty branch and adds no message, although the corrected test matches every named message of the conversation |
| Branches.NoSeed | src/app/api/chat/branches/route.ts:82-84 | a selection whose test matches no message of the conversation is empty |
| Branches.InsertNothing | src/app/api/chat/branches/route.ts:86-95 | with an empty selection the message table is unchanged |
| Merge.FindBranch | src/app/api/chat/branches/merge/route.ts:22-26 | the first branch with the id; none exactly when no branch has it (a `NaN` id finds none) |
| Merge.MergeCopies | src/app/api/chat/branches/merge/route.ts:50-66 | one copy per source message, in `createdAt` order, with the same content, placed in the target's conversation and branch |
| Merge.Merged | src/app/api/chat/branches/merge/route.ts:50-70 | after a merge no message is on the source branch, exactly the other branch rows remain, and the other tables are untouched |
| Merge.MergeBranches | src/app/api/chat/branches/merge/route.ts:11-72 | `POST`: 400 exactly when an id is falsy; 404 for the source exactly when it is missing, checked first; 404 for the target exactly when the source exists and the target does not; success exactly when both ids are truthy and both branches exist; failures change nothing; otherwise the merge |
| Merge.MergedMessages | src/app/api/chat/branches/merge/route.ts:57-70 | for distinct branches, the messages afterwards are the old ones off the source, followed by the copies |
| Merge.MergeTargetGrows | src/app/api/chat/branches/merge/route.ts:57-70 | the target keeps its messages in order and gains exactly the source's count of copies |
| Merge.MergeLeavesOtherBranches | src/app/api/chat/branches/merge/route.ts:57-70 | every other branch keeps exactly its messages |
| Merge.MergeIntoItself | src/app/api/chat/branches/merge/route.ts:53-70 | merging a branch into itself deletes the fresh copies too, so the branch ends with no messages |
| Merge.MergedMessagesKeyed | src/app/api/chat/branches/merge/route.ts:57-70 | after a merge, message ids are unique and below the counter, and branch ids on messages are too |
| Merge.MergeKeepsValid | src/app/api/chat/branches/merge/route.ts:57-70 | a merge keeps the store valid |
| Merge.MergeKeepsIntegrity | src/app/api/chat/branches/merge/route.ts:53-70 | a merge into a branch whose conversation exists leaves no dangling reference |
| Merge.MergeCanDangle | src/app/api/chat/branches/merge/route.ts:53-70 | merging a branch with at least one message into a different branch whose conversation is missing leaves a message whose conversation is missing |
| Merge.MergeBranchesKeepsInvariants | src/app/api/chat/branches/merge/route.ts:11-72 | `POST`: when every branch belongs to an existing conversation, the merge route keeps both store invariants |
| MemoryApi.JoinOne | src/app/api/memory/route.ts:29-31 | the join rows of one memory: its view with each of the caller's characters it names |
| MemoryApi.Join | src/app/api/memory/route.ts:20-31 | the inner join: exactly the memories of characters the caller created, each with that character's name |
| MemoryApi.ListMemories | src/app/api/memory/route.ts:10-34 | `GET`: 401 exactly without a token; otherwise exactly the caller's memories, oldest first; nothing is written |
| MemoryApi.CreateMemory | src/app/api/memory/route.ts:43-80 | `POST`: 401 without a token, then 400 for a falsy character or content, then 404 unless the caller created the character; success exactly when none of these applies; failures change nothing; success appends one memory whose priority defaults to `medium` and returns 201 |
| MemoryApi.CreatedMemoryIsListed | src/app/api/memory/route.ts:70-80 | a created memory appears in the caller's list |
| MemoryApi.CreateMemoryTwice | src/app/api/memory/route.ts:70-80 | the same request twice adds two memories with different ids and the same fields |
| MemoryApi.CreateMemoryKeepsInvariants | src/app/api/memory/route.ts:59-78 | a memory insert keeps the store valid and names an existing character |
| ConversationsApi.JoinOne | src/app/api/conversations/route.ts:47-52 | the join rows of one conversation: its view with its character, when it is the caller's and not archived |
| ConversationsApi.Join | src/app/api/conversations/route.ts:35-53 | exactly the caller's non-archived conversations, each with its character's name and avatar |
| ConversationsApi.ListConversations | src/app/api/conversations/route.ts:27-56 | `GET`: 401 exactly without a valid token; otherwise the caller's non-archived conversations, most recently updated first; nothing is written |
| ConversationsApi.FindCharacter | src/app/api/conversations/route.ts:86-90 | a character with the id; none exactly when no character has it |
| ConversationsApi.CreateConversation | src/app/api/conversations/route.ts:68-113 | `POST`: 401, then 400 for a falsy `characterId`, then 404 for an unknown character; success exactly when none of these applies; failures change nothing; success appends a conversation owned by the caller, titled with the given title or else the character's name, not archived |
| ConversationsApi.CreatedConversationIsListed | src/app/api/conversations/route.ts:99-106 | a created conversation appears in the caller's list |
| ConversationsApi.CreateConversationTwice | src/app/api/conversations/route.ts:99-106 | there is no find-or-create: the same request twice adds two conversations with different ids |
| ConversationsApi.AddConversationKeeps | src/app/api/conversations/route.ts:99-106 | appending a conversation with the next id, an existing user and an existing character keeps the store valid and closed |
| ConversationsApi.CreateConversationKeepsInvariants | src/app/api/conversations/route.ts:99-106 | when the caller is a user, a `POST` keeps the store valid and closed |
| CharactersApi.ListCharacters | src/app/api/characters/route.ts:27-44 | `GET`: with `userId`, exactly that user's characters, public or not; without it, exactly the public ones |
| CharactersApi.PublicFlag | src/app/api/characters/route.ts:92 | an omitted `isPublic` defaults to true, a null one stays null, and a given one is kept |
| CharactersApi.CreateCharacter | src/app/api/characters/route.ts:56-102 | `POST`: 401 without a token, then 400 without a name; success exactly otherwise; failures change nothing; success appends a character created by the caller with the given fields, public exactly when `isPublic` is undefined or true |
| CharactersApi.CreatedCharacterIsListed | src/app/api/characters/route.ts:32-42 | a created character is in its creator's list, and in the public list exactly when it is public |
| CharactersApi.CreateCharacterKeepsInvariants | src/app/api/characters/route.ts:82-94 | when the caller is a user, a `POST` keeps the store valid and closed |
| Analytics.PeriodOf | src/app/api/analytics/route.ts:17 | the period is the given one, or `30d` when it is absent or empty |
| Analytics.StartDate | src/app/api/analytics/route.ts:23-36 | `7d`, `30d` and `90d` go back that many days; `all` is the epoch; any other period starts now |
| Analytics.StartDateOrder | src/app/api/analytics/route.ts:23-36 | longer periods start earlier, and no period starts after now |
| Analytics.DefaultWindow | src/app/api/analytics/route.ts:17-28 | without a period the window is the last 30 days |
| Analytics.OverallStats | src/app/api/analytics/route.ts:39-65 | the overall counts: the number of the caller's characters, and the joined counts of their conversations and of their messages since the start; no conversation or message is counted when the caller owns no character |
| Analytics.PartnersScoped | src/app/api/analytics/route.ts:47-50 | a character of another creator never joins |
| Analytics.ConversationCountScoped | src/app/api/analytics/route.ts:44-53 | the conversation count is unchanged when other creators' characters are removed |
| Analytics.MessagePartnersScoped | src/app/api/analytics/route.ts:58-62 | a message's join rows are unchanged when other creators' characters are removed |
| Analytics.MessageCountScoped | src/app/api/analytics/route.ts:55-65 | the message count is unchanged when other creators' characters are removed |
| Analytics.OverallStatsScoped | src/app/api/analytics/route.ts:39-65 | creator scoping: the overall numbers are the same after every character of another creator is removed |
| Analytics.NoOwnedCharacters | src/app/api/analytics/route.ts:39-65 | without owned characters no conversation or message is counted |
| Analytics.ConversationCountEmpty | src/app/api/analytics/route.ts:44-53 | with no characters no conversation is counted |
| Analytics.MessagePartnersEmpty | src/app/api/analytics/route.ts:55-62 | with no characters a message joins nothing |
| Analytics.MessageCountEmpty | src/app/api/analytics/route.ts:55-65 | with no characters no message is counted |
| Analytics.Bump | src/app/api/analytics/route.ts:153 | `wordCount.set(word, get + 1)`: a known word keeps its place, a new word is appended with count 1 |
| Analytics.BumpCounts | src/app/api/analytics/route.ts:149-155 | a bump adds one to that word's count and leaves every other count alone |
| Analytics.BumpDistinct | src/app/api/analytics/route.ts:149-155 | the word map never holds a word twice |
| Analytics.BumpHasWord | src/app/api/analytics/route.ts:153 | after a bump, the known words are the old ones and the bumped word |
| Analytics.CountWordsCorrect | src/app/api/analytics/route.ts:149-155 | every word's count is its number of occurrences, and words are distinct |
| Analytics.CountWordsWords | src/app/api/analytics/route.ts:149-155 | the counted words are exactly the words that occur |
| Analytics.Keywords | src/app/api/analytics/route.ts:151 | a message's keywords are its words longer than 3 characters, each kept exactly as often as it occurs, and no shorter word |
| Analytics.AllKeywordsFrom | src/app/api/analytics/route.ts:150-155 | every keyword is longer than 3 characters and is a word of some fetched message |
| Analytics.Ranked | src/app/api/analytics/route.ts:157-158 | the entries sorted by count: a permutation with non-increasing counts |
| Analytics.WithKeyItems | src/app/api/analytics/route.ts:157-158 | the entries of one count are the entries filtered by that count |
| Analytics.RankedStable | src/app/api/analytics/route.ts:157-158 | entries with equal counts keep their first-occurrence order |
| Analytics.TopTopics | src/app/api/analytics/route.ts:157-160 | 5 words, or every entry when there are fewer, all counted, in non-increasing count order, none twice |
| Analytics.DistinctOnce | src/app/api/analytics/route.ts:149-155 | when the counted words are distinct, no entry occurs twice |
| Analytics.RankedDistinct | src/app/api/analytics/route.ts:157-158 | sorting the counts keeps the words distinct |
| Analytics.EntryCount | src/app/api/analytics/route.ts:149-155 | in a map without repeated words, an entry's count is its word's count |
| Analytics.TopTopicsDominate | src/app/api/analytics/route.ts:157-160 | no word left out of the top topics has a higher count than a word in them |
| Analytics.WindowsAdd | src/app/api/analytics/route.ts:67-83 | counting from an earlier start is the count of the previous window plus the count of the current one |
| Analytics.EmptyWindow | src/app/api/analytics/route.ts:81 | a window that ends where it starts counts nothing |
| Analytics.GrowthTenths | src/app/api/analytics/route.ts:85-94 | the growth in tenths of a percent, rounded half up: with earlier messages, `r` is the integer with `2p·r <= 2000(t-p)+p < 2p·(r+1)`; 0 without earlier messages; non-negative when there are at least as many; +100% for double; -100% for none |
| Analytics.Latest | src/app/api/analytics/route.ts:127-133 | the newest `createdAt` of the rows; none exactly when there are no rows |
| Analytics.LastActivity | src/app/api/analytics/route.ts:169 | no message of the character is newer; when the character has a message it is the time of one of them (so the newest), and otherwise the character's creation time |
| Analytics.RecentMessages | src/app/api/analytics/route.ts:136-146 | at most 100 of the character's messages in the period |
| Analytics.TopicsOf | src/app/api/analytics/route.ts:136-160 | 5 topics, or every distinct keyword when there are fewer; each a long word of one of the recent messages; none twice; most frequent first; no keyword that is left out occurs more often than any topic |
| Analytics.TopicsFacts | src/app/api/analytics/route.ts:146-160 | for any list of messages, the top words of its keywords have the properties `TopicsOf` promises |
| Analytics.CountWordsSize | src/app/api/analytics/route.ts:149-155 | the map holds one entry per distinct word |
| Analytics.TopWordsShape | src/app/api/analytics/route.ts:149-160 | the top words are 5, or all distinct words when there are fewer, none twice, in non-increasing order of occurrences |
| Analytics.TopWordsFrom | src/app/api/analytics/route.ts:148-160 | every top word is a word longer than 3 characters of one of the messages |
| Analytics.TopWordsDominate | src/app/api/analytics/route.ts:146-160 | no word left out of the five most counted occurs more often than one of them |
| Analytics.StatsOf | src/app/api/analytics/route.ts:103-171 | a character's entry: its id, name and avatar (or `''`), its conversation and message counts in the period, its last activity and topics |
| Analytics.AllStats | src/app/api/analytics/route.ts:103-173 | one entry per owned character, in order |
| Analytics.SumConversationsNone | src/app/api/analytics/route.ts:105-113 | with no conversations the per-character counts sum to 0 |
| Analytics.SumConversationsStep | src/app/api/analytics/route.ts:105-113 | a conversation adds one to the sum for each owned character with its id |
| Analytics.SumConversationsOverall | src/app/api/analytics/route.ts:44-53 | the per-character sum over owned characters is the overall conversation count |
| Analytics.ConversationTotalMatches | src/app/api/analytics/route.ts:103-113 | the entries' conversation counts sum to the per-character sum |
| Analytics.ConversationTotalOf | src/app/api/analytics/route.ts:103-113 | the report entries' conversation counts sum to the per-character sum |
| Analytics.ReportFor | src/app/api/analytics/route.ts:89-101 | the overall numbers; growth computed from the messages of the previous window of equal length; one entry per character of the caller, in table order, each that character's statistics; active characters equal total characters |
| Analytics.OwnedStatsCover | src/app/api/analytics/route.ts:89-101 | every per-character entry is of a character the caller created, and each such character has its entry |
| Analytics.GetAnalytics | src/app/api/analytics/route.ts:10-178 | 401 exactly without a token; otherwise the report for the caller over the period's window |
| Analytics.ConversationsAddUp | src/app/api/analytics/route.ts:44-113 | the per-character conversation counts add up to the overall count |
| Analytics.UnknownPeriodNoGrowth | src/app/api/analytics/route.ts:23-87 | an unknown period still yields a report, with zero growth |
| SpaStore.MessagesOf | js/app.js:140-143 | a conversation's stored messages, or none |
| SpaStore.FindConv | js/app.js:124 | `findIndex`: the first position with the id, or none exactly when no record has it |
| SpaStore.Upsert | js/app.js:122-129 | replaces the first record with the id in place and keeps the others, or appends |
| SpaStore.UpsertFinds | js/app.js:122-129 | after an upsert the record is found under its id |
| SpaStore.UpsertIdempotent | js/app.js:122-129 | saving the same record twice is saving it once |
| SpaStore.UpsertRecords | js/app.js:122-129 | the records afterwards are old ones or the new one; the others survive and the new one is there |
| SpaStore.SaveConversation | js/app.js:122-129 | saving a conversation changes only the conversation list |
| SpaStore.DeleteConversation | js/app.js:131-136 | removes every conversation with the id and its message list; the other lists and favourites are unchanged |
| SpaStore.DeleteAfterUpsert | js/app.js:122-136 | deleting after an upsert removes the same records as deleting alone |
| SpaStore.DeleteAfterSave | js/app.js:122-136 | saving and then deleting a conversation is deleting it |
| SpaStore.SaveMessage | js/app.js:145-150 | appends the message to its conversation's list and returns that list; other lists are unchanged |
| SpaStore.SetMessages | js/app.js:372 | overwrites one conversation's list and no other |
| SpaStore.MessagesInGrows | js/app.js:222-226 | a saved message adds one to the sum for each listed conversation with that id |
| SpaStore.SaveMessageTotal | js/app.js:222-226 | `getTotalMessages` grows by the number of listed conversations with that id |
| SpaStore.Position | js/app.js:164 | `indexOf`: the first position of the value, or none exactly when it is absent |
| SpaStore.Toggle | js/app.js:162-175 | an absent favourite is appended; for a present one, exactly its first occurrence is removed and the rest keep their order |
| SpaStore.ToggleFlips | js/app.js:162-175 | on a list without repeats, a toggle flips membership of that value only and keeps the list free of repeats |
| SpaStore.ToggleTwiceAbsent | js/app.js:162-175 | toggling an absent value twice restores the list |
| SpaStore.ToggleTwicePresent | js/app.js:162-175 | toggling a present value twice keeps the same elements, and restores the list exactly when the value was last |
| SpaApp.Navigate | js/app.js:180-187 | the page changes and nothing else in the model |
| SpaApp.CharIndex | js/app.js:220 | the first character with the id, or none exactly when no character has it |
| SpaApp.FindChar | js/app.js:220 | `getCharById`: the first character with the id, or none |
| SpaApp.FindByChar | js/app.js:255 | a conversation with that character, or none exactly when there is none |
| SpaApp.GreetingText | js/app.js:270 | the character's greeting, or the Arabic or English default greeting with its name |
| SpaApp.NewConv | js/app.js:257-265 | a new conversation's id, character, name, last message and times |
| SpaApp.Greeting | js/app.js:267-272 | the greeting is a bot message with the greeting text |
| SpaApp.StartChat | js/app.js:247-278 | signed out it goes to the login page; an unknown character changes nothing; otherwise it opens a chat with that character that is in the saved list, and an existing chat changes no storage |
| SpaApp.StartChatGreets | js/app.js:256-273 | a first chat saves the new conversation with the greeting appended to its list, which is only the greeting when nothing was stored |
| SpaApp.StartChatReuses | js/app.js:255-277 | find-or-create: opening the same chat again changes no storage |
| SpaApp.LastFrom | js/app.js:356-361 | the last position with the sender, or none exactly when there is none |
| SpaApp.LastBot | js/app.js:366-371 | the last bot message's position, or none |
| SpaApp.LastUserText | js/app.js:355-361 | the last user message's text, or `''` without one |
| SpaApp.RemoveLastBot | js/app.js:364-371 | removes the last bot message only, keeping the rest in order; without one, nothing |
| SpaApp.RemoveLastBotKeeps | js/app.js:364-371 | every non-bot message is kept and exactly one bot message goes |
| SpaApp.Regenerate | js/app.js:351-372 | declines exactly with fewer than 2 messages or no user text; otherwise removes the last bot message |
| SpaApp.RegenerateApp | js/app.js:345-372 | no chat or typing changes nothing; only the open chat's list can change, and only to the regenerated list; with an open chat of a known character, not typing, and a regeneration available, the open chat's list becomes the regenerated list |
| SpaApp.VisibleCharacters | js/app.js:741-756 | a character is shown exactly when it matches the query, the type and the category |
| SpaApp.SkipStage | js/app.js:750-756 | a stage whose test always holds keeps the list |
| SpaApp.VisibleIsOneFilter | js/app.js:741-756 | the three stages together are one filter on the conjunction, in list order |
| SpaApp.EmptySearchKeepsAll | js/app.js:741 | an empty query keeps every character |
| SpaApp.LoginForm | js/app.js:1331-1334 | login succeeds exactly when the trimmed user is non-empty and the password has at least 6 characters; the e-mail is the user at `lordai.com` |
| SpaApp.LoginIgnoresSpaces | js/app.js:1331-1333 | spaces around the user name do not matter |
| SpaApp.RegisterForm | js/app.js:1348-1352 | registration succeeds exactly when the trimmed user has at least 3 characters, the trimmed e-mail is non-empty and the password has at least 6 characters |
| SpaApp.RegisteredCanLogIn | js/app.js:1333-1351 | whatever registration accepts, login accepts |
| SpaApp.SaveUser | js/app.js:84-89 | signs in the user with a `token_` token and changes nothing else |
| SpaApp.CommaList | js/app.js:1378 | a text is an item exactly when it is the non-empty trimming of some comma-separated piece; items are comma-free and trimmed; order is that of the pieces |
| SpaApp.NonEmptyKeeps | js/app.js:1378 | dropping empties from a list without empties keeps it |
| SpaApp.TrimAllKeeps | js/app.js:1378 | trimming trimmed items keeps them |
| SpaApp.CommaListEmpty | js/app.js:1378 | an empty field gives no item |
| SpaApp.CommaListJoin | js/app.js:1378 | the list read back from its comma join is the list |
| SpaApp.CreateForm | js/app.js:1372-1389 | accepted exactly when the trimmed name and description are non-empty; traits and skills are comma lists; an empty avatar is the default one, an empty dialect is none, and a blank greeting becomes the language's default greeting with the name |
| SpaApp.SaveCustomCharacter | js/app.js:105-114 | the saved character gets the time as id, the user (or `مجهول`) as creator, is public, and is appended to the character list |
| SpaApp.SavedCharacterFound | js/app.js:105-114 | a saved character with a fresh id is found by its id |
| I18n.Code | src/lib/i18n.ts:344 | `ar` exactly for Arabic and `en` exactly for English |
| I18n.Parse | src/lib/i18n.ts:333-334 | a stored code names a language exactly when it is `ar` or `en` |
| I18n.ParseCode | src/lib/i18n.ts:333-344 | a stored language code reads back as that language |
| I18n.DirectionFor | src/lib/i18n.ts:352-358 | `rtl` exactly for Arabic and `ltr` exactly for English, with the language's code |
| I18n.ApplyDirection | src/lib/i18n.ts:349-360 | in a browser the document follows the current language; without one nothing happens; nothing but the document changes |
| I18n.Init | src/lib/i18n.ts:331-339 | adopts a stored `ar` or `en` and otherwise keeps the language; the document then follows it |
| I18n.SetLang | src/lib/i18n.ts:341-347 | the language becomes the given one; in a browser it is stored and the document follows |
| I18n.SetLangPersists | src/lib/i18n.ts:331-347 | a chosen language is adopted by the next `init`, whatever language that starts in |
| I18n.OperationsKeepConsistent | src/lib/i18n.ts:331-360 | after `init` or `setLang` the document shows the current language's direction |
| I18n.Translate | src/lib/i18n.ts:362-366 | the current language's non-empty entry, else the Arabic one, else the key |
| I18n.TranslateNonEmpty | src/lib/i18n.ts:365 | a non-empty key never translates to `''` |
| I18n.MissingEnglishFallsBack | src/lib/i18n.ts:365 | a key missing from English reads as in Arabic |
| I18n.ArabicIgnoresEnglish | src/lib/i18n.ts:363-365 | in Arabic the English table plays no part |
| CharacterForms.SplitTrimPieces | src/app/characters/create/page.tsx:33 | a comma split has at least one piece, each comma-free and trimmed |
| CharacterForms.SplitTrimJoin | src/app/characters/create/page.tsx:33 | comma-free trimmed pieces read back from their comma join, empty pieces included |
| CharacterForms.TrimAllPieces | src/app/characters/create/page.tsx:33 | trimming trimmed pieces keeps them |
| CharacterForms.PersonalityOf | src/app/characters/create/page.tsx:32-37 | null exactly for an empty field; otherwise the split traits, mood `friendly`, style `casual` and the description as backstory |
| CharacterForms.AttributesOf | src/app/characters/create/page.tsx:39-41 | null exactly for an empty field; otherwise the split interests |
| CharacterForms.SkillsOf | src/app/characters/create/page.tsx:43 | null exactly for an empty field; otherwise the split skills |
| CharacterForms.PersonalityRoundTrip | src/app/characters/create/page.tsx:32-37 | the traits of a comma-joined list are the list |
| CharacterForms.CreateBody | src/app/characters/create/page.tsx:51-56 | the body keeps the form's fields and replaces only personality, attributes and skills |
| CharacterForms.InitialFormRejected | src/app/characters/create/page.tsx:8-16 | the route's answer to the untouched form's body (empty name) is 400 with nothing stored; the page itself never sends that body (see `InitialFormBlocked`) |
| CharacterForms.CreateFormStored | src/app/characters/create/page.tsx:32-56 | the route stores any body with a name, including ones the page does not send (empty description), with the form's text and lists, public exactly when the box was ticked |
| CharacterForms.Submit | src/app/characters/create/page.tsx:95-122 | the browser's `required` gate: a request goes out exactly when both the name and the description are filled in |
| CharacterForms.InitialFormBlocked | src/app/characters/create/page.tsx:95-122 | the untouched form does not pass the gate, so nothing is sent |
| CharacterForms.SubmittedFormStored | src/app/characters/create/page.tsx:20-122 | a request goes out exactly for a form that passes the gate, and every such form is stored with its text and lists, public exactly when the box was ticked |
| CharacterForms.SelectFile | src/app/characters/import/page.tsx:23-34 | a PDF or text file is taken and the error cleared; another type only sets the error; no file changes nothing |
| CharacterForms.SelectFileKeepsType | src/app/characters/import/page.tsx:23-34 | the page only ever holds a PDF or text file |
| CharacterForms.KeyOf | src/app/characters/import/page.tsx:70-84 | a line announces the name exactly when its lower-cased text contains `الاسم` or `name:` |
| CharacterForms.Lines | src/app/characters/import/page.tsx:59 | a text is a line of the sheet exactly when it is the non-empty trimming of some line; lines are trimmed, free of line breaks and in order |
| CharacterForms.KeysOf | src/app/characters/import/page.tsx:69-85 | the key of every line, in order |
| CharacterForms.LastKeyed | src/app/characters/import/page.tsx:69-85 | the last line before `n` announcing the key, or none exactly when no such line exists |
| CharacterForms.Found | src/app/characters/import/page.tsx:69-85 | each field is the line after the last line announcing it, or `''` |
| CharacterForms.FoundInStep | src/app/characters/import/page.tsx:69-85 | one more line updates only the field it announces |
| CharacterForms.Scan | src/app/characters/import/page.tsx:69-85 | the loop computes exactly the fields of `Found` |
| CharacterForms.WithFallback | src/app/characters/import/page.tsx:88-91 | without a name, the first line is the name and the other lines joined by line breaks are the description |
| CharacterForms.WithDefaults | src/app/characters/import/page.tsx:93-100 | name, description and personality are never empty; given values are kept |
| CharacterForms.ExtractCharacterInfo | src/app/characters/import/page.tsx:57-101 | the parse: scan, fallback, defaults; the name is never empty |
| CharacterForms.PlainSheet | src/app/characters/import/page.tsx:87-91 | a sheet that announces nothing is a name line followed by description lines |
| CharacterForms.ImportBody | src/app/characters/import/page.tsx:116-143 | the import body maps the lists as the create form does and is always public |
| CharacterForms.ImportAccepted | src/app/characters/import/page.tsx:103-145 | every parsed sheet is accepted for a signed-in user, as a public character of theirs |
| Export.SenderLabel | src/app/export/page.tsx:231 | `أنت` for the user, the character's name otherwise |
| Export.MessageClass | src/app/export/page.tsx:172 | class `user` exactly for the user's messages, `character` exactly for the others |
| Export.LabelMatchesClass | src/app/export/page.tsx:172-173 | the class is `user` exactly when the label is `أنت` |
| Export.Repeat | src/app/export/page.tsx:228 | `'='.repeat(n)`: n copies of the character |
| Export.TxtBody | src/app/export/page.tsx:230-234 | no messages give no text |
| Export.ExportTxt | src/app/export/page.tsx:224-234 | the header comes first, followed by exactly as many characters as the message blocks hold |
| Export.TxtBodyAppend | src/app/export/page.tsx:230-234 | the blocks of two message lists are the blocks of each, in order |
| Export.ExportTxtAppend | src/app/export/page.tsx:230-234 | one more message adds exactly its block at the end |
| Export.TxtHeaderLines | src/app/export/page.tsx:225-228 | read back line by line, the header is the three lines, 50 `=` and a blank line |
| Export.TxtBlockLines | src/app/export/page.tsx:233 | read back line by line, a block is `[time] label:`, the content and a blank line |
| Export.ExportJson | src/app/export/page.tsx:200-211 | the JSON document carries the conversation's fields, the messages and the export time |
| Export.ExportHtml | src/app/export/page.tsx:165-177 | one box per message, in order, with its content, class and label |
| Export.FindExport | src/app/export/page.tsx:78 | the first listed conversation with the id, or none exactly when none has it |
| Export.Serialise | src/app/export/page.tsx:81-91 | exactly one serialiser runs, the one the format names |
| Export.HandleExport | src/app/export/page.tsx:72-91 | a download exactly when a non-zero id is selected, there are messages and the id is listed; it is the selected format's download of that conversation |
| ImageUpload.NewPicker | src/components/ImageUpload.tsx:10-12 | an empty picker with the given capacity |
| ImageUpload.SelectFiles | src/components/ImageUpload.tsx:16-46 | a batch that would overfill, invalid files counted, is refused whole; otherwise the valid files are appended in order, each with a preview |
| ImageUpload.SelectKeepsGood | src/components/ImageUpload.tsx:19-45 | a selection never overfills the picker and keeps one preview per file |
| ImageUpload.SelectAddsExactlyValid | src/components/ImageUpload.tsx:24-36 | an accepted batch adds exactly its valid images |
| ImageUpload.RemoveAt | src/components/ImageUpload.tsx:49-50 | `filter((_, i) => i !== index)`: drops exactly that position, or nothing when it is out of range |
| ImageUpload.RemoveImage | src/components/ImageUpload.tsx:48-51 | the same position leaves the files and the previews |
| ImageUpload.RemoveKeepsPairs | src/components/ImageUpload.tsx:48-51 | removing keeps every remaining file with its own preview |
| ImageUpload.Upload | src/components/ImageUpload.tsx:53-67 | nothing selected does nothing; otherwise every preview is handed over in order and the picker is emptied |
| ImageUpload.UploadTwice | src/components/ImageUpload.tsx:53-67 | after an upload a second one hands over nothing |
| MemoryPage.AddRequest | src/app/memory/page.tsx:74 | the form is posted field by field |
| MemoryPage.AddMemory | src/app/memory/page.tsx:65-85 | a successful add resets the form; a refused one keeps it |
| MemoryPage.InitialFormRefused | src/app/memory/page.tsx:22-26 | the initial form (character 0, no content) is refused with 400 and nothing is stored |
| MemoryPage.ResubmitAfterAddRefused | src/app/memory/page.tsx:77-80 | submitting again right after an add is refused: the reset form names no character |
| MemoryPage.EditBody | src/app/memory/page.tsx:98-101 | the edit body carries the content and the priority |
| MemoryPage.EditBodyIgnoresRest | src/app/memory/page.tsx:98-101 | nothing else of the memory reaches the edit body |
| MemoryPage.PriorityLabel | src/app/memory/page.tsx:145-156 | `high`, `medium` and `low` read `عالية`, `متوسطة` and `منخفضة`; anything else is shown as it is |
| MemoryPage.PriorityColor | src/app/memory/page.tsx:132-143 | red, yellow and green classes for the known priorities, gray otherwise |
| MemoryPage.GrayIffUntranslated | src/app/memory/page.tsx:132-156 | a priority is gray exactly when its label is the text itself |
| MemoryPage.KnownPrioritiesDistinct | src/app/memory/page.tsx:132-156 | the known priorities get distinct labels and distinct colours |

## Left out

- Token handling. The caller is an input: the id the token carries, or `None` for a 401. The character and conversation routes check the token with `jwt.verify`, and a missing or failing token is a 401 (src/app/api/characters/route.ts:8-23). The memory and analytics routes give a 401 only when the token is missing. The memory and analytics routes decode the payload with `JSON.parse` of the base64 middle segment. They never check its signature (src/app/api/memory/route.ts:16,48; src/app/api/analytics/route.ts:15). For them, a token that does not decode throws into the 500 catch (src/app/api/memory/route.ts:34-37). That 500 is not modelled, and neither is the acceptance of an unsigned payload.
- Storage errors. The 500 responses from failing database calls are not modelled, and neither are the partial writes of the non-transactional loops. Each handler is one sequential state transition. The one 500 that is modelled is a branch `POST` whose `conversationId` parses to `NaN`: it is treated as a failing NOT NULL insert that changes nothing.
- SQLite storage. Per-table autoincrement counters are modelled as one shared counter. Type affinity is not modelled: a `characterId` sent as a string is not compared to integer ids.
- Merge.MergeBranches: a merge into a branch whose conversation is missing inserts copies that name that missing conversation. The model does not reject that insert. If the database enforces the `messages.conversationId` foreign key (src/db/schema.ts:64), the insert fails with a 500 instead, and that 500 is not modelled.
- Analytics.TopicsOf: the order among topics with equal counts is not restated. `Analytics.RankedStable` proves that entries with equal counts keep their first-occurrence order.
- CharacterForms.Submit: the `type="url"` check on the avatar input (src/app/characters/create/page.tsx:131) is not part of the gate. A non-empty avatar that is not a URL would also block the submit.
- Schema.Cascade: models the relations the routes rely on. The cascades of the undeclared tables (branches with their conversation, memories with their character) follow the ownership the routes assume.
- Analytics.GrowthTenths: `growthRate` is computed in integer tenths of a percent, rounded as `Math.round` does, instead of in floating point. `avgMessagesPerConversation` is left out because it is a floating-point division.
- Analytics.StartDate: a day is a fixed 86 400 000 ms. `setDate` on the local calendar, with daylight-saving days, is not modelled.
- Analytics.RecentMessages: `limit(100)` without an `ORDER BY` is modelled as the first 100 rows in table order.
- Text.Words: the contract states that every word is non-empty and free of white space. It does not state that the words cover the text in order.
- CharacterForms.KeyOf: the contract states the name test only. The tests for the other keys, tried in turn after it, are in the function's body.
- Text.ToLower: only ASCII capitals are lowered. Arabic has no case, and the other Unicode case mappings are not modelled.
- Text lengths count Dafny characters, not UTF-16 code units. This matters only for characters outside the Basic Multilingual Plane. It affects the `length > 3` keyword test and the `.length` checks of SpaApp.LoginForm and SpaApp.RegisterForm (js/app.js:1333,1351).
- Export.ExportHtml: only the per-message parts of the printable page are modelled: class, label, content and time. The CSS and fixed text are not.
- Export: `toLocaleString` and `toISOString` are the `stamp` and `exportedAt` parameters. The blob download and the alerts are not modelled.
- ImageUpload.SelectFiles: previews are appended in file order. The `FileReader` callbacks finish asynchronously and may append in another order. Previews are the `read` parameter.
- The client pages' redirect to the login page when no token is stored (create, import, export and memory pages) is not modelled, and neither are their `fetch` calls. The pages are modelled up to the request body they send, and the memory page also up to the route it calls.
- CharacterForms: the import preview's `handleEdit` (src/app/characters/import/page.tsx:164-168, wired to the inputs at :267) is not modelled. Editing the previewed fields before saving can blank the name, and the save then gets the route's 400. The model saves the sheet as parsed.
- The memory update and delete endpoints (`/api/memory/[id]`) are called by the memory page but are not part of this model. Branch delete and rename are not part of this model either.
- Rendering is not modelled. This covers the HTML templates of `js/app.js`, toasts, scrolling, sidebar state and the AI engine's replies. Only the message-list edits around them are modelled.
- The translation tables' contents are not modelled: lookup works over any pair of tables.
- Websockets, voice chat, dynamic translation loading and the static pages are not part of this model.
- Concurrency is not modelled: every handler runs alone on the store it is given.

## Findings

| source | as written | input that shows it | evidently intended | confidence | as-written member | corrected member |
|---|---|---|---|---|---|---|
| src/app/api/chat/branches/route.ts:82-84 | a message is copied into the new branch only when `messageIds` contains its id as a string (`msg.id.toString()`) | the branching page (src/app/chat/[id]/branch/page.tsx:31,66) sends `messageIds: [1]` as numbers for message 1 of the conversation; nothing is copied | a message named by its id, as a number or as its decimal text, is copied once | high (not executed) | Branches.SelectSeedAsWritten, Branches.CreateBranch, Branches.ClientSelectionCopiesNothing | Branches.SelectSeed, Branches.CreateBranchIntended |

=== FILE: analytics.dfy ===
/** The analytics handler (`GET /api/analytics`): the reporting period,
    the creator-scoped counts, the per-character last activity and the
    keyword extraction behind `topTopics`. */
module Analytics {
  import opened Common
  import opened Text
  import opened Seqs
  import opened Schema
  import opened Http

  const DefaultPeriod := "30d"

  /** Milliseconds in a day; `setDate(getDate() - n)` moves back `n` days. */
  const DayMs := 86_400_000

  /** `searchParams.get('period') || '30d'`. */
  function PeriodOf(p: Option<string>): (r: string)
    ensures FalsyText(p) ==> r == DefaultPeriod
    ensures !FalsyText(p) ==> r == p.value
  {
    OrElse(p, DefaultPeriod)
  }

  /** Number of days a period reaches back, if it is one of the fixed
      windows. */
  function WindowDays(period: string): Option<nat> {
    if period == "7d" then Some(7)
    else if period == "30d" then Some(30)
    else if period == "90d" then Some(90)
    else None
  }

  /** The first instant counted: `now` minus the window, the epoch for
      `all`, and `now` itself for any other period. */
  function StartDate(period: string, now: int): (r: int)
    ensures WindowDays(period).Some? ==> r == now - WindowDays(period).value * DayMs
    ensures period == "all" ==> r == 0
    ensures WindowDays(period).None? && period != "all" ==> r == now
  {
    match WindowDays(period)
    case Some(days) => now - days * DayMs
    case None => if period == "all" then 0 else now
  }

  /** Longer windows start earlier, and no window starts after `now` (for
      an instant after the epoch). */
  lemma StartDateOrder(now: int)
    requires now >= 0
    ensures now >= 90 * DayMs ==> StartDate("all", now) <= StartDate("90d", now)
    ensures StartDate("90d", now) <= StartDate("30d", now) <= StartDate("7d", now) <= now
    ensures forall p :: StartDate(p, now) <= now
  {
  }

  /** With no period given, the window is 30 days. */
  lemma DefaultWindow(now: int)
    ensures StartDate(PeriodOf(None), now) == now - 30 * DayMs
  {
  }

  // ---- Creator-scoped counts ----

  /** The test `eq(characters.creatorId, caller)`. */
  function ByCreator(caller: int): Character -> bool {
    (c: Character) => c.creatorId == caller
  }

  /** The join partner test `characters.id = characterId and creatorId = caller`. */
  function OwnedMatch(caller: int, characterId: int): Character -> bool {
    (c: Character) => c.id == characterId && c.creatorId == caller
  }

  /** How many rows of the join a conversation with `characterId` yields. */
  function Partners(chs: seq<Character>, caller: int, characterId: int): nat {
    |Filter(chs, OwnedMatch(caller, characterId))|
  }

  /** `count()` of conversations joined with the caller's characters,
      created at or after `start`. */
  function ConversationCount(cs: seq<Conversation>, chs: seq<Character>, caller: int, start: int): nat
  {
    if cs == [] then 0
    else
      (if cs[0].createdAt >= start then Partners(chs, caller, cs[0].characterId) else 0)
      + ConversationCount(cs[1..], chs, caller, start)
  }

  /** Join rows one message yields through its conversations. */
  function MessagePartners(m: Message, cs: seq<Conversation>, chs: seq<Character>, caller: int): nat
  {
    if cs == [] then 0
    else
      (if cs[0].id == m.conversationId then Partners(chs, caller, cs[0].characterId) else 0)
      + MessagePartners(m, cs[1..], chs, caller)
  }

  /** `count()` of messages joined with conversations and the caller's
      characters, created at or after `start`. */
  function MessageCount(ms: seq<Message>, cs: seq<Conversation>, chs: seq<Character>, caller: int, start: int): nat
  {
    if ms == [] then 0
    else
      (if ms[0].createdAt >= start then MessagePartners(ms[0], cs, chs, caller) else 0)
      + MessageCount(ms[1..], cs, chs, caller, start)
  }

  /** The overall numbers of the report. */
  datatype Overall = Overall(totalCharacters: nat, totalConversations: nat, totalMessages: nat)

  function OverallStats(db: Db, caller: int, start: int): (r: Overall)
    ensures r.totalCharacters <= |db.characters|
    ensures r.totalCharacters == 0 ==> r.totalConversations == 0 && r.totalMessages == 0
    ensures r.totalCharacters == |Filter(db.characters, ByCreator(caller))|
    ensures r.totalConversations == ConversationCount(db.conversations, db.characters, caller, start)
    ensures r.totalMessages == MessageCount(db.messages, db.conversations, db.characters, caller, start)
  {
    var owned := Filter(db.characters, ByCreator(caller));
    if owned == [] then
      NoOwnedCharacters(db, caller, start);
      Overall(0, 0, 0)
    else
      Overall(|owned|, ConversationCount(db.conversations, db.characters, caller, start),
              MessageCount(db.messages, db.conversations, db.characters, caller, start))
  }

  /** A character of another creator never joins. */
  lemma PartnersScoped(chs: seq<Character>, caller: int, characterId: int)
    ensures Partners(chs, caller, characterId) == Partners(Filter(chs, ByCreator(caller)), caller, characterId)
  {
    FilterFilter(chs, ByCreator(caller), OwnedMatch(caller, characterId), OwnedMatch(caller, characterId));
  }

  lemma {:induction false} ConversationCountScoped(cs: seq<Conversation>, chs: seq<Character>, caller: int, start: int)
    ensures ConversationCount(cs, chs, caller, start) == ConversationCount(cs, Filter(chs, ByCreator(caller)), caller, start)
    decreases |cs|
  {
    if cs != [] {
      PartnersScoped(chs, caller, cs[0].characterId);
      ConversationCountScoped(cs[1..], chs, caller, start);
    }
  }

  lemma {:induction false} MessagePartnersScoped(m: Message, cs: seq<Conversation>, chs: seq<Character>, caller: int)
    ensures MessagePartners(m, cs, chs, caller) == MessagePartners(m, cs, Filter(chs, ByCreator(caller)), caller)
    decreases |cs|
  {
    if cs != [] {
      PartnersScoped(chs, caller, cs[0].characterId);
      MessagePartnersScoped(m, cs[1..], chs, caller);
    }
  }

  lemma {:induction false} MessageCountScoped(ms: seq<Message>, cs: seq<Conversation>, chs: seq<Character>, caller: int, start: int)
    ensures MessageCount(ms, cs, chs, caller, start) == MessageCount(ms, cs, Filter(chs, ByCreator(caller)), caller, start)
    decreases |ms|
  {
    if ms != [] {
      MessagePartnersScoped(ms[0], cs, chs, caller);
      MessageCountScoped(ms[1..], cs, chs, caller, start);
    }
  }

  /** Creator scoping: the report is the same when every character of
      another creator is removed from the store first. */
  lemma OverallStatsScoped(db: Db, caller: int, start: int)
    ensures OverallStats(db, caller, start)
         == OverallStats(db.(characters := Filter(db.characters, ByCreator(caller))), caller, start)
  {
    var chs := Filter(db.characters, ByCreator(caller));
    ConversationCountScoped(db.conversations, db.characters, caller, start);
    MessageCountScoped(db.messages, db.conversations, db.characters, caller, start);
    FilterFilter(db.characters, ByCreator(caller), ByCreator(caller), ByCreator(caller));
  }

  lemma {:induction false} NoOwnedCharacters(db: Db, caller: int, start: int)
    requires Filter(db.characters, ByCreator(caller)) == []
    ensures ConversationCount(db.conversations, db.characters, caller, start) == 0
    ensures MessageCount(db.messages, db.conversations, db.characters, caller, start) == 0
  {
    ConversationCountScoped(db.conversations, db.characters, caller, start);
    MessageCountScoped(db.messages, db.conversations, db.characters, caller, start);
    ConversationCountEmpty(db.conversations, caller, start);
    MessageCountEmpty(db.messages, db.conversations, caller, start);
  }

  lemma {:induction false} ConversationCountEmpty(cs: seq<Conversation>, caller: int, start: int)
    ensures ConversationCount(cs, [], caller, start) == 0
    decreases |cs|
  {
    if cs != [] {
      ConversationCountEmpty(cs[1..], caller, start);
    }
  }

  lemma {:induction false} MessagePartnersEmpty(m: Message, cs: seq<Conversation>, caller: int)
    ensures MessagePartners(m, cs, [], caller) == 0
    decreases |cs|
  {
    if cs != [] {
      MessagePartnersEmpty(m, cs[1..], caller);
    }
  }

  lemma {:induction false} MessageCountEmpty(ms: seq<Message>, cs: seq<Conversation>, caller: int, start: int)
    ensures MessageCount(ms, cs, [], caller, start) == 0
    decreases |ms|
  {
    if ms != [] {
      MessagePartnersEmpty(ms[0], cs, caller);
      MessageCountEmpty(ms[1..], cs, caller, start);
    }
  }

  // ---- Keyword extraction ----

  /** A word and how often it occurred. */
  datatype Entry = Entry(word: string, count: nat)

  /** How often `w` occurs in `ws`. */
  function Occurrences(ws: seq<string>, w: string): nat {
    if ws == [] then 0
    else Occurrences(ws[..|ws| - 1], w) + (if ws[|ws| - 1] == w then 1 else 0)
  }

  /** The count recorded for `w`, or 0 (`wordCount.get(word) || 0`). */
  function CountOf(es: seq<Entry>, w: string): nat {
    if es == [] then 0
    else if es[0].word == w then es[0].count
    else CountOf(es[1..], w)
  }

  function WordsOf(es: seq<Entry>): (r: seq<string>)
    ensures |r| == |es|
    ensures forall i :: 0 <= i < |es| ==> r[i] == es[i].word
  {
    seq(|es|, i requires 0 <= i < |es| => es[i].word)
  }

  /** No word has two entries. */
  ghost predicate DistinctWords(es: seq<Entry>) {
    forall i, j :: 0 <= i < j < |es| ==> es[i].word != es[j].word
  }

  /** `wordCount.has(w)`. */
  predicate HasWord(es: seq<Entry>, w: string) {
    exists i :: 0 <= i < |es| && es[i].word == w
  }

  /** `wordCount.set(w, (wordCount.get(w) || 0) + 1)`: a word already
      present is counted in place; a new word is appended, as a `Map`
      keeps insertion order. */
  function Bump(es: seq<Entry>, w: string): (r: seq<Entry>)
    ensures HasWord(es, w) ==> |r| == |es|
    ensures !HasWord(es, w) ==> r == es + [Entry(w, 1)]
    ensures forall i :: 0 <= i < |es| ==> r[i].word == es[i].word
  {
    if es == [] then [Entry(w, 1)]
    else if es[0].word == w then [Entry(w, es[0].count + 1)] + es[1..]
    else
      var rest := Bump(es[1..], w);
      assert HasWord(es, w) ==> HasWord(es[1..], w) by {
        if HasWord(es, w) {
          var i :| 0 <= i < |es| && es[i].word == w;
          assert es[1..][i - 1].word == w;
        }
      }
      assert HasWord(es[1..], w) ==> HasWord(es, w) by {
        if HasWord(es[1..], w) {
          var i :| 0 <= i < |es[1..]| && es[1..][i].word == w;
          assert es[i + 1].word == w;
        }
      }
      [es[0]] + rest
  }

  lemma {:induction false} BumpCounts(es: seq<Entry>, w: string, x: string)
    ensures CountOf(Bump(es, w), x) == CountOf(es, x) + (if x == w then 1 else 0)
    decreases |es|
  {
    if es != [] && es[0].word != w {
      BumpCounts(es[1..], w, x);
      assert Bump(es, w) == [es[0]] + Bump(es[1..], w);
    }
  }

  lemma BumpDistinct(es: seq<Entry>, w: string)
    requires DistinctWords(es)
    ensures DistinctWords(Bump(es, w))
  {
    var r := Bump(es, w);
    if !HasWord(es, w) {
      forall i, j | 0 <= i < j < |r| ensures r[i].word != r[j].word {
        if j == |es| {
          assert es[i].word != w;
        }
      }
    }
  }

  /** The word counts of `ws`, words in order of first occurrence. */
  function CountWords(ws: seq<string>): seq<Entry>
  {
    if ws == [] then [] else Bump(CountWords(ws[..|ws| - 1]), ws[|ws| - 1])
  }

  /** Each word's count is its number of occurrences, and no word is
      listed twice. */
  lemma {:induction false} CountWordsCorrect(ws: seq<string>, x: string)
    ensures CountOf(CountWords(ws), x) == Occurrences(ws, x)
    ensures DistinctWords(CountWords(ws))
    decreases |ws|
  {
    if ws != [] {
      CountWordsCorrect(ws[..|ws| - 1], x);
      BumpCounts(CountWords(ws[..|ws| - 1]), ws[|ws| - 1], x);
      BumpDistinct(CountWords(ws[..|ws| - 1]), ws[|ws| - 1]);
    }
  }

  /** The keywords of a message: its white-space separated words longer
      than three characters. */
  function Keywords(content: string): (r: seq<string>)
    ensures forall w :: w in r ==> |w| > 3 && w in Words(content)
    ensures forall w :: multiset(r)[w] == if |w| > 3 then multiset(Words(content))[w] else 0
  {
    var r := Filter(Words(content), LongWord());
    forall w ensures multiset(r)[w] == if |w| > 3 then multiset(Words(content))[w] else 0 {
      FilterMultiset(Words(content), LongWord(), w);
    }
    r
  }

  function LongWord(): string -> bool {
    (w: string) => |w| > 3
  }

  function AllKeywords(contents: seq<string>): seq<string> {
    if contents == [] then [] else Keywords(contents[0]) + AllKeywords(contents[1..])
  }

  /** How many topics are reported per character. */
  const TopTopicCount := 5

  function KeyedByCount(es: seq<Entry>): (r: seq<Keyed<Entry>>)
    ensures |r| == |es|
    ensures forall i :: 0 <= i < |es| ==> r[i] == Keyed(es[i].count, es[i])
  {
    seq(|es|, i requires 0 <= i < |es| => Keyed(es[i].count, es[i]))
  }

  /** The entries ordered by non-increasing count; entries with equal
      counts keep their order, as `Array.prototype.sort` is stable. */
  function Ranked(es: seq<Entry>): (r: seq<Entry>)
    ensures |r| == |es|
    ensures multiset(r) == multiset(es)
    ensures forall i, j :: 0 <= i < j < |r| ==> r[i].count >= r[j].count
  {
    var ks := KeyedByCount(es);
    var sorted := SortDesc(ks);
    ItemsMultiset(sorted, ks);
    assert Items(ks) == es;
    assert forall i :: 0 <= i < |sorted| ==> sorted[i].key == sorted[i].item.count by {
      forall i | 0 <= i < |sorted| ensures sorted[i].key == sorted[i].item.count {
        assert sorted[i] in multiset(ks);
      }
    }
    Items(sorted)
  }

  /** The test `count === k` on an entry. */
  function CountIs(k: int): Entry -> bool {
    (e: Entry) => e.count == k
  }

  lemma {:induction false} WithKeyItems(ks: seq<Keyed<Entry>>, k: int)
    requires forall i :: 0 <= i < |ks| ==> ks[i].key == ks[i].item.count
    ensures Items(WithKey(ks, k)) == Filter(Items(ks), CountIs(k))
    decreases |ks|
  {
    if ks != [] {
      WithKeyItems(ks[1..], k);
      var head: seq<Keyed<Entry>> := if ks[0].key == k then [ks[0]] else [];
      ItemsAppend(head, WithKey(ks[1..], k));
      assert Items(ks)[1..] == Items(ks[1..]);
    }
  }

  /** Ranking is stable: the entries with any one count come out in the
      order they went in, which is the order their words first occurred. */
  lemma RankedStable(es: seq<Entry>, k: int)
    ensures Filter(Ranked(es), CountIs(k)) == Filter(es, CountIs(k))
  {
    var ks := KeyedByCount(es);
    var sorted := SortDesc(ks);
    assert forall i :: 0 <= i < |sorted| ==> sorted[i].key == sorted[i].item.count by {
      forall i | 0 <= i < |sorted| ensures sorted[i].key == sorted[i].item.count {
        assert sorted[i] in multiset(ks);
      }
    }
    SortStable(ks, k);
    WithKeyItems(sorted, k);
    WithKeyItems(ks, k);
    assert Items(ks) == es;
  }

  /** `topTopics`: the words of the first five ranked entries. */
  function TopTopics(es: seq<Entry>): (r: seq<string>)
    ensures |r| == if |es| < TopTopicCount then |es| else TopTopicCount
    ensures forall w :: w in r ==> w in WordsOf(es)
    ensures DistinctWords(es) ==> forall i, j :: 0 <= i < j < |r| ==> CountOf(es, r[i]) >= CountOf(es, r[j])
    ensures DistinctWords(es) ==> NoRepeats(r)
  {
    var ranked := Ranked(es);
    assert DistinctWords(es) ==> DistinctWords(ranked) by {
      if DistinctWords(es) {
        RankedDistinct(es);
      }
    }
    var n := if |es| < TopTopicCount then |es| else TopTopicCount;
    var top := ranked[..n];
    assert forall w :: w in WordsOf(top) ==> w in WordsOf(es) by {
      forall w | w in WordsOf(top) ensures w in WordsOf(es) {
        var i :| 0 <= i < |top| && WordsOf(top)[i] == w;
        assert top[i] in multiset(es);
        var k :| 0 <= k < |es| && es[k] == top[i];
        assert WordsOf(es)[k] == w;
      }
    }
    assert DistinctWords(es) ==> forall i :: 0 <= i < n ==> CountOf(es, top[i].word) == top[i].count by {
      if DistinctWords(es) {
        forall i | 0 <= i < n ensures CountOf(es, top[i].word) == top[i].count {
          assert top[i] in multiset(es);
          EntryCount(es, top[i]);
        }
      }
    }
    WordsOf(top)
  }

  /** With distinct words, no entry occurs twice. */
  lemma {:induction false} DistinctOnce(es: seq<Entry>, e: Entry)
    requires DistinctWords(es)
    ensures multiset(es)[e] <= 1
    decreases |es|
  {
    if es != [] {
      var rest := es[1..];
      assert es == [es[0]] + rest;
      assert DistinctWords(rest) by {
        forall i, j | 0 <= i < j < |rest| ensures rest[i].word != rest[j].word {
          assert rest[i] == es[i + 1] && rest[j] == es[j + 1];
        }
      }
      DistinctOnce(rest, e);
      if es[0] == e {
        forall k | 0 <= k < |rest| ensures rest[k] != e {
          assert rest[k] == es[k + 1];
        }
        assert e !in rest;
      }
    }
  }

  /** Ranking keeps words distinct: it only reorders the entries. */
  lemma RankedDistinct(es: seq<Entry>)
    requires DistinctWords(es)
    ensures DistinctWords(Ranked(es))
  {
    var r := Ranked(es);
    forall i, j | 0 <= i < j < |r| ensures r[i].word != r[j].word {
      assert r[i] in multiset(es) && r[j] in multiset(es);
      var a :| 0 <= a < |es| && es[a] == r[i];
      var b :| 0 <= b < |es| && es[b] == r[j];
      if r[i] == r[j] {
        MultisetTwice(r, i, j);
        DistinctOnce(es, r[i]);
        assert false;
      } else if a < b {
        assert es[a].word != es[b].word;
      } else {
        assert a != b;
        assert es[b].word != es[a].word;
      }
    }
  }

  /** With distinct words, the count of an entry's word is the entry's count. */
  lemma {:induction false} EntryCount(es: seq<Entry>, e: Entry)
    requires DistinctWords(es)
    requires e in es
    ensures CountOf(es, e.word) == e.count
    decreases |es|
  {
    if es[0] != e {
      assert e in es[1..];
      EntryCount(es[1..], e);
      var k :| 0 <= k < |es[1..]| && es[1..][k] == e;
      assert es[0].word != es[k + 1].word;
    }
  }

  /** No word left out of `topTopics` occurs more often than a word in it. */
  lemma TopTopicsDominate(es: seq<Entry>, e: Entry, w: string)
    requires DistinctWords(es)
    requires e in es && e.word !in TopTopics(es)
    requires w in TopTopics(es)
    ensures e.count <= CountOf(es, w)
  {
    var ranked := Ranked(es);
    var n := if |es| < TopTopicCount then |es| else TopTopicCount;
    assert e in multiset(ranked);
    var k :| 0 <= k < |ranked| && ranked[k] == e;
    var top := TopTopics(es);
    assert top == WordsOf(ranked[..n]);
    assert forall j :: 0 <= j < n ==> top[j] == ranked[j].word;
    var i :| 0 <= i < |top| && top[i] == w;
    assert k >= n;
    assert ranked[i].count >= ranked[k].count;
    assert ranked[i] in multiset(es);
    EntryCount(es, ranked[i]);
  }

  /** After a bump the listed words are the old ones and `w`. */
  lemma BumpHasWord(es: seq<Entry>, w: string, x: string)
    ensures HasWord(Bump(es, w), x) <==> HasWord(es, x) || x == w
  {
    var r := Bump(es, w);
    if HasWord(es, x) {
      var i :| 0 <= i < |es| && es[i].word == x;
      assert r[i].word == x;
    }
    if x == w {
      if HasWord(es, w) {
        var i :| 0 <= i < |es| && es[i].word == w;
        assert r[i].word == w;
      } else {
        assert r[|es|].word == w;
      }
    }
    if HasWord(r, x) {
      var i :| 0 <= i < |r| && r[i].word == x;
      if i < |es| {
        assert es[i].word == x;
      } else {
        assert r == es + [Entry(w, 1)];
      }
    }
  }

  /** Every word `CountWords` lists occurs in its input, and every word of
      the input is listed. */
  lemma {:induction false} CountWordsWords(ws: seq<string>, x: string)
    ensures HasWord(CountWords(ws), x) <==> x in ws
    decreases |ws|
  {
    if ws != [] {
      var init := ws[..|ws| - 1];
      var w := ws[|ws| - 1];
      CountWordsWords(init, x);
      BumpHasWord(CountWords(init), w, x);
      assert ws == init + [w];
    }
  }

  /** The words a list of messages contributes, message by message. */
  lemma {:induction false} AllKeywordsFrom(contents: seq<string>, w: string)
    requires w in AllKeywords(contents)
    ensures |w| > 3
    ensures exists i :: 0 <= i < |contents| && w in Words(contents[i])
    decreases |contents|
  {
    if w in Keywords(contents[0]) {
      assert w in Words(contents[0]);
    } else {
      AllKeywordsFrom(contents[1..], w);
      var i :| 0 <= i < |contents[1..]| && w in Words(contents[1..][i]);
      assert w in Words(contents[i + 1]);
    }
  }

  // ---- Growth rate ----

  /** `count()` of the caller's messages created in `[lo, hi)`. */
  function MessageCountBetween(ms: seq<Message>, cs: seq<Conversation>, chs: seq<Character>, caller: int, lo: int, hi: int): nat
  {
    if ms == [] then 0
    else
      (if lo <= ms[0].createdAt < hi then MessagePartners(ms[0], cs, chs, caller) else 0)
      + MessageCountBetween(ms[1..], cs, chs, caller, lo, hi)
  }

  /** The previous window ends where the current one starts and is as
      long: counting from `lo` is counting `[lo, start)` and then from
      `start`. */
  lemma {:induction false} WindowsAdd(ms: seq<Message>, cs: seq<Conversation>, chs: seq<Character>, caller: int, lo: int, start: int)
    requires lo <= start
    ensures MessageCount(ms, cs, chs, caller, lo)
         == MessageCountBetween(ms, cs, chs, caller, lo, start) + MessageCount(ms, cs, chs, caller, start)
    decreases |ms|
  {
    if ms != [] {
      WindowsAdd(ms[1..], cs, chs, caller, lo, start);
    }
  }

  /** An empty window counts nothing. */
  lemma {:induction false} EmptyWindow(ms: seq<Message>, cs: seq<Conversation>, chs: seq<Character>, caller: int, t: int)
    ensures MessageCountBetween(ms, cs, chs, caller, t, t) == 0
    decreases |ms|
  {
    if ms != [] {
      EmptyWindow(ms[1..], cs, chs, caller, t);
    }
  }

  /** The start of the previous window: as far before `start` as `start`
      is before `now`. */
  function PreviousStart(start: int, now: int): int {
    start - (now - start)
  }

  /** Multiplying by a positive number keeps the order. */
  lemma MulMonotone(x: int, y: int, d: int)
    requires x <= y && d > 0
    ensures x * d <= y * d
  {
    assert y * d - x * d == (y - x) * d;
  }

  /** `a / d` is the `q` with `q * d <= a < q * d + d`. */
  lemma FloorDiv(a: int, d: int, q: int)
    requires d > 0 && q * d <= a < q * d + d
    ensures a / d == q
  {
    var k := a / d;
    assert k * d <= a < k * d + d;
    if k < q {
      MulMonotone(k + 1, q, d);
    } else if k > q {
      MulMonotone(q + 1, k, d);
    }
  }

  /** `Math.round(growthRate * 10)`: the change from `previous` to
      `total`, in tenths of a percent of `previous`, rounded half up;
      0 when there was nothing before. */
  function GrowthTenths(total: nat, previous: nat): (r: int)
    ensures previous == 0 ==> r == 0
    ensures previous > 0 && total >= previous ==> r >= 0
    ensures previous > 0 && total <= previous ==> r <= 0
    ensures previous > 0 && total == 2 * previous ==> r == 1000
    ensures previous > 0 && total == 0 ==> r == -1000
    ensures previous > 0 ==>
      r * (2 * previous) <= 2000 * (total - previous) + previous < r * (2 * previous) + 2 * previous
  {
    if previous == 0 then 0
    else
      var a := 2000 * (total - previous) + previous;
      var d := 2 * previous;
      var r := a / d;
      assert r * d <= a < r * d + d;
      assert total >= previous ==> r >= 0 by {
        if total >= previous && r < 0 {
          MulMonotone(r, -1, d);
        }
      }
      assert total <= previous ==> r <= 0 by {
        if total <= previous && r > 0 {
          MulMonotone(1, r, d);
        }
      }
      assert total == 2 * previous ==> r == 1000 by {
        if total == 2 * previous {
          FloorDiv(a, d, 1000);
        }
      }
      assert total == 0 ==> r == -1000 by {
        if total == 0 {
          FloorDiv(a, d, -1000);
        }
      }
      r
  }

  // ---- Per-character statistics ----

  /** The test `conversations.characterId = id and createdAt >= start`. */
  function ConversationsOf(id: int, start: int): Conversation -> bool {
    (c: Conversation) => c.characterId == id && c.createdAt >= start
  }

  /** The join test of a message with a conversation of character `id`. */
  function JoinedTo(cs: seq<Conversation>, id: int): Message -> bool {
    (m: Message) => exists c :: c in cs && c.id == m.conversationId && c.characterId == id
  }

  /** The join test restricted to messages created at or after `start`. */
  function RecentJoinedTo(cs: seq<Conversation>, id: int, start: int): Message -> bool {
    (m: Message) => m.createdAt >= start && JoinedTo(cs, id)(m)
  }

  /** The newest creation time among `ms` (`orderBy(desc(createdAt)).limit(1)`). */
  function Latest(ms: seq<Message>): (r: Option<int>)
    ensures r.None? <==> ms == []
    ensures r.Some? ==> exists i :: 0 <= i < |ms| && ms[i].createdAt == r.value
    ensures r.Some? ==> forall i :: 0 <= i < |ms| ==> ms[i].createdAt <= r.value
  {
    if ms == [] then None
    else match Latest(ms[1..])
      case None => Some(ms[0].createdAt)
      case Some(t) =>
        if ms[0].createdAt >= t then Some(ms[0].createdAt)
        else
          var i :| 0 <= i < |ms[1..]| && ms[1..][i].createdAt == t;
          assert ms[i + 1].createdAt == t;
          Some(t)
  }

  /** `lastMsg?.createdAt || character.createdAt`: the newest message of
      any of the character's conversations, whatever the period, or the
      character's own creation time when there is none. */
  function LastActivity(db: Db, ch: Character): (r: int)
    ensures forall m :: m in db.messages && JoinedTo(db.conversations, ch.id)(m) ==> m.createdAt <= r
    ensures r == ch.createdAt
         || exists m :: m in db.messages && JoinedTo(db.conversations, ch.id)(m) && m.createdAt == r
    ensures (forall m :: m in db.messages ==> !JoinedTo(db.conversations, ch.id)(m)) ==> r == ch.createdAt
    ensures (exists m :: m in db.messages && JoinedTo(db.conversations, ch.id)(m)) ==>
      exists m :: m in db.messages && JoinedTo(db.conversations, ch.id)(m) && m.createdAt == r
  {
    var rows := Filter(db.messages, JoinedTo(db.conversations, ch.id));
    match Latest(rows)
    case None => ch.createdAt
    case Some(t) =>
      assert forall m :: m in rows ==> m.createdAt <= t by {
        forall m | m in rows ensures m.createdAt <= t {
          var i :| 0 <= i < |rows| && rows[i] == m;
        }
      }
      var i :| 0 <= i < |rows| && rows[i].createdAt == t;
      assert rows[i] in rows;
      t
  }

  /** How many messages feed the keyword extraction. */
  const RecentLimit := 100

  function ContentsOf(ms: seq<Message>): (r: seq<string>)
    ensures |r| == |ms|
    ensures forall i :: 0 <= i < |ms| ==> r[i] == ms[i].content
  {
    seq(|ms|, i requires 0 <= i < |ms| => ms[i].content)
  }

  /** The messages `recentMessages` reads: the character's messages of the
      period, at most 100 of them. */
  function RecentMessages(db: Db, id: int, start: int): (r: seq<Message>)
    ensures |r| <= RecentLimit
    ensures |r| == if |Filter(db.messages, RecentJoinedTo(db.conversations, id, start))| < RecentLimit
                   then |Filter(db.messages, RecentJoinedTo(db.conversations, id, start))| else RecentLimit
    ensures forall m :: m in r ==> m in db.messages && m.createdAt >= start && JoinedTo(db.conversations, id)(m)
  {
    var rows := Filter(db.messages, RecentJoinedTo(db.conversations, id, start));
    var r := Limit(rows, RecentLimit);
    assert forall m :: m in r ==> m in rows by {
      forall m | m in r ensures m in rows {
        var i :| 0 <= i < |r| && r[i] == m;
        assert rows[i] == m;
      }
    }
    r
  }

  /** The statistics reported for one character. */
  datatype CharacterStats = CharacterStats(
    id: int, name: string, avatar: string,
    totalConversations: nat, totalMessages: nat,
    lastActivity: int, topTopics: seq<string>)

  /** The keywords of a character's recent messages, in message order. */
  function RecentKeywords(db: Db, id: int, start: int): seq<string> {
    AllKeywords(ContentsOf(RecentMessages(db, id, start)))
  }

  /** The topics of one character: the most frequent long words of its
      recent messages, five of them or all when there are fewer, most
      frequent first and none twice. No keyword left out occurs more often
      than a topic. */
  function TopicsOf(db: Db, id: int, start: int): (r: seq<string>)
    ensures |r| <= TopTopicCount
    ensures forall w :: w in r ==> |w| > 3 && exists m :: m in RecentMessages(db, id, start) && w in Words(m.content)
    ensures forall w, x :: w in r && x in RecentKeywords(db, id, start) && x !in r ==>
      Occurrences(RecentKeywords(db, id, start), x) <= Occurrences(RecentKeywords(db, id, start), w)
    ensures var n := |Vocabulary(RecentKeywords(db, id, start))|;
      |r| == if n < TopTopicCount then n else TopTopicCount
    ensures NoRepeats(r)
    ensures forall i, j :: 0 <= i < j < |r| ==>
      Occurrences(RecentKeywords(db, id, start), r[i]) >= Occurrences(RecentKeywords(db, id, start), r[j])
  {
    var recent := RecentMessages(db, id, start);
    TopicsFacts(recent);
    TopTopics(CountWords(AllKeywords(ContentsOf(recent))))
  }

  /** The contract of `TopicsOf`, for any list of messages. */
  lemma TopicsFacts(recent: seq<Message>)
    ensures var words := AllKeywords(ContentsOf(recent));
      var r := TopTopics(CountWords(words));
      && (forall w :: w in r ==> |w| > 3 && exists m :: m in recent && w in Words(m.content))
      && (forall w, x :: w in r && x in words && x !in r ==> Occurrences(words, x) <= Occurrences(words, w))
      && |r| == (if |Vocabulary(words)| < TopTopicCount then |Vocabulary(words)| else TopTopicCount)
      && NoRepeats(r)
      && forall i, j :: 0 <= i < j < |r| ==> Occurrences(words, r[i]) >= Occurrences(words, r[j])
  {
    var words := AllKeywords(ContentsOf(recent));
    var r := TopTopics(CountWords(words));
    TopWordsFrom(ContentsOf(recent));
    forall w | w in r ensures exists m :: m in recent && w in Words(m.content) {
      var k :| 0 <= k < |recent| && w in Words(ContentsOf(recent)[k]);
      assert recent[k] in recent;
    }
    TopWordsDominate(words);
    TopWordsShape(words);
  }

  /** Each top word of the keywords of `contents` is a long word of one of
      them. */
  lemma TopWordsFrom(contents: seq<string>)
    ensures var r := TopTopics(CountWords(AllKeywords(contents)));
      forall w :: w in r ==> |w| > 3 && exists k :: 0 <= k < |contents| && w in Words(contents[k])
  {
    var words := AllKeywords(contents);
    var es := CountWords(words);
    forall w | w in TopTopics(es) ensures |w| > 3 && exists k :: 0 <= k < |contents| && w in Words(contents[k]) {
      var i :| 0 <= i < |es| && WordsOf(es)[i] == w;
      assert HasWord(es, w);
      CountWordsWords(words, w);
      AllKeywordsFrom(contents, w);
    }
  }

  /** No word left out of the top words of `words` occurs more often than
      one of them. */
  lemma TopWordsDominate(words: seq<string>)
    ensures var r := TopTopics(CountWords(words));
      forall w, x :: w in r && x in words && x !in r ==> Occurrences(words, x) <= Occurrences(words, w)
  {
    var es := CountWords(words);
    var r := TopTopics(es);
    forall w, x | w in r && x in words && x !in r ensures Occurrences(words, x) <= Occurrences(words, w) {
      CountWordsWords(words, x);
      var i :| 0 <= i < |es| && es[i].word == x;
      CountWordsCorrect(words, x);
      CountWordsCorrect(words, w);
      EntryCount(es, es[i]);
      TopTopicsDominate(es, es[i], w);
    }
  }

  /** The distinct words of `ws`. */
  function Vocabulary(ws: seq<string>): set<string> {
    set w | w in ws
  }

  /** `wordCount.size`: one entry per distinct word. */
  lemma CountWordsSize(words: seq<string>)
    ensures |CountWords(words)| == |Vocabulary(words)|
  {
    var es := CountWords(words);
    CountWordsCorrect(words, "");
    assert NoRepeats(WordsOf(es));
    NoRepeatsCard(WordsOf(es));
    forall x ensures x in WordsOf(es) <==> x in words {
      CountWordsWords(words, x);
    }
    assert (set x | x in WordsOf(es)) == Vocabulary(words);
  }

  /** The top words of `words`: five of them, or every distinct word when
      there are fewer; none repeated; most frequent first. */
  lemma TopWordsShape(words: seq<string>)
    ensures var r := TopTopics(CountWords(words));
      && |r| == (if |Vocabulary(words)| < TopTopicCount then |Vocabulary(words)| else TopTopicCount)
      && NoRepeats(r)
      && forall i, j :: 0 <= i < j < |r| ==> Occurrences(words, r[i]) >= Occurrences(words, r[j])
  {
    var es := CountWords(words);
    var r := TopTopics(es);
    CountWordsSize(words);
    CountWordsCorrect(words, "");
    forall i, j | 0 <= i < j < |r| ensures Occurrences(words, r[i]) >= Occurrences(words, r[j]) {
      CountWordsCorrect(words, r[i]);
      CountWordsCorrect(words, r[j]);
    }
  }

  function StatsOf(db: Db, ch: Character, start: int): (r: CharacterStats)
    ensures r.id == ch.id && r.name == ch.name && r.avatar == OrElse(ch.avatar, "")
    ensures r.totalConversations == |Filter(db.conversations, ConversationsOf(ch.id, start))|
    ensures r.totalMessages == |Filter(db.messages, RecentJoinedTo(db.conversations, ch.id, start))|
    ensures r.lastActivity == LastActivity(db, ch)
    ensures r.topTopics == TopicsOf(db, ch.id, start)
  {
    CharacterStats(
      ch.id, ch.name, OrElse(ch.avatar, ""),
      |Filter(db.conversations, ConversationsOf(ch.id, start))|,
      |Filter(db.messages, RecentJoinedTo(db.conversations, ch.id, start))|,
      LastActivity(db, ch), TopicsOf(db, ch.id, start))
  }

  function AllStats(db: Db, owned: seq<Character>, start: int): (r: seq<CharacterStats>)
    ensures |r| == |owned|
    ensures forall i :: 0 <= i < |owned| ==> r[i] == StatsOf(db, owned[i], start)
    ensures forall i :: 0 <= i < |owned| ==> r[i].id == owned[i].id
  {
    seq(|owned|, i requires 0 <= i < |owned| => StatsOf(db, owned[i], start))
  }

  /** Sum of the per-character conversation counts. */
  function ConversationTotal(stats: seq<CharacterStats>): nat {
    if stats == [] then 0 else stats[0].totalConversations + ConversationTotal(stats[1..])
  }

  /** The test `characters.id = id`. */
  function HasId(id: int): Character -> bool {
    (c: Character) => c.id == id
  }

  /** Conversations of the characters in `owned` from `start` on, counted
      character by character. */
  function SumConversations(owned: seq<Character>, cs: seq<Conversation>, start: int): nat {
    if owned == [] then 0
    else |Filter(cs, ConversationsOf(owned[0].id, start))| + SumConversations(owned[1..], cs, start)
  }

  lemma {:induction false} SumConversationsNone(owned: seq<Character>, start: int)
    ensures SumConversations(owned, [], start) == 0
    decreases |owned|
  {
    if owned != [] {
      SumConversationsNone(owned[1..], start);
    }
  }

  /** Peeling one conversation off the per-character sum. */
  lemma {:induction false} SumConversationsStep(owned: seq<Character>, cs: seq<Conversation>, start: int)
    requires cs != []
    ensures SumConversations(owned, cs, start)
         == (if cs[0].createdAt >= start then |Filter(owned, HasId(cs[0].characterId))| else 0)
          + SumConversations(owned, cs[1..], start)
    decreases |owned|
  {
    if owned != [] {
      SumConversationsStep(owned[1..], cs, start);
    }
  }

  /** The per-character sum counts each conversation once per owned
      character it joins with, which is what the overall count does. */
  lemma {:induction false} SumConversationsOverall(chs: seq<Character>, cs: seq<Conversation>, caller: int, start: int)
    ensures SumConversations(Filter(chs, ByCreator(caller)), cs, start) == ConversationCount(cs, chs, caller, start)
    decreases |cs|
  {
    var owned := Filter(chs, ByCreator(caller));
    if cs == [] {
      SumConversationsNone(owned, start);
    } else {
      SumConversationsStep(owned, cs, start);
      SumConversationsOverall(chs, cs[1..], caller, start);
      var id := cs[0].characterId;
      FilterFilter(chs, ByCreator(caller), HasId(id), OwnedMatch(caller, id));
    }
  }

  /** Summing counts that match the owned characters' counts one by one
      gives the per-character sum. */
  lemma {:induction false} ConversationTotalMatches(
    stats: seq<CharacterStats>, owned: seq<Character>, cs: seq<Conversation>, start: int)
    requires |stats| == |owned|
    requires forall i :: 0 <= i < |owned| ==>
      stats[i].totalConversations == |Filter(cs, ConversationsOf(owned[i].id, start))|
    ensures ConversationTotal(stats) == SumConversations(owned, cs, start)
    decreases |owned|
  {
    if owned != [] {
      ConversationTotalMatches(stats[1..], owned[1..], cs, start);
    }
  }

  lemma ConversationTotalOf(db: Db, owned: seq<Character>, start: int)
    ensures ConversationTotal(AllStats(db, owned, start)) == SumConversations(owned, db.conversations, start)
  {
    ConversationTotalMatches(AllStats(db, owned, start), owned, db.conversations, start);
  }

  // ---- The handler ----

  /** The response body: the overall numbers, the growth of the message
      count over the previous window of the same length (in tenths of a
      percent), and one entry per character the caller created. */
  datatype Report = Report(
    overall: Overall, activeCharacters: nat, growthTenths: int,
    characterStats: seq<CharacterStats>)

  /** `id` is the id of a character `user` created. */
  predicate CreatedBy(db: Db, user: int, id: int) {
    exists c :: c in db.characters && c.creatorId == user && c.id == id
  }

  /** The per-character entries of a report belong to the user's own
      characters, and each of those characters has its entry. */
  lemma OwnedStatsCover(db: Db, user: int, start: int)
    ensures var owned := Filter(db.characters, ByCreator(user));
      forall i :: 0 <= i < |owned| ==> CreatedBy(db, user, AllStats(db, owned, start)[i].id)
    ensures var owned := Filter(db.characters, ByCreator(user));
      forall c :: c in db.characters && c.creatorId == user ==>
        exists i :: 0 <= i < |owned| && AllStats(db, owned, start)[i] == StatsOf(db, c, start)
  {
    var owned := Filter(db.characters, ByCreator(user));
    var stats := AllStats(db, owned, start);
    forall i | 0 <= i < |owned| ensures CreatedBy(db, user, stats[i].id) {
      assert owned[i] in owned;
    }
    forall c | c in db.characters && c.creatorId == user
      ensures exists i :: 0 <= i < |owned| && stats[i] == StatsOf(db, c, start)
    {
      assert c in owned;
      var i :| 0 <= i < |owned| && owned[i] == c;
      assert stats[i] == StatsOf(db, c, start);
    }
  }

  /** The report for `user` over the window starting at `start`. */
  function ReportFor(db: Db, user: int, start: int, now: int): (r: Report)
    ensures r.activeCharacters == r.overall.totalCharacters
    ensures |r.characterStats| == r.overall.totalCharacters
    ensures forall i :: 0 <= i < |r.characterStats| ==> CreatedBy(db, user, r.characterStats[i].id)
    ensures r.overall == OverallStats(db, user, start)
    ensures r.growthTenths == GrowthTenths(r.overall.totalMessages,
      MessageCountBetween(db.messages, db.conversations, db.characters, user, PreviousStart(start, now), start))
    ensures forall i :: 0 <= i < |r.characterStats| ==>
      r.characterStats[i] == StatsOf(db, Filter(db.characters, ByCreator(user))[i], start)
    ensures forall c :: c in db.characters && c.creatorId == user ==>
      exists i :: 0 <= i < |r.characterStats| && r.characterStats[i] == StatsOf(db, c, start)
  {
    var overall := OverallStats(db, user, start);
    var previous := MessageCountBetween(db.messages, db.conversations, db.characters, user, PreviousStart(start, now), start);
    var owned := Filter(db.characters, ByCreator(user));
    var stats := AllStats(db, owned, start);
    OwnedStatsCover(db, user, start);
    Report(overall, overall.totalCharacters, GrowthTenths(overall.totalMessages, previous), stats)
  }

  /** `GET /api/analytics` for `caller` (`None` when no token was sent),
      the `period` query parameter, at instant `now`. */
  function GetAnalytics(db: Db, caller: Option<int>, period: Option<string>, now: int): (r: Response<Report>)
    ensures caller.None? <==> r == Error(StatusUnauthorized, "Unauthorized")
    ensures r.Ok? ==> r.status == StatusOk
    ensures r.Ok? ==> r.payload == ReportFor(db, caller.value, StartDate(PeriodOf(period), now), now)
  {
    match caller
    case None => Error(StatusUnauthorized, "Unauthorized")
    case Some(user) => Ok(StatusOk, ReportFor(db, user, StartDate(PeriodOf(period), now), now))
  }

  /** The per-character conversation counts add up to the overall count. */
  lemma ConversationsAddUp(db: Db, caller: int, period: Option<string>, now: int)
    ensures GetAnalytics(db, Some(caller), period, now).Ok?
    ensures var report := GetAnalytics(db, Some(caller), period, now).payload;
      ConversationTotal(report.characterStats) == report.overall.totalConversations
  {
    var start := StartDate(PeriodOf(period), now);
    var owned := Filter(db.characters, ByCreator(caller));
    ConversationTotalOf(db, owned, start);
    SumConversationsOverall(db.characters, db.conversations, caller, start);
  }

  /** For a period that is not one of the known ones the window is empty,
      so is the previous one, and no growth is reported. */
  lemma UnknownPeriodNoGrowth(db: Db, caller: int, period: string, now: int)
    requires period != "" && WindowDays(period).None? && period != "all"
    ensures GetAnalytics(db, Some(caller), Some(period), now).Ok?
    ensures GetAnalytics(db, Some(caller), Some(period), now).payload.growthTenths == 0
  {
    EmptyWindow(db.messages, db.conversations, db.characters, caller, now);
  }
}

=== FILE: branches.dfy ===
/** The branch list and branch creation handlers
    (`GET` and `POST /api/chat/branches`). */
module Branches {
  import opened Common
  import opened Text
  import opened Seqs
  import opened Schema
  import opened Http
  import opened Timeline

  /** A branch row together with its messages, as the handlers return it. */
  datatype BranchView = BranchView(branch: Branch, messages: seq<Message>)

  const ConversationIdRequired := "Conversation ID is required"
  const ConversationIdAndNameRequired := "Conversation ID and name are required"
  const CreateBranchFailed := "Failed to create branch"

  /** The test `eq(branches.conversationId, parseInt(conversationId))`;
      a `NaN` id matches no row. */
  function InConversation(cid: Option<int>): Branch -> bool {
    (b: Branch) => cid == Some(b.conversationId)
  }

  function BranchCreatedAt(b: Branch): int { b.createdAt }

  /** The branches of conversation `cid`, newest first; rows created at the
      same instant stay in table order. */
  function ListedBranches(db: Db, cid: Option<int>): (r: seq<Branch>)
    ensures forall b :: b in r <==> b in db.branches && cid == Some(b.conversationId)
    ensures multiset(r) == multiset(Filter(db.branches, InConversation(cid)))
    ensures forall i, j :: 0 <= i < j < |r| ==> r[i].createdAt >= r[j].createdAt
  {
    var rows := Filter(db.branches, InConversation(cid));
    var sorted := SortDescBy(rows, BranchCreatedAt);
    assert forall b :: b in sorted <==> b in multiset(sorted);
    assert forall b :: b in rows <==> b in multiset(rows);
    sorted
  }

  function ViewsOf(db: Db, bs: seq<Branch>): (r: seq<BranchView>)
    ensures |r| == |bs|
    ensures forall i :: 0 <= i < |bs| ==> r[i] == BranchView(bs[i], BranchMessages(db.messages, bs[i].id))
  {
    seq(|bs|, i requires 0 <= i < |bs| => BranchView(bs[i], BranchMessages(db.messages, bs[i].id)))
  }

  function BranchesOf(vs: seq<BranchView>): (r: seq<Branch>)
    ensures |r| == |vs|
    ensures forall i :: 0 <= i < |vs| ==> r[i] == vs[i].branch
  {
    seq(|vs|, i requires 0 <= i < |vs| => vs[i].branch)
  }

  /** `GET`: the branches of a conversation, newest first, each with its
      messages oldest first. A missing or empty `conversationId` is a 400
      and reads nothing. */
  function ListBranches(db: Db, conversationId: Option<string>): (r: Outcome<seq<BranchView>>)
    ensures r.db == db
    ensures FalsyText(conversationId) <==> r.response.Error?
    ensures r.response.Error? ==> r.response == Error(StatusBadRequest, ConversationIdRequired)
    ensures r.response.Ok? ==>
      && r.response.status == StatusOk
      && BranchesOf(r.response.payload) == ListedBranches(db, ParseInt(conversationId.value))
      && forall i :: 0 <= i < |r.response.payload| ==>
           r.response.payload[i].messages == BranchMessages(db.messages, r.response.payload[i].branch.id)
  {
    if FalsyText(conversationId) then Outcome(Error(StatusBadRequest, ConversationIdRequired), db)
    else
      var bs := ListedBranches(db, ParseInt(conversationId.value));
      var vs := ViewsOf(db, bs);
      assert BranchesOf(vs) == bs;
      Outcome(Ok(StatusOk, vs), db)
  }

  /** A `POST` body; `messageIds` is empty when it is absent. */
  datatype BranchRequest = BranchRequest(conversationId: Field, name: Option<string>, parentId: Field, messageIds: seq<Field>)

  /** `parentId ? parseInt(parentId) : null`. */
  function ParentOf(f: Field): (r: Option<int>)
    ensures Falsy(f) ==> r.None?
    ensures !Falsy(f) ==> r == ParseField(f)
  {
    if Falsy(f) then None else ParseField(f)
  }

  /** The test `eq(messages.conversationId, cid)`. */
  function InConversationM(cid: int): Message -> bool {
    (m: Message) => m.conversationId == cid
  }

  /** The messages of a conversation, on any branch, in table order. */
  function ConversationMessages(db: Db, cid: int): (r: seq<Message>)
    ensures forall m :: m in r <==> m in db.messages && m.conversationId == cid
  {
    Filter(db.messages, InConversationM(cid))
  }

  /** The handler's test `messageIds.includes(msg.id.toString())`: only the
      decimal text of the id is looked for. */
  predicate SeedMatchesAsWritten(ids: seq<Field>, m: Message) {
    Str(IdString(m.id)) in ids
  }

  function SeedTestAsWritten(ids: seq<Field>): Message -> bool {
    (m: Message) => SeedMatchesAsWritten(ids, m)
  }

  function SelectSeedAsWritten(pool: seq<Message>, ids: seq<Field>): (r: seq<Message>)
    ensures forall m :: m in r <==> m in pool && SeedMatchesAsWritten(ids, m)
  {
    Filter(pool, SeedTestAsWritten(ids))
  }

  /** A message is selected when its id is named in `ids`, as a number (what
      the branching page sends) or as its decimal text. */
  predicate SeedMatches(ids: seq<Field>, m: Message) {
    Num(m.id) in ids || Str(IdString(m.id)) in ids
  }

  function SeedTest(ids: seq<Field>): Message -> bool {
    (m: Message) => SeedMatches(ids, m)
  }

  /** The messages of `pool` to copy into a new branch, in pool order. */
  function SelectSeed(pool: seq<Message>, ids: seq<Field>): (r: seq<Message>)
    ensures forall m :: m in r <==> m in pool && SeedMatches(ids, m)
    ensures |r| <= |pool|
  {
    Filter(pool, SeedTest(ids))
  }

  /** The writes of a successful `POST`: the branch row, then one copy of
      every message of `seed`, in order, into the new branch. */
  function InsertBranch(db: Db, cid: int, name: string, parentId: Option<int>, seed: seq<Message>, now: int): (r: Db)
    ensures r.branches == db.branches + [Branch(db.nextId, cid, name, parentId, now)]
    ensures |db.messages| <= |r.messages| && r.messages[..|db.messages|] == db.messages
    ensures Contents(r.messages[|db.messages|..]) == Contents(seed)
    ensures forall m :: m in r.messages[|db.messages|..] ==>
      m.conversationId == cid && m.branchId == Some(db.nextId) && m.createdAt == now
    ensures r.(branches := db.branches, messages := db.messages, nextId := db.nextId) == db
    ensures r.nextId == db.nextId + 1 + |seed|
    ensures forall i :: |db.messages| <= i < |r.messages| ==>
      r.messages[i].id == db.nextId + 1 + i - |db.messages| && r.messages[i].branchId == Some(db.nextId)
  {
    var copies := CopyMessages(seed, cid, db.nextId, db.nextId + 1, now);
    var r := db.(branches := db.branches + [Branch(db.nextId, cid, name, parentId, now)],
                 messages := db.messages + copies, nextId := db.nextId + 1 + |seed|);
    assert r.messages[..|db.messages|] == db.messages;
    assert r.messages[|db.messages|..] == copies;
    r
  }

  /** The messages of conversation `cid` a `POST` copies: with the
      handler's selection, or with the corrected one when `intended`. */
  function BranchSeed(db: Db, cid: int, ids: seq<Field>, intended: bool): (r: seq<Message>)
    ensures forall m :: m in r ==> m in db.messages && m.conversationId == cid
    ensures intended ==> forall m :: m in r <==> m in db.messages && m.conversationId == cid && SeedMatches(ids, m)
    ensures !intended ==> forall m :: m in r <==> m in db.messages && m.conversationId == cid && SeedMatchesAsWritten(ids, m)
  {
    var pool := ConversationMessages(db, cid);
    if intended then SelectSeed(pool, ids) else SelectSeedAsWritten(pool, ids)
  }

  /** `POST`, with either selection: validates the request, inserts the
      branch and its seed copies, and returns the new branch with its
      messages. A falsy `conversationId` or `name` is a 400; a
      `conversationId` that parses to `NaN` makes the insert fail (500). */
  function CreateBranchWith(db: Db, req: BranchRequest, now: int, intended: bool): (r: Outcome<BranchView>)
    ensures r.Failed(StatusBadRequest) <==> Falsy(req.conversationId) || FalsyText(req.name)
    ensures r.Failed(StatusBadRequest) ==> r.response.message == ConversationIdAndNameRequired
    ensures r.response.Ok? <==> !Falsy(req.conversationId) && !FalsyText(req.name) && ParseField(req.conversationId).Some?
    ensures r.response.Error? ==> r.db == db
    ensures r.response.Ok? ==>
      && r.response.status == StatusOk
      && r.db == InsertBranch(db, ParseField(req.conversationId).value, req.name.value, ParentOf(req.parentId),
                              BranchSeed(db, ParseField(req.conversationId).value, req.messageIds, intended), now)
      && r.response.payload.branch == r.db.branches[|db.branches|]
      && (Valid(db) ==> r.response.payload.messages == r.db.messages[|db.messages|..])
  {
    if Falsy(req.conversationId) || FalsyText(req.name) then
      Outcome(Error(StatusBadRequest, ConversationIdAndNameRequired), db)
    else match ParseField(req.conversationId)
      case None => Outcome(Error(StatusServerError, CreateBranchFailed), db)
      case Some(cid) =>
        // The handler skips the copy loop when `messageIds` is empty;
        // selecting against an empty list selects nothing, so the result
        // is the same.
        var db' := InsertBranch(db, cid, req.name.value, ParentOf(req.parentId), BranchSeed(db, cid, req.messageIds, intended), now);
        var added := db'.messages[|db.messages|..];
        assert db'.messages == db.messages + added;
        assert Valid(db) ==> BranchMessages(db'.messages, db.nextId) == added by {
          if Valid(db) {
            FreshBranchMessages(db.messages, added, db.nextId, now);
          }
        }
        Outcome(Ok(StatusOk, BranchView(db'.branches[|db.branches|], BranchMessages(db'.messages, db.nextId))), db')
  }

  /** `POST` as written: the new branch holds copies of exactly the
      messages of the conversation whose decimal id text was sent. */
  function CreateBranch(db: Db, req: BranchRequest, now: int): (r: Outcome<BranchView>)
    ensures r.response.Ok? <==> !Falsy(req.conversationId) && !FalsyText(req.name) && ParseField(req.conversationId).Some?
    ensures r.response.Error? ==> r.db == db
    ensures r.response.Ok? ==>
      && |db.messages| <= |r.db.messages|
      && Contents(r.db.messages[|db.messages|..])
        == Contents(SelectSeedAsWritten(ConversationMessages(db, ParseField(req.conversationId).value), req.messageIds))
  {
    CreateBranchWith(db, req, now, false)
  }

  /** `POST` with the corrected selection: the new branch holds copies of
      exactly the messages of the conversation named by number or text. */
  function CreateBranchIntended(db: Db, req: BranchRequest, now: int): (r: Outcome<BranchView>)
    ensures r.response.Ok? <==> !Falsy(req.conversationId) && !FalsyText(req.name) && ParseField(req.conversationId).Some?
    ensures r.response.Error? ==> r.db == db
    ensures r.response.Ok? ==>
      && |db.messages| <= |r.db.messages|
      && Contents(r.db.messages[|db.messages|..])
        == Contents(SelectSeed(ConversationMessages(db, ParseField(req.conversationId).value), req.messageIds))
  {
    CreateBranchWith(db, req, now, true)
  }

  /** A `POST`, with either selection, keeps primary keys unique and below
      the fresh-id counter. */
  lemma CreateBranchKeepsValid(db: Db, req: BranchRequest, now: int)
    requires Valid(db)
    ensures Valid(CreateBranch(db, req, now).db)
    ensures Valid(CreateBranchIntended(db, req, now).db)
  {
    CreateBranchWithKeepsValid(db, req, now, false);
    CreateBranchWithKeepsValid(db, req, now, true);
  }

  lemma CreateBranchWithKeepsValid(db: Db, req: BranchRequest, now: int, intended: bool)
    requires Valid(db)
    ensures Valid(CreateBranchWith(db, req, now, intended).db)
  {
    if CreateBranchWith(db, req, now, intended).response.Ok? {
      var cid := ParseField(req.conversationId).value;
      InsertBranchKeepsValid(db, cid, req.name.value, ParentOf(req.parentId), BranchSeed(db, cid, req.messageIds, intended), now);
    }
  }

  lemma InsertBranchKeepsValid(db: Db, cid: int, name: string, parentId: Option<int>, seed: seq<Message>, now: int)
    requires Valid(db)
    ensures Valid(InsertBranch(db, cid, name, parentId, seed, now))
  {
    var r := InsertBranch(db, cid, name, parentId, seed, now);
    assert r.memories == db.memories && r.conversations == db.conversations && r.characters == db.characters;
    GrowKeepsValid(db, r, Branch(db.nextId, cid, name, parentId, now));
  }

  /** A `POST`, with either selection, leaves no dangling reference: copies
      only ever go to the conversation the copied messages already belonged
      to. */
  lemma CreateBranchKeepsIntegrity(db: Db, req: BranchRequest, now: int)
    requires RefIntegrity(db)
    ensures RefIntegrity(CreateBranch(db, req, now).db)
    ensures RefIntegrity(CreateBranchIntended(db, req, now).db)
  {
    CreateBranchWithKeepsIntegrity(db, req, now, false);
    CreateBranchWithKeepsIntegrity(db, req, now, true);
  }

  lemma CreateBranchWithKeepsIntegrity(db: Db, req: BranchRequest, now: int, intended: bool)
    requires RefIntegrity(db)
    ensures RefIntegrity(CreateBranchWith(db, req, now, intended).db)
  {
    var r := CreateBranchWith(db, req, now, intended);
    if r.response.Ok? {
      var cid := ParseField(req.conversationId).value;
      var seed := BranchSeed(db, cid, req.messageIds, intended);
      var added := r.db.messages[|db.messages|..];
      assert r.db.messages == db.messages + added;
      assert ConversationIds(r.db) == ConversationIds(db);
      assert UserIds(r.db) == UserIds(db);
      assert CharacterIds(r.db) == CharacterIds(db);
      if added != [] {
        assert |seed| == |added| by {
          assert |Contents(added)| == |Contents(seed)|;
        }
        var m0 := seed[0];
        var c :| c in db.conversations && c.id == m0.conversationId;
        assert cid in ConversationIds(db);
      }
    }
  }

  /** Naming a message twice copies it once: the corrected selection
      depends only on which ids are named. */
  lemma SeedIgnoresDuplicates(pool: seq<Message>, ids: seq<Field>, ids': seq<Field>)
    requires forall f :: f in ids <==> f in ids'
    ensures SelectSeed(pool, ids) == SelectSeed(pool, ids')
  {
    FilterCongruent(pool, SeedTest(ids), SeedTest(ids'));
  }

  /** The same for the handler's own selection: `includes` depends only on
      which ids are named. */
  lemma SeedIgnoresDuplicatesAsWritten(pool: seq<Message>, ids: seq<Field>, ids': seq<Field>)
    requires forall f :: f in ids <==> f in ids'
    ensures SelectSeedAsWritten(pool, ids) == SelectSeedAsWritten(pool, ids')
  {
    FilterCongruent(pool, SeedTestAsWritten(ids), SeedTestAsWritten(ids'));
  }

  /** With unique message ids, every message the corrected selection picks
      is copied exactly once. */
  lemma SeedCopiesOnce(pool: seq<Message>, ids: seq<Field>, m: Message)
    requires forall i, j :: 0 <= i < j < |pool| ==> pool[i].id != pool[j].id
    requires m in pool && SeedMatches(ids, m)
    ensures multiset(SelectSeed(pool, ids))[m] == 1
  {
    SeedCopiesOnceAux(pool, SeedTest(ids), m);
  }

  /** The same for the handler's own selection. */
  lemma SeedCopiesOnceAsWritten(pool: seq<Message>, ids: seq<Field>, m: Message)
    requires forall i, j :: 0 <= i < j < |pool| ==> pool[i].id != pool[j].id
    requires m in pool && SeedMatchesAsWritten(ids, m)
    ensures multiset(SelectSeedAsWritten(pool, ids))[m] == 1
  {
    SeedCopiesOnceAux(pool, SeedTestAsWritten(ids), m);
  }

  /** Filtering messages with unique ids by any test keeps each passing
      message once and drops every other. */
  lemma {:induction false} SeedCopiesOnceAux(pool: seq<Message>, test: Message -> bool, m: Message)
    requires forall i, j :: 0 <= i < j < |pool| ==> pool[i].id != pool[j].id
    ensures multiset(Filter(pool, test))[m] == (if m in pool && test(m) then 1 else 0)
    decreases |pool|
  {
    if pool != [] {
      SeedCopiesOnceAux(pool[1..], test, m);
      var head: seq<Message> := if test(pool[0]) then [pool[0]] else [];
      assert Filter(pool, test) == head + Filter(pool[1..], test);
      if m == pool[0] {
        assert m !in pool[1..];
      }
      assert m in pool <==> m == pool[0] || m in pool[1..];
    }
  }

  /** As written, the handler finds nothing when the ids are numbers. */
  lemma SeedAsWrittenIgnoresNumbers(pool: seq<Message>, ids: seq<Field>)
    requires forall i :: 0 <= i < |ids| ==> ids[i].Num?
    ensures SelectSeedAsWritten(pool, ids) == []
  {
    forall i | 0 <= i < |pool| ensures !SeedTestAsWritten(ids)(pool[i]) {
      assert Str(IdString(pool[i].id)) !in ids;
    }
    FilterNone(pool, SeedTestAsWritten(ids));
  }

  /** When every id is sent as text, the corrected selection is the
      handler's selection. */
  lemma SeedAgreesOnText(pool: seq<Message>, ids: seq<Field>)
    requires forall i :: 0 <= i < |ids| ==> ids[i].Str?
    ensures SelectSeed(pool, ids) == SelectSeedAsWritten(pool, ids)
  {
    FilterCongruent(pool, SeedTest(ids), SeedTestAsWritten(ids));
  }

  /** The branching page sends the selected ids as numbers: as written, a
      request naming message 1 of conversation 7 copies nothing, whereas the
      corrected selection copies it. */
  lemma ClientSelectionCopiesNothing()
    ensures var m := Message(1, 7, None, "user", "hi", false, None, 0);
      && SelectSeedAsWritten([m], [Num(1)]) == []
      && SelectSeed([m], [Num(1)]) == [m]
  {
    var m := Message(1, 7, None, "user", "hi", false, None, 0);
    SeedAsWrittenIgnoresNumbers([m], [Num(1)]);
    assert SeedMatches([Num(1)], m);
    FilterAll([m], SeedTest([Num(1)]));
  }

  /** The selection test of either handler: the handler's own when
      `intended` is false, the corrected one otherwise. */
  predicate SeedMatchesWith(intended: bool, ids: seq<Field>, m: Message) {
    if intended then SeedMatches(ids, m) else SeedMatchesAsWritten(ids, m)
  }

  /** Each handler returns its new branch empty, and adds no message, when
      its own test matches no message of the conversation. */
  lemma CreateBranchWithoutSeed(db: Db, req: BranchRequest, now: int)
    requires Valid(db)
    requires !Falsy(req.conversationId) && !FalsyText(req.name) && ParseField(req.conversationId).Some?
    ensures CreateBranch(db, req, now).response.Ok? && CreateBranchIntended(db, req, now).response.Ok?
    ensures (forall m :: m in ConversationMessages(db, ParseField(req.conversationId).value) ==>
               !SeedMatchesAsWritten(req.messageIds, m)) ==>
      && CreateBranch(db, req, now).response.payload.messages == []
      && CreateBranch(db, req, now).db.messages == db.messages
    ensures (forall m :: m in ConversationMessages(db, ParseField(req.conversationId).value) ==>
               !SeedMatches(req.messageIds, m)) ==>
      && CreateBranchIntended(db, req, now).response.payload.messages == []
      && CreateBranchIntended(db, req, now).db.messages == db.messages
  {
    var pool := ConversationMessages(db, ParseField(req.conversationId).value);
    if forall m :: m in pool ==> !SeedMatchesAsWritten(req.messageIds, m) {
      CreateBranchWithoutSeedWith(db, req, now, false);
    }
    if forall m :: m in pool ==> !SeedMatches(req.messageIds, m) {
      CreateBranchWithoutSeedWith(db, req, now, true);
    }
  }

  /** The case the branching page produces: ids sent as numbers. The
      handler returns its new branch empty and adds no message, while the
      corrected handler copies every message of the conversation that is
      named. */
  lemma NumberIdsCreateEmptyBranch(db: Db, req: BranchRequest, now: int)
    requires Valid(db)
    requires !Falsy(req.conversationId) && !FalsyText(req.name) && ParseField(req.conversationId).Some?
    requires forall i :: 0 <= i < |req.messageIds| ==> req.messageIds[i].Num?
    ensures CreateBranch(db, req, now).response.Ok?
    ensures CreateBranch(db, req, now).response.payload.messages == []
    ensures CreateBranch(db, req, now).db.messages == db.messages
    ensures forall m :: m in ConversationMessages(db, ParseField(req.conversationId).value) && Num(m.id) in req.messageIds ==>
      SeedMatches(req.messageIds, m) && !SeedMatchesAsWritten(req.messageIds, m)
  {
    var pool := ConversationMessages(db, ParseField(req.conversationId).value);
    forall m | m in pool ensures !SeedMatchesAsWritten(req.messageIds, m) {
      assert Str(IdString(m.id)) !in req.messageIds;
    }
    CreateBranchWithoutSeedWith(db, req, now, false);
  }

  lemma CreateBranchWithoutSeedWith(db: Db, req: BranchRequest, now: int, intended: bool)
    requires Valid(db)
    requires !Falsy(req.conversationId) && !FalsyText(req.name) && ParseField(req.conversationId).Some?
    requires forall m :: m in ConversationMessages(db, ParseField(req.conversationId).value) ==>
      !SeedMatchesWith(intended, req.messageIds, m)
    ensures CreateBranchWith(db, req, now, intended).response.Ok?
    ensures CreateBranchWith(db, req, now, intended).response.payload.messages == []
    ensures CreateBranchWith(db, req, now, intended).db.messages == db.messages
  {
    var cid := ParseField(req.conversationId).value;
    NoSeed(db, cid, req.messageIds, intended);
    InsertNothing(db, cid, req.name.value, ParentOf(req.parentId), now);
  }

  /** When its test matches no message of the conversation, a selection is
      empty. */
  lemma NoSeed(db: Db, cid: int, ids: seq<Field>, intended: bool)
    requires forall m :: m in ConversationMessages(db, cid) ==> !SeedMatchesWith(intended, ids, m)
    ensures BranchSeed(db, cid, ids, intended) == []
  {
    var pool := ConversationMessages(db, cid);
    if intended {
      forall i | 0 <= i < |pool| ensures !SeedTest(ids)(pool[i]) {
        assert pool[i] in pool;
      }
      FilterNone(pool, SeedTest(ids));
    } else {
      forall i | 0 <= i < |pool| ensures !SeedTestAsWritten(ids)(pool[i]) {
        assert pool[i] in pool;
      }
      FilterNone(pool, SeedTestAsWritten(ids));
    }
  }

  /** With an empty selection only the branch row is written. */
  lemma InsertNothing(db: Db, cid: int, name: string, parentId: Option<int>, now: int)
    ensures InsertBranch(db, cid, name, parentId, [], now).messages == db.messages
  {
    var d := InsertBranch(db, cid, name, parentId, [], now);
    var added := d.messages[|db.messages|..];
    assert |Contents(added)| == 0;
    assert d.messages == db.messages + added;
  }
}

=== FILE: character_forms.dfy ===
/** The two character forms: the create page, which maps comma lists to
    the structured columns, and the import page, which accepts a text
    file, reads a character sheet out of its lines and maps it the same
    way. Both send a `POST /api/characters` body. */
module CharacterForms {
  import opened Common
  import opened Text
  import opened Seqs
  import opened Schema
  import opened Http
  import opened CharactersApi

  /** `s.split(',').map(t => t.trim())`: empty pieces are kept. */
  function SplitTrim(s: string): seq<string> {
    TrimAll(Split(s, ','))
  }

  /** The pieces are trimmed and comma-free, and there is at least one. */
  lemma SplitTrimPieces(s: string)
    ensures |SplitTrim(s)| >= 1
    ensures forall i :: 0 <= i < |SplitTrim(s)| ==> ',' !in SplitTrim(s)[i] && Trim(SplitTrim(s)[i]) == SplitTrim(s)[i]
  {
    var parts := Split(s, ',');
    forall i | 0 <= i < |parts| ensures ',' !in Trim(parts[i]) && Trim(Trim(parts[i])) == Trim(parts[i]) {
      TrimIdempotent(parts[i]);
      TrimKeepsOut(parts[i], ',');
    }
  }

  /** A piece `SplitTrim` can give back: no comma and no white space at
      either end (it may be empty). */
  predicate Piece(s: string) {
    ',' !in s && (s == [] || (!IsSpace(s[0]) && !IsSpace(s[|s| - 1])))
  }

  /** Round trip: pieces joined by commas split back into the pieces. */
  lemma SplitTrimJoin(items: seq<string>)
    requires |items| >= 1
    requires forall i :: 0 <= i < |items| ==> Piece(items[i])
    ensures SplitTrim(Join(items, ",")) == items
  {
    assert "," == [','];
    SplitJoin(items, ',');
    TrimAllPieces(items);
  }

  /** Trimming pieces changes none of them. */
  lemma TrimAllPieces(items: seq<string>)
    requires forall i :: 0 <= i < |items| ==> Piece(items[i])
    ensures TrimAll(items) == items
  {
    forall i | 0 <= i < |items| ensures Trim(items[i]) == items[i] {
      TrimKeepsInner(items[i]);
    }
  }

  const FriendlyMood := "friendly"
  const CasualStyle := "casual"

  /** A non-empty personality text becomes traits with the fixed mood and
      style and the description as backstory; an empty one becomes null. */
  function PersonalityOf(personality: string, description: string): (r: Option<Personality>)
    ensures r.None? <==> personality == ""
    ensures r.Some? ==> r.value.traits == SplitTrim(personality)
    ensures r.Some? ==> r.value.mood == FriendlyMood && r.value.style == CasualStyle
    ensures r.Some? ==> r.value.backstory == description
  {
    if personality == "" then None
    else Some(Personality(SplitTrim(personality), FriendlyMood, CasualStyle, description))
  }

  /** A non-empty attributes text becomes `{interests}`; empty is null. */
  function AttributesOf(attributes: string): (r: Option<Attributes>)
    ensures r.None? <==> attributes == ""
    ensures r.Some? ==> r.value.interests == SplitTrim(attributes)
  {
    if attributes == "" then None else Some(Attributes(SplitTrim(attributes)))
  }

  /** A non-empty skills text becomes the list; empty is null. */
  function SkillsOf(skills: string): (r: Option<seq<string>>)
    ensures r.None? <==> skills == ""
    ensures r.Some? ==> r.value == SplitTrim(skills)
  {
    if skills == "" then None else Some(SplitTrim(skills))
  }

  /** Traits written as a comma list come back as written. */
  lemma PersonalityRoundTrip(traits: seq<string>, description: string)
    requires |traits| >= 1 && Join(traits, ",") != ""
    requires forall i :: 0 <= i < |traits| ==> Piece(traits[i])
    ensures PersonalityOf(Join(traits, ","), description)
         == Some(Personality(traits, FriendlyMood, CasualStyle, description))
  {
    SplitTrimJoin(traits);
  }

  // ---- The create page ----

  /** The create page's form state. */
  datatype FormData = FormData(
    name: string, description: string, avatar: string,
    personality: string, attributes: string, skills: string, isPublic: bool)

  /** The form as the page opens it: every text empty and public. */
  const InitialForm := FormData("", "", "", "", "", "", true)

  /** The body `handleSubmit` sends: the form fields as they are, with the
      three structured fields replaced by their mapped values. */
  function CreateBody(f: FormData): (r: CharacterRequest)
    ensures r.name == Some(f.name) && r.description == Some(f.description) && r.avatar == Some(f.avatar)
    ensures r.personality == PersonalityOf(f.personality, f.description)
    ensures r.attributes == AttributesOf(f.attributes) && r.skills == SkillsOf(f.skills)
    ensures r.isPublic == Given(f.isPublic)
  {
    CharacterRequest(
      Some(f.name), Some(f.description), Some(f.avatar),
      PersonalityOf(f.personality, f.description), AttributesOf(f.attributes), SkillsOf(f.skills),
      Given(f.isPublic))
  }

  /** Submitting the untouched form is refused for the missing name. */
  lemma InitialFormRejected(db: Db, caller: int, now: int)
    ensures CreateCharacter(db, Some(caller), CreateBody(InitialForm), now).Failed(StatusBadRequest)
    ensures CreateCharacter(db, Some(caller), CreateBody(InitialForm), now).db == db
  {
  }

  /** A form with a name creates a character that is public exactly when
      the box was ticked, with the form's text and mapped lists. */
  lemma CreateFormStored(db: Db, caller: int, f: FormData, now: int)
    requires f.name != ""
    ensures var r := CreateCharacter(db, Some(caller), CreateBody(f), now);
      && r.response.Ok? && r.response.payload.name == f.name
      && r.response.payload.description == Some(f.description)
      && r.response.payload.personality == PersonalityOf(f.personality, f.description)
      && r.response.payload.skills == SkillsOf(f.skills)
      && (r.response.payload.isPublic == Some(true) <==> f.isPublic)
  {
  }

  /** The browser's gate on the create form: the name input and the
      description textarea are `required`, so the form's submit event,
      and with it `handleSubmit`, fires only when both are filled in. */
  predicate Submittable(f: FormData) {
    f.name != "" && f.description != ""
  }

  /** Pressing the submit button: nothing is sent while a required field
      is empty; otherwise the create request goes out. */
  function Submit(db: Db, caller: int, f: FormData, now: int): (r: Option<Outcome<Character>>)
    ensures r.Some? <==> f.name != "" && f.description != ""
  {
    if Submittable(f) then Some(CreateCharacter(db, Some(caller), CreateBody(f), now)) else None
  }

  /** The untouched form never reaches the route. */
  lemma InitialFormBlocked(db: Db, caller: int, now: int)
    ensures !Submittable(InitialForm)
    ensures Submit(db, caller, InitialForm, now) == None
  {
  }

  /** Every form the page lets through is stored, with the form's text and
      mapped lists, public exactly when the box was ticked. */
  lemma SubmittedFormStored(db: Db, caller: int, f: FormData, now: int)
    ensures Submit(db, caller, f, now).Some? <==> Submittable(f)
    ensures Submittable(f) ==> var r := Submit(db, caller, f, now).value;
      && r.response.Ok? && r.response.payload.name == f.name
      && r.response.payload.description == Some(f.description)
      && r.response.payload.personality == PersonalityOf(f.personality, f.description)
      && r.response.payload.skills == SkillsOf(f.skills)
      && (r.response.payload.isPublic == Some(true) <==> f.isPublic)
  {
    if Submittable(f) {
      CreateFormStored(db, caller, f, now);
    }
  }

  // ---- The import page ----

  /** A chosen file: its name and MIME type. */
  datatype FileInfo = FileInfo(name: string, mimeType: string)

  /** The import page's file and error message. */
  datatype ImportState = ImportState(file: Option<FileInfo>, error: string)

  const WrongFileType := "يرجى اختيار ملف PDF أو TXT فقط"

  predicate AcceptedType(mimeType: string) {
    mimeType == "application/pdf" || mimeType == "text/plain"
  }

  /** `handleFileChange`: a PDF or text file is taken and the error
      cleared; any other type only sets the error; no file changes
      nothing. */
  function SelectFile(st: ImportState, chosen: Option<FileInfo>): (r: ImportState)
    ensures chosen.None? ==> r == st
    ensures chosen.Some? && AcceptedType(chosen.value.mimeType) ==> r == ImportState(chosen, "")
    ensures chosen.Some? && !AcceptedType(chosen.value.mimeType) ==> r == st.(error := WrongFileType)
    ensures r.file.Some? ==> AcceptedType(r.file.value.mimeType) || r.file == st.file
  {
    match chosen
    case None => st
    case Some(f) => if AcceptedType(f.mimeType) then ImportState(chosen, "") else st.(error := WrongFileType)
  }

  /** The page only ever holds a PDF or a text file. */
  lemma SelectFileKeepsType(st: ImportState, chosen: Option<FileInfo>)
    requires st.file.Some? ==> AcceptedType(st.file.value.mimeType)
    ensures var r := SelectFile(st, chosen); r.file.Some? ==> AcceptedType(r.file.value.mimeType)
  {
  }

  /** The fields a sheet can set, in the order the page tests them. */
  datatype Key = NameKey | DescriptionKey | PersonalityKey | AttributesKey | SkillsKey | AvatarKey

  /** The key a line announces: the first of the chain whose Arabic word or
      English label occurs in the lower-cased line. */
  function KeyOf(line: string): (r: Option<Key>)
    ensures r == Some(NameKey) <==> Contains(ToLower(line), "الاسم") || Contains(ToLower(line), "name:")
  {
    var l := ToLower(line);
    if Contains(l, "الاسم") || Contains(l, "name:") then Some(NameKey)
    else if Contains(l, "الوصف") || Contains(l, "description:") then Some(DescriptionKey)
    else if Contains(l, "الشخصية") || Contains(l, "personality:") then Some(PersonalityKey)
    else if Contains(l, "الاهتمامات") || Contains(l, "attributes:") || Contains(l, "interests:") then Some(AttributesKey)
    else if Contains(l, "المهارات") || Contains(l, "skills:") then Some(SkillsKey)
    else if Contains(l, "الصورة") || Contains(l, "avatar:") || Contains(l, "image:") then Some(AvatarKey)
    else None
  }

  /** `text.split('\n').map(l => l.trim()).filter(l => l)`: the trimmed
      non-empty lines, in order. */
  function Lines(text: string): (r: seq<string>)
    ensures forall i :: 0 <= i < |r| ==> r[i] != "" && Trim(r[i]) == r[i] && '\n' !in r[i]
    ensures forall x :: x in r <==> x != "" && exists p :: p in Split(text, '\n') && Trim(p) == x
    ensures r == Filter(TrimAll(Split(text, '\n')), NonEmptyText())
  {
    var r := Pieces(text, '\n');
    assert forall i :: 0 <= i < |r| ==> r[i] in r;
    r
  }

  /** `lines[i + 1] || ''`. */
  function NextLine(lines: seq<string>, i: nat): string {
    if i + 1 < |lines| then lines[i + 1] else ""
  }

  /** The sheet as read: one text per field. */
  datatype Parsed = Parsed(
    name: string, description: string, personality: string,
    attributes: string, skills: string, avatar: string)

  const EmptyParsed := Parsed("", "", "", "", "", "")

  function Get(p: Parsed, k: Key): string {
    match k
    case NameKey => p.name
    case DescriptionKey => p.description
    case PersonalityKey => p.personality
    case AttributesKey => p.attributes
    case SkillsKey => p.skills
    case AvatarKey => p.avatar
  }

  /** The key each line announces, in line order. */
  function KeysOf(lines: seq<string>): (r: seq<Option<Key>>)
    ensures |r| == |lines|
    ensures forall i :: 0 <= i < |lines| ==> r[i] == KeyOf(lines[i])
  {
    seq(|lines|, i requires 0 <= i < |lines| => KeyOf(lines[i]))
  }

  /** The last of the first `n` positions that announces `k`. */
  function LastKeyed(keys: seq<Option<Key>>, k: Key, n: nat): (r: Option<nat>)
    requires n <= |keys|
    ensures r.Some? ==> r.value < n && keys[r.value] == Some(k)
    ensures r.Some? ==> forall j :: r.value < j < n ==> keys[j] != Some(k)
    ensures r.None? ==> forall j :: 0 <= j < n ==> keys[j] != Some(k)
  {
    if n == 0 then None
    else if keys[n - 1] == Some(k) then Some(n - 1)
    else LastKeyed(keys, k, n - 1)
  }

  /** What the first `n` lines set field `k` to: the line after the last
      one announcing it, or nothing. */
  function FoundIn(lines: seq<string>, keys: seq<Option<Key>>, k: Key, n: nat): string
    requires n <= |keys|
  {
    match LastKeyed(keys, k, n)
    case None => ""
    case Some(i) => NextLine(lines, i)
  }

  /** The fields after the whole sheet was scanned, given the key each
      line announces. */
  function Found(lines: seq<string>, keys: seq<Option<Key>>): (r: Parsed)
    requires |keys| == |lines|
    ensures forall k :: Get(r, k) == FoundIn(lines, keys, k, |lines|)
  {
    var n := |lines|;
    Parsed(FoundIn(lines, keys, NameKey, n), FoundIn(lines, keys, DescriptionKey, n),
           FoundIn(lines, keys, PersonalityKey, n), FoundIn(lines, keys, AttributesKey, n),
           FoundIn(lines, keys, SkillsKey, n), FoundIn(lines, keys, AvatarKey, n))
  }

  const UnnamedCharacter := "شخصية غير مسماة"
  const NoDescription := "لا يوجد وصف"
  const DefaultPersonality := "ودود، مفيد"

  /** Without a name, the first line is the name and the rest, one per
      line, the description. */
  function WithFallback(p: Parsed, lines: seq<string>): (r: Parsed)
    ensures p.name == "" && |lines| > 0 ==> r == p.(name := lines[0], description := Join(lines[1..], "\n"))
    ensures p.name != "" || |lines| == 0 ==> r == p
  {
    if p.name == "" && |lines| > 0 then p.(name := lines[0], description := Join(lines[1..], "\n")) else p
  }

  /** Empty fields take the page's defaults. */
  function WithDefaults(p: Parsed): (r: Parsed)
    ensures r.name != "" && r.description != "" && r.personality != ""
    ensures p.name != "" ==> r.name == p.name
    ensures p.description != "" ==> r.description == p.description
    ensures p.personality != "" ==> r.personality == p.personality
    ensures r.attributes == p.attributes && r.skills == p.skills && r.avatar == p.avatar
  {
    Parsed(
      if p.name != "" then p.name else UnnamedCharacter,
      if p.description != "" then p.description else NoDescription,
      if p.personality != "" then p.personality else DefaultPersonality,
      p.attributes, p.skills, p.avatar)
  }

  /** One more line extends what was found by that line's announcement. */
  lemma FoundInStep(lines: seq<string>, keys: seq<Option<Key>>, i: nat)
    requires i < |keys|
    ensures forall k ::
      FoundIn(lines, keys, k, i + 1) == (if keys[i] == Some(k) then NextLine(lines, i) else FoundIn(lines, keys, k, i))
  {
  }

  /** The loop of `extractCharacterInfo`: every line announcing a field
      sets that field to the next line, so a later announcement overwrites
      an earlier one. The result is the last-announcement reading. */
  method Scan(lines: seq<string>, keys: seq<Option<Key>>) returns (acc: Parsed)
    requires |keys| == |lines|
    ensures acc == Found(lines, keys)
  {
    acc := EmptyParsed;
    var i := 0;
    while i < |lines|
      invariant i <= |lines|
      invariant forall k :: Get(acc, k) == FoundIn(lines, keys, k, i)
    {
      var next := NextLine(lines, i);
      FoundInStep(lines, keys, i);
      match keys[i] {
        case Some(NameKey) => acc := acc.(name := next);
        case Some(DescriptionKey) => acc := acc.(description := next);
        case Some(PersonalityKey) => acc := acc.(personality := next);
        case Some(AttributesKey) => acc := acc.(attributes := next);
        case Some(SkillsKey) => acc := acc.(skills := next);
        case Some(AvatarKey) => acc := acc.(avatar := next);
        case None =>
      }
      i := i + 1;
    }
    assert forall k :: Get(acc, k) == Get(Found(lines, keys), k);
  }

  /** `extractCharacterInfo(text)`: the scan over the sheet's lines, then
      the first-line fallback and the defaults. The result always has a
      name. */
  method ExtractCharacterInfo(text: string) returns (p: Parsed)
    ensures p == WithDefaults(WithFallback(Found(Lines(text), KeysOf(Lines(text))), Lines(text)))
    ensures p.name != ""
  {
    var lines := Lines(text);
    var acc := Scan(lines, KeysOf(lines));
    p := WithDefaults(WithFallback(acc, lines));
  }

  /** A sheet without any announced field is read as a name line followed
      by description lines. */
  lemma PlainSheet(text: string)
    requires |Lines(text)| > 0
    requires forall i :: 0 <= i < |Lines(text)| ==> KeyOf(Lines(text)[i]).None?
    ensures var lines := Lines(text);
      var p := WithDefaults(WithFallback(Found(lines, KeysOf(lines)), lines));
      p.name == lines[0] && (|lines| > 1 ==> p.description == Join(lines[1..], "\n"))
  {
    var lines := Lines(text);
    assert Found(lines, KeysOf(lines)).name == "";
    assert |lines| > 1 ==> Join(lines[1..], "\n") != "" by {
      if |lines| > 1 {
        JoinNonEmpty(lines[1..], "\n");
      }
    }
  }

  lemma JoinNonEmpty(parts: seq<string>, glue: string)
    requires |parts| >= 1 && parts[0] != ""
    ensures Join(parts, glue) != ""
  {
  }

  /** The body `handleImport` sends for a parsed sheet: always public. */
  function ImportBody(p: Parsed): (r: CharacterRequest)
    ensures r.name == Some(p.name) && r.description == Some(p.description) && r.avatar == Some(p.avatar)
    ensures r.personality == PersonalityOf(p.personality, p.description)
    ensures r.attributes == AttributesOf(p.attributes) && r.skills == SkillsOf(p.skills)
    ensures r.isPublic == Given(true)
  {
    CharacterRequest(
      Some(p.name), Some(p.description), Some(p.avatar),
      PersonalityOf(p.personality, p.description), AttributesOf(p.attributes), SkillsOf(p.skills),
      Given(true))
  }

  /** A signed-in user's import of any sheet is accepted, because the
      parsed name is never empty; the character is public. */
  lemma ImportAccepted(db: Db, caller: int, p: Parsed, now: int)
    requires p.name != ""
    ensures var r := CreateCharacter(db, Some(caller), ImportBody(p), now);
      r.response.Ok? && r.response.payload.isPublic == Some(true) && r.response.payload.creatorId == caller
  {
  }
}

=== FILE: characters_api.dfy ===
/** The character handlers (`GET` and `POST /api/characters`). */
module CharactersApi {
  import opened Common
  import opened Text
  import opened Seqs
  import opened Schema
  import opened Http

  const Unauthorized := "Unauthorized"
  const NameRequired := "Character name is required"

  /** The test of the listing: the creator's characters when a `userId` is
      given (a `NaN` id matches nothing), otherwise the public ones. A
      character whose `isPublic` is null is not public. */
  function Listed(userId: Option<string>): Character -> bool {
    (c: Character) =>
      if FalsyText(userId) then c.isPublic == Some(true)
      else ParseInt(userId.value) == Some(c.creatorId)
  }

  /** `GET`: the characters of the user named by `userId`, public or not,
      or, without `userId`, every public character; in table order. */
  function ListCharacters(db: Db, userId: Option<string>): (r: Outcome<seq<Character>>)
    ensures r.db == db && r.response.Ok? && r.response.status == StatusOk
    ensures !FalsyText(userId) ==>
      forall c :: c in r.response.payload <==> c in db.characters && ParseInt(userId.value) == Some(c.creatorId)
    ensures FalsyText(userId) ==>
      forall c :: c in r.response.payload <==> c in db.characters && c.isPublic == Some(true)
    ensures |r.response.payload| <= |db.characters|
  {
    Outcome(Ok(StatusOk, Filter(db.characters, Listed(userId))), db)
  }

  /** A JSON value that may be `undefined`, `null` or given. */
  datatype Tri<T> = Undefined | Null | Given(value: T)

  /** A `POST` body. The structured fields are objects (always truthy) or
      missing. */
  datatype CharacterRequest = CharacterRequest(
    name: Option<string>, description: Option<string>, avatar: Option<string>,
    personality: Option<Personality>, attributes: Option<Attributes>, skills: Option<seq<string>>,
    isPublic: Tri<bool>)

  /** `isPublic !== undefined ? isPublic : true`: an explicit `null` is kept. */
  function PublicFlag(t: Tri<bool>): (r: Option<bool>)
    ensures t.Undefined? ==> r == Some(DefaultIsPublic)
    ensures t.Null? ==> r.None?
    ensures t.Given? ==> r == Some(t.value)
  {
    match t
    case Undefined => Some(DefaultIsPublic)
    case Null => None
    case Given(b) => Some(b)
  }

  /** `POST`: checks a valid token (401) and a truthy `name` (400), then
      inserts a character owned by the caller. */
  function CreateCharacter(db: Db, caller: Option<int>, req: CharacterRequest, now: int): (r: Outcome<Character>)
    ensures r.Failed(StatusUnauthorized) <==> caller.None?
    ensures r.Failed(StatusBadRequest) <==> caller.Some? && FalsyText(req.name)
    ensures r.response.Ok? <==> caller.Some? && !FalsyText(req.name)
    ensures r.response.Error? ==> r.db == db
    ensures r.response.Ok? ==>
      var c := r.response.payload;
      && r.response.status == StatusCreated
      && c.id == db.nextId && c.creatorId == caller.value && c.name == req.name.value
      && c.description == req.description && c.avatar == req.avatar
      && c.personality == req.personality && c.attributes == req.attributes && c.skills == req.skills
      && (c.isPublic == Some(true) <==> req.isPublic == Undefined || req.isPublic == Given(true))
      && r.db == db.(characters := db.characters + [c], nextId := db.nextId + 1)
  {
    if caller.None? then Outcome(Error(StatusUnauthorized, Unauthorized), db)
    else if FalsyText(req.name) then Outcome(Error(StatusBadRequest, NameRequired), db)
    else
      var c := Character(db.nextId, caller.value, req.name.value, req.description, req.avatar,
                         req.personality, req.attributes, req.skills, PublicFlag(req.isPublic), now, now);
      Outcome(Ok(StatusCreated, c), db.(characters := db.characters + [c], nextId := db.nextId + 1))
  }

  /** A character just created is listed among its creator's characters,
      and among the public ones exactly when it is public. */
  lemma CreatedCharacterIsListed(db: Db, caller: int, req: CharacterRequest, now: int)
    requires CreateCharacter(db, Some(caller), req, now).response.Ok?
    ensures var r := CreateCharacter(db, Some(caller), req, now);
      && r.response.payload in ListCharacters(r.db, Some(IdString(caller))).response.payload
      && (r.response.payload in ListCharacters(r.db, None).response.payload <==>
            req.isPublic == Undefined || req.isPublic == Given(true))
  {
    ParseIdString(caller);
    var r := CreateCharacter(db, Some(caller), req, now);
    assert r.response.payload in r.db.characters;
  }

  /** A successful `POST` keeps the store valid and every character owned
      by an existing user. */
  lemma CreateCharacterKeepsInvariants(db: Db, caller: Option<int>, req: CharacterRequest, now: int)
    requires Valid(db) && RefIntegrity(db)
    requires caller.Some? ==> caller.value in UserIds(db)
    ensures Valid(CreateCharacter(db, caller, req, now).db)
    ensures RefIntegrity(CreateCharacter(db, caller, req, now).db)
  {
    var r := CreateCharacter(db, caller, req, now);
    if r.response.Ok? {
      var c := r.response.payload;
      KeyedAppend(db.characters, [c], CharacterId, db.nextId, db.nextId + 1);
      KeyedAppend(db.messages, [], MessageId, db.nextId, db.nextId + 1);
      KeyedAppend(db.branches, [], BranchId, db.nextId, db.nextId + 1);
      KeyedAppend(db.memories, [], MemoryId, db.nextId, db.nextId + 1);
      KeyedAppend(db.conversations, [], ConversationId, db.nextId, db.nextId + 1);
      assert db.messages + [] == db.messages;
      assert db.branches + [] == db.branches;
      assert db.memories + [] == db.memories;
      assert db.conversations + [] == db.conversations;
      assert UserIds(r.db) == UserIds(db) && ConversationIds(r.db) == ConversationIds(db);
      assert CharacterIds(r.db) == CharacterIds(db) + {c.id};
    }
  }
}

=== FILE: common.dfy ===
/** Values shared by every part of the model: an optional value, and the
    loosely typed request fields that the JavaScript handlers receive. */
module Common {

  datatype Option<+T> = None | Some(value: T) {
    function GetOr(default: T): T {
      match this
      case Some(v) => v
      case None => default
    }
  }

  /** A JSON request field that is either missing, a number or a string. */
  datatype Field = Absent | Num(n: int) | Str(s: string)

  /** JavaScript falsiness of a field: `undefined`, `0` and `""`. */
  predicate Falsy(f: Field) {
    f.Absent? || f == Num(0) || f == Str("")
  }

  /** JavaScript falsiness of an optional string (`undefined`, `null` or `""`). */
  predicate FalsyText(o: Option<string>) {
    o.None? || o.value == ""
  }

  /** `a || b` on optional strings: the first one when truthy, else the fallback. */
  function OrElse(o: Option<string>, fallback: string): (r: string)
    ensures !FalsyText(o) ==> r == o.value
    ensures FalsyText(o) ==> r == fallback
  {
    if FalsyText(o) then fallback else o.value
  }
}

=== FILE: conversations_api.dfy ===
/** The conversation handlers (`GET` and `POST /api/conversations`). */
module ConversationsApi {
  import opened Common
  import opened Seqs
  import opened Schema
  import opened Http

  const Unauthorized := "Unauthorized"
  const CharacterIdRequired := "Character ID is required"
  const CharacterNotFound := "Character not found"

  /** A row of the conversation listing. */
  datatype ConversationView = ConversationView(
    id: int, title: Option<string>, isArchived: bool, createdAt: int, updatedAt: int,
    characterId: int, characterName: string, characterAvatar: Option<string>)

  function ViewOf(c: Conversation, ch: Character): ConversationView {
    ConversationView(c.id, c.title, c.isArchived, c.createdAt, c.updatedAt, ch.id, ch.name, ch.avatar)
  }

  /** `c` joined with `ch` passes the listing's join and filter: the
      caller's own, not archived. */
  predicate Joins(c: Conversation, ch: Character, caller: int) {
    c.characterId == ch.id && c.userId == caller && !c.isArchived
  }

  function JoinOne(c: Conversation, chs: seq<Character>, caller: int): (r: seq<ConversationView>)
    ensures forall v :: v in r <==> exists ch :: ch in chs && Joins(c, ch, caller) && v == ViewOf(c, ch)
  {
    if chs == [] then []
    else
      var rest := JoinOne(c, chs[1..], caller);
      assert forall ch :: ch in chs <==> ch == chs[0] || ch in chs[1..];
      (if Joins(c, chs[0], caller) then [ViewOf(c, chs[0])] else []) + rest
  }

  /** `conversations inner join characters on characterId = id
      where userId = caller and isArchived = false`. */
  function Join(cs: seq<Conversation>, chs: seq<Character>, caller: int): (r: seq<ConversationView>)
    ensures forall v :: v in r <==> exists c, ch :: c in cs && ch in chs && Joins(c, ch, caller) && v == ViewOf(c, ch)
  {
    if cs == [] then []
    else
      var rest := Join(cs[1..], chs, caller);
      assert forall c :: c in cs <==> c == cs[0] || c in cs[1..];
      JoinOne(cs[0], chs, caller) + rest
  }

  function ViewUpdatedAt(v: ConversationView): int { v.updatedAt }

  /** `GET`: the caller's conversations that are not archived, most
      recently updated first, each with its character's name and avatar.
      Without a valid token it is a 401. Nothing is written. */
  function ListConversations(db: Db, caller: Option<int>): (r: Outcome<seq<ConversationView>>)
    ensures r.db == db
    ensures caller.None? <==> r.response.Error?
    ensures r.response.Error? ==> r.response == Error(StatusUnauthorized, Unauthorized)
    ensures r.response.Ok? ==>
      && r.response.status == StatusOk
      && (forall v :: v in r.response.payload <==>
            exists c, ch :: c in db.conversations && ch in db.characters && Joins(c, ch, caller.value) && v == ViewOf(c, ch))
      && forall i, j :: 0 <= i < j < |r.response.payload| ==>
           r.response.payload[i].updatedAt >= r.response.payload[j].updatedAt
  {
    if caller.None? then Outcome(Error(StatusUnauthorized, Unauthorized), db)
    else
      var rows := Join(db.conversations, db.characters, caller.value);
      var sorted := SortDescBy(rows, ViewUpdatedAt);
      assert forall v :: v in sorted <==> v in multiset(sorted);
      assert forall v :: v in rows <==> v in multiset(rows);
      Outcome(Ok(StatusOk, sorted), db)
  }

  function IsCharacter(id: int): Character -> bool {
    (c: Character) => c.id == id
  }

  /** The first character whose id is `id`. */
  function FindCharacter(cs: seq<Character>, id: int): (r: Option<Character>)
    ensures r.Some? ==> r.value in cs && r.value.id == id
    ensures r.None? <==> forall c :: c in cs ==> c.id != id
  {
    match FirstIndex(cs, IsCharacter(id))
    case None => None
    case Some(i) => Some(cs[i])
  }

  /** A `POST` body. */
  datatype ConversationRequest = ConversationRequest(characterId: Option<int>, title: Option<string>)

  /** `POST`: starts a new conversation of the caller with a character.
      Checks, in order: a valid token (401), a truthy `characterId` (400),
      an existing character (404). The title defaults to the character's
      name. A new row is inserted every time; nothing looks for an existing
      conversation. */
  function CreateConversation(db: Db, caller: Option<int>, req: ConversationRequest, now: int): (r: Outcome<Conversation>)
    ensures r.Failed(StatusUnauthorized) <==> caller.None?
    ensures r.Failed(StatusBadRequest) <==> caller.Some? && (req.characterId.None? || req.characterId == Some(0))
    ensures r.Failed(StatusNotFound) <==>
      && caller.Some? && req.characterId.Some? && req.characterId != Some(0)
      && forall ch :: ch in db.characters ==> ch.id != req.characterId.value
    ensures r.response.Ok? <==>
      && caller.Some? && req.characterId.Some? && req.characterId != Some(0)
      && exists ch :: ch in db.characters && ch.id == req.characterId.value
    ensures r.response.Error? ==> r.db == db
    ensures r.response.Ok? ==>
      var c := r.response.payload;
      var ch := FindCharacter(db.characters, req.characterId.value).value;
      && r.response.status == StatusCreated
      && c == Conversation(db.nextId, caller.value, req.characterId.value, Some(OrElse(req.title, ch.name)),
                           DefaultIsArchived, now, now)
      && r.db == db.(conversations := db.conversations + [c], nextId := db.nextId + 1)
  {
    if caller.None? then Outcome(Error(StatusUnauthorized, Unauthorized), db)
    else if req.characterId.None? || req.characterId == Some(0) then
      Outcome(Error(StatusBadRequest, CharacterIdRequired), db)
    else match FindCharacter(db.characters, req.characterId.value)
      case None => Outcome(Error(StatusNotFound, CharacterNotFound), db)
      case Some(ch) =>
        var c := Conversation(db.nextId, caller.value, ch.id, Some(OrElse(req.title, ch.name)),
                              DefaultIsArchived, now, now);
        Outcome(Ok(StatusCreated, c), db.(conversations := db.conversations + [c], nextId := db.nextId + 1))
  }

  /** A conversation just created shows up in the caller's listing. */
  lemma CreatedConversationIsListed(db: Db, caller: int, req: ConversationRequest, now: int)
    requires CreateConversation(db, Some(caller), req, now).response.Ok?
    ensures var r := CreateConversation(db, Some(caller), req, now);
      var ch := FindCharacter(db.characters, req.characterId.value).value;
      ViewOf(r.response.payload, ch) in ListConversations(r.db, Some(caller)).response.payload
  {
    var r := CreateConversation(db, Some(caller), req, now);
    var ch := FindCharacter(db.characters, req.characterId.value).value;
    assert r.response.payload in r.db.conversations && ch in r.db.characters;
    assert Joins(r.response.payload, ch, caller);
  }

  /** Starting a conversation twice with the same character gives two
      different conversations. */
  lemma CreateConversationTwice(db: Db, caller: int, req: ConversationRequest, now: int, later: int)
    requires CreateConversation(db, Some(caller), req, now).response.Ok?
    ensures var r1 := CreateConversation(db, Some(caller), req, now);
      var r2 := CreateConversation(r1.db, Some(caller), req, later);
      && r2.response.Ok?
      && |r2.db.conversations| == |db.conversations| + 2
      && r1.response.payload.id != r2.response.payload.id
      && r1.response.payload.characterId == r2.response.payload.characterId
  {
    var r1 := CreateConversation(db, Some(caller), req, now);
    var ch := FindCharacter(db.characters, req.characterId.value).value;
    assert ch in r1.db.characters;
  }

  /** Appending a conversation under the fresh id, owned by a user and
      naming a stored character, keeps the store valid and closed. */
  lemma AddConversationKeeps(db: Db, c: Conversation)
    requires Valid(db) && RefIntegrity(db)
    requires c.id == db.nextId && c.userId in UserIds(db) && c.characterId in CharacterIds(db)
    ensures var r := db.(conversations := db.conversations + [c], nextId := db.nextId + 1);
      Valid(r) && RefIntegrity(r)
  {
    var r := db.(conversations := db.conversations + [c], nextId := db.nextId + 1);
    KeyedAppend(db.conversations, [c], ConversationId, db.nextId, db.nextId + 1);
    KeyedAppend(db.messages, [], MessageId, db.nextId, db.nextId + 1);
    KeyedAppend(db.branches, [], BranchId, db.nextId, db.nextId + 1);
    KeyedAppend(db.memories, [], MemoryId, db.nextId, db.nextId + 1);
    KeyedAppend(db.characters, [], CharacterId, db.nextId, db.nextId + 1);
    assert db.messages + [] == db.messages;
    assert db.branches + [] == db.branches;
    assert db.memories + [] == db.memories;
    assert db.characters + [] == db.characters;
    assert UserIds(r) == UserIds(db) && CharacterIds(r) == CharacterIds(db);
    assert ConversationIds(r) == ConversationIds(db) + {c.id};
  }

  /** A successful `POST` keeps the store valid and leaves no dangling
      reference: the owner is the caller, and the caller is a user. */
  lemma CreateConversationKeepsInvariants(db: Db, caller: Option<int>, req: ConversationRequest, now: int)
    requires Valid(db) && RefIntegrity(db)
    requires caller.Some? ==> caller.value in UserIds(db)
    ensures Valid(CreateConversation(db, caller, req, now).db)
    ensures RefIntegrity(CreateConversation(db, caller, req, now).db)
  {
    var r := CreateConversation(db, caller, req, now);
    if r.response.Ok? {
      var ch := FindCharacter(db.characters, req.characterId.value).value;
      assert ch in db.characters;
      AddConversationKeeps(db, r.response.payload);
    }
  }
}

=== FILE: export.dfy ===
/** The export page: the guard and format dispatch of `handleExport`, the
    plain-text serialiser, the JSON document and the per-message sender
    labelling of the HTML (print-to-PDF) export. Dates are formatted by a
    locale function the caller supplies. */
module Export {
  import opened Common
  import opened Text
  import opened Seqs

  /** A conversation as the page lists it. */
  datatype ExportConv = ExportConv(
    id: int, title: string, characterName: string, characterAvatar: string,
    createdAt: string, updatedAt: string)

  /** A message as the page loads it. */
  datatype ExportMessage = ExportMessage(id: int, sender: string, content: string, createdAt: string)

  datatype Format = Pdf | Json | Txt

  const You := "أنت"
  const UserSender := "user"

  /** The name a message is shown under: `أنت` for the user's messages,
      the character's name for every other sender. */
  function SenderLabel(conv: ExportConv, sender: string): (r: string)
    ensures sender == UserSender ==> r == You
    ensures sender != UserSender ==> r == conv.characterName
  {
    if sender == UserSender then You else conv.characterName
  }

  /** The HTML class of a message box, decided by the same test. */
  function MessageClass(sender: string): (r: string)
    ensures r == "user" <==> sender == UserSender
    ensures r == "character" <==> sender != UserSender
  {
    assert "user"[0] != "character"[0];
    if sender == UserSender then "user" else "character"
  }

  /** The label and the class agree: a box is styled as the user's exactly
      when it is labelled `أنت` (for a character not itself named so). */
  lemma LabelMatchesClass(conv: ExportConv, sender: string)
    requires conv.characterName != You
    ensures MessageClass(sender) == "user" <==> SenderLabel(conv, sender) == You
  {
  }

  /** `c.repeat(n)`. */
  function Repeat(c: char, n: nat): (r: string)
    ensures |r| == n && forall i :: 0 <= i < n ==> r[i] == c
  {
    if n == 0 then [] else [c] + Repeat(c, n - 1)
  }

  const RuleWidth := 50

  function TitleLine(conv: ExportConv): string { "محادثة: " + conv.title }
  function WithLine(conv: ExportConv): string { "مع: " + conv.characterName }
  function ExportedLine(exportedAt: string): string { "تم التصدير في: " + exportedAt }

  /** The text file's head: title, character and export time on three
      lines, then a rule of fifty `=` and an empty line. */
  function TxtHeader(conv: ExportConv, exportedAt: string): string {
    TitleLine(conv) + "\n" + WithLine(conv) + "\n" + ExportedLine(exportedAt) + "\n"
      + Repeat('=', RuleWidth) + "\n\n"
  }

  /** One message of the text file: `[time] sender:`, the content, and an
      empty line. */
  function TxtBlock(conv: ExportConv, m: ExportMessage, stamp: string -> string): string {
    "[" + stamp(m.createdAt) + "] " + SenderLabel(conv, m.sender) + ":\n" + m.content + "\n\n"
  }

  /** The messages' blocks in input order. */
  function TxtBody(conv: ExportConv, ms: seq<ExportMessage>, stamp: string -> string): (r: string)
    ensures ms == [] ==> r == ""
  {
    if ms == [] then "" else TxtBlock(conv, ms[0], stamp) + TxtBody(conv, ms[1..], stamp)
  }

  /** `exportToTXT`: the head followed by the messages. */
  function ExportTxt(conv: ExportConv, ms: seq<ExportMessage>, exportedAt: string, stamp: string -> string): (r: string)
    ensures TxtHeader(conv, exportedAt) <= r
    ensures |r| == |TxtHeader(conv, exportedAt)| + |TxtBody(conv, ms, stamp)|
  {
    TxtHeader(conv, exportedAt) + TxtBody(conv, ms, stamp)
  }

  /** Each message contributes its own block, in order: the body of two
      lists is the body of the first followed by that of the second. */
  lemma {:induction false} TxtBodyAppend(conv: ExportConv, a: seq<ExportMessage>, b: seq<ExportMessage>, stamp: string -> string)
    ensures TxtBody(conv, a + b, stamp) == TxtBody(conv, a, stamp) + TxtBody(conv, b, stamp)
    decreases |a|
  {
    if a == [] {
      assert a + b == b;
    } else {
      assert (a + b)[1..] == a[1..] + b;
      TxtBodyAppend(conv, a[1..], b, stamp);
    }
  }

  /** Appending a message to the conversation appends its block to the
      file. */
  lemma ExportTxtAppend(conv: ExportConv, ms: seq<ExportMessage>, m: ExportMessage, exportedAt: string, stamp: string -> string)
    ensures ExportTxt(conv, ms + [m], exportedAt, stamp) == ExportTxt(conv, ms, exportedAt, stamp) + TxtBlock(conv, m, stamp)
  {
    TxtBodyAppend(conv, ms, [m], stamp);
    assert TxtBody(conv, [m], stamp) == TxtBlock(conv, m, stamp);
  }

  /** Four lines and two empty ones joined by line breaks. */
  lemma JoinHeader(a: string, b: string, c: string, d: string)
    ensures Join([a, b, c, d, "", ""], "\n") == a + "\n" + b + "\n" + c + "\n" + d + "\n\n"
  {
    var lines := [a, b, c, d, "", ""];
    var nl := "\n";
    assert Join(lines[4..], nl) == nl;
    assert Join(lines[3..], nl) == d + nl + nl;
    assert Join(lines[2..], nl) == c + nl + d + nl + nl;
    assert Join(lines[1..], nl) == b + nl + c + nl + d + nl + nl;
  }

  /** Read back line by line, the head is the three header lines, the rule
      and two empty pieces, provided the title, name and time have no line
      break. */
  lemma TxtHeaderLines(conv: ExportConv, exportedAt: string)
    requires '\n' !in conv.title && '\n' !in conv.characterName && '\n' !in exportedAt
    ensures Split(TxtHeader(conv, exportedAt), '\n')
         == [TitleLine(conv), WithLine(conv), ExportedLine(exportedAt), Repeat('=', RuleWidth), "", ""]
  {
    JoinHeader(TitleLine(conv), WithLine(conv), ExportedLine(exportedAt), Repeat('=', RuleWidth));
    assert "\n" == ['\n'];
    assert '\n' !in "محادثة: " && '\n' !in "مع: " && '\n' !in "تم التصدير في: ";
    SplitJoin([TitleLine(conv), WithLine(conv), ExportedLine(exportedAt), Repeat('=', RuleWidth), "", ""], '\n');
  }

  /** Read back line by line, a message block is its first line, its
      content and two empty pieces, provided neither the content, the label
      nor the time has a line break. */
  lemma TxtBlockLines(conv: ExportConv, m: ExportMessage, stamp: string -> string)
    requires '\n' !in m.content && '\n' !in stamp(m.createdAt) && '\n' !in SenderLabel(conv, m.sender)
    ensures Split(TxtBlock(conv, m, stamp), '\n')
         == ["[" + stamp(m.createdAt) + "] " + SenderLabel(conv, m.sender) + ":", m.content, "", ""]
  {
    var first := "[" + stamp(m.createdAt) + "] " + SenderLabel(conv, m.sender) + ":";
    var lines := [first, m.content, "", ""];
    var nl := "\n";
    assert nl == ['\n'];
    assert Join(lines[3..], nl) == "";
    assert Join(lines[2..], nl) == nl;
    assert Join(lines[1..], nl) == m.content + nl + nl;
    assert Join(lines, nl) == TxtBlock(conv, m, stamp);
    assert '\n' !in first;
    SplitJoin(lines, '\n');
  }

  /** The conversation part of the JSON document (the avatar is dropped). */
  datatype JsonConversation = JsonConversation(
    id: int, title: string, characterName: string, createdAt: string, updatedAt: string)

  /** `exportToJSON`'s document. */
  datatype JsonExport = JsonExport(conversation: JsonConversation, messages: seq<ExportMessage>, exportedAt: string)

  function ExportJson(conv: ExportConv, ms: seq<ExportMessage>, exportedAt: string): (r: JsonExport)
    ensures r.messages == ms && r.exportedAt == exportedAt
    ensures r.conversation.id == conv.id && r.conversation.title == conv.title
    ensures r.conversation.characterName == conv.characterName
    ensures r.conversation.createdAt == conv.createdAt && r.conversation.updatedAt == conv.updatedAt
  {
    JsonExport(JsonConversation(conv.id, conv.title, conv.characterName, conv.createdAt, conv.updatedAt), ms, exportedAt)
  }

  /** One message box of the HTML export. */
  datatype HtmlMessage = HtmlMessage(cssClass: string, sender: string, content: string, time: string)

  /** The HTML export's title, subtitle and message boxes. */
  datatype HtmlExport = HtmlExport(title: string, with: string, messages: seq<HtmlMessage>)

  function HtmlBox(conv: ExportConv, m: ExportMessage, stamp: string -> string): HtmlMessage {
    HtmlMessage(MessageClass(m.sender), SenderLabel(conv, m.sender), m.content, stamp(m.createdAt))
  }

  /** `exportToPDF`'s page: one box per message, in order, each styled and
      labelled by the sender test. */
  function ExportHtml(conv: ExportConv, ms: seq<ExportMessage>, stamp: string -> string): (r: HtmlExport)
    ensures |r.messages| == |ms|
    ensures forall i :: 0 <= i < |ms| ==> r.messages[i].content == ms[i].content
    ensures forall i :: 0 <= i < |ms| ==>
      (r.messages[i].cssClass == "user" <==> ms[i].sender == UserSender)
    ensures forall i :: 0 <= i < |ms| ==>
      r.messages[i].sender == (if ms[i].sender == UserSender then You else conv.characterName)
  {
    HtmlExport(conv.title, "مع " + conv.characterName,
      seq(|ms|, i requires 0 <= i < |ms| => HtmlBox(conv, ms[i], stamp)))
  }

  /** What a download holds. */
  datatype Content = TxtFile(text: string) | JsonFile(doc: JsonExport) | HtmlFile(page: HtmlExport)

  /** A download: file name, MIME type and content. */
  datatype Download = Download(fileName: string, mimeType: string, content: Content)

  function ExportHasId(id: int): ExportConv -> bool {
    (c: ExportConv) => c.id == id
  }

  /** `conversations.find(c => c.id === id)`: the first with that id. */
  function FindExport(convs: seq<ExportConv>, id: int): (r: Option<nat>)
    ensures r.Some? ==> r.value < |convs| && convs[r.value].id == id
    ensures r.Some? ==> forall j :: 0 <= j < r.value ==> convs[j].id != id
    ensures r.None? <==> forall j :: 0 <= j < |convs| ==> convs[j].id != id
  {
    FirstIndex(convs, ExportHasId(id))
  }

  /** The serialiser the format selects; exactly one runs. */
  function Serialise(conv: ExportConv, ms: seq<ExportMessage>, format: Format, exportedAt: string, stamp: string -> string): (r: Download)
    ensures format == Txt <==> r.content.TxtFile?
    ensures format == Json <==> r.content.JsonFile?
    ensures format == Pdf <==> r.content.HtmlFile?
    ensures r.content.TxtFile? ==> r.content.text == ExportTxt(conv, ms, exportedAt, stamp)
    ensures r.content.JsonFile? ==> r.content.doc == ExportJson(conv, ms, exportedAt)
    ensures r.content.HtmlFile? ==> r.content.page == ExportHtml(conv, ms, stamp)
  {
    match format
    case Pdf => Download(conv.title + ".html", "text/html", HtmlFile(ExportHtml(conv, ms, stamp)))
    case Json => Download(conv.title + ".json", "application/json", JsonFile(ExportJson(conv, ms, exportedAt)))
    case Txt => Download(conv.title + ".txt", "text/plain;charset=utf-8", TxtFile(ExportTxt(conv, ms, exportedAt, stamp)))
  }

  /** `handleExport`: nothing without a selected conversation (a null or
      zero id), without messages, or when the id is not listed; otherwise
      the selected format's download of the first listed conversation with
      that id. */
  function HandleExport(
    convs: seq<ExportConv>, selected: Option<int>, ms: seq<ExportMessage>,
    format: Format, exportedAt: string, stamp: string -> string): (r: Option<Download>)
    ensures r.Some? <==> selected.Some? && selected.value != 0 && |ms| > 0
                         && exists j :: 0 <= j < |convs| && convs[j].id == selected.value
    ensures r.Some? ==> var j := FindExport(convs, selected.value).value;
                        r.value == Serialise(convs[j], ms, format, exportedAt, stamp)
  {
    if selected.None? || selected.value == 0 || |ms| == 0 then None
    else match FindExport(convs, selected.value)
      case None => None
      case Some(j) => Some(Serialise(convs[j], ms, format, exportedAt, stamp))
  }
}

=== FILE: http.dfy ===
/** What every API handler shares: the response it sends, the store it
    leaves behind, and how it reads loosely typed request values. */
module Http {
  import opened Common
  import opened Text
  import opened Schema

  const StatusOk := 200
  const StatusCreated := 201
  const StatusBadRequest := 400
  const StatusUnauthorized := 401
  const StatusNotFound := 404
  const StatusServerError := 500

  /** A JSON response: a payload with a success status, or an error message. */
  datatype Response<P> = Ok(status: int, payload: P) | Error(status: int, message: string)

  /** A handler's result: the response and the store after the request. */
  datatype Outcome<P> = Outcome(response: Response<P>, db: Db) {
    predicate Failed(status: int) {
      response.Error? && response.status == status
    }
  }

  /** `parseInt(v)` on a request value: a number is itself, a string is
      parsed, and anything that yields `NaN` (or is missing) is `None`. */
  function ParseField(f: Field): (r: Option<int>)
    ensures f.Num? ==> r == Some(f.n)
    ensures f.Absent? ==> r.None?
    ensures f.Str? ==> r == ParseInt(f.s)
  {
    match f
    case Absent => None
    case Num(n) => Some(n)
    case Str(s) => ParseInt(s)
  }

  /** `n.toString()` for an integer. */
  function IdString(n: int): (r: string)
    ensures n >= 0 ==> r == DecimalString(n)
    ensures n < 0 ==> r == "-" + DecimalString(-n)
  {
    if n >= 0 then DecimalString(n) else "-" + DecimalString(-n)
  }

  /** The text of an id parses back to the id. */
  lemma ParseIdString(n: int)
    ensures ParseInt(IdString(n)) == Some(n)
  {
    if n >= 0 {
      ParseDecimal(n);
    } else {
      var d := DecimalString(-n);
      var s := "-" + d;
      assert LeadingSpaces(s) == 0;
      assert s[0..] == s;
      assert Unsigned(s) == d;
      assert !HasHexPrefix(d) by {
        if |d| >= 2 {
          assert IsDigit(d[1]);
        }
      }
      DigitPrefixAll(d);
      assert d[..|d|] == d;
    }
  }

  /** Different ids have different texts. */
  lemma IdStringInjective(m: int, n: int)
    requires IdString(m) == IdString(n)
    ensures m == n
  {
    ParseIdString(m);
    ParseIdString(n);
  }
}

=== FILE: i18n.dfy ===
/** The translation helper: the current language, its persistence, the
    document direction that follows it, and key lookup with fallback to
    Arabic and then to the key itself. */
module I18n {
  import opened Common

  datatype Language = Ar | En

  /** The language code, as stored and as set on the document. */
  function Code(l: Language): (r: string)
    ensures r == "ar" <==> l == Ar
    ensures r == "en" <==> l == En
  {
    match l
    case Ar => "ar"
    case En => "en"
  }

  /** The language a stored code names, if it is one of the two. */
  function Parse(code: string): (r: Option<Language>)
    ensures r.Some? ==> Code(r.value) == code
    ensures r.None? ==> code != "ar" && code != "en"
  {
    if code == "ar" then Some(Ar) else if code == "en" then Some(En) else None
  }

  lemma ParseCode(l: Language)
    ensures Parse(Code(l)) == Some(l)
  {
  }

  /** The `dir` and `lang` attributes of the document element. */
  datatype Direction = Direction(dir: string, lang: string)

  /** The helper's state: the current language, whether a browser window
      exists, the stored language (`lordai_lang`) and the document's
      attributes. */
  datatype I18nState = I18nState(
    currentLang: Language, hasWindow: bool, saved: Option<string>, document: Direction)

  /** `currentLang` starts as Arabic. */
  const InitialLang := Ar

  /** The attributes `applyDirection` sets for a language. */
  function DirectionFor(l: Language): (r: Direction)
    ensures r.dir == "rtl" <==> l == Ar
    ensures r.dir == "ltr" <==> l == En
    ensures r.lang == Code(l)
  {
    assert "rtl"[0] != "ltr"[0];
    match l
    case Ar => Direction("rtl", "ar")
    case En => Direction("ltr", "en")
  }

  /** `applyDirection()`: in a browser, the document follows the current
      language; without one nothing happens. */
  function ApplyDirection(st: I18nState): (r: I18nState)
    ensures st.hasWindow ==> r.document.dir == (if st.currentLang == Ar then "rtl" else "ltr")
    ensures st.hasWindow ==> r.document.lang == Code(st.currentLang)
    ensures !st.hasWindow ==> r == st
    ensures r.(document := st.document) == st
  {
    if st.hasWindow then st.(document := DirectionFor(st.currentLang)) else st
  }

  /** The document shows the current language's direction. */
  ghost predicate Consistent(st: I18nState) {
    st.hasWindow ==> st.document == DirectionFor(st.currentLang)
  }

  /** `init()`: a stored `ar` or `en` is adopted, anything else leaves the
      language as it is; then the direction is applied. */
  function Init(st: I18nState): (r: I18nState)
    ensures !st.hasWindow ==> r == st
    ensures st.hasWindow && st.saved.Some? && Parse(st.saved.value).Some? ==> r.currentLang == Parse(st.saved.value).value
    ensures st.hasWindow && (st.saved.None? || Parse(st.saved.value).None?) ==> r.currentLang == st.currentLang
    ensures st.hasWindow ==> Consistent(r)
    ensures r.saved == st.saved && r.hasWindow == st.hasWindow
  {
    if !st.hasWindow then st
    else
      var adopted := match st.saved
        case Some(code) => (match Parse(code) case Some(l) => st.(currentLang := l) case None => st)
        case None => st;
      ApplyDirection(adopted)
  }

  /** `setLang(l)`: the language becomes `l`; in a browser it is stored and
      the direction applied. */
  function SetLang(st: I18nState, l: Language): (r: I18nState)
    ensures r.currentLang == l
    ensures st.hasWindow ==> r.saved == Some(Code(l)) && Consistent(r)
    ensures !st.hasWindow ==> r == st.(currentLang := l)
  {
    var changed := st.(currentLang := l);
    if st.hasWindow then ApplyDirection(changed.(saved := Some(Code(l)))) else changed
  }

  /** The chosen language survives a reload: a fresh helper, whatever
      language it starts in, adopts it on `init`. */
  lemma SetLangPersists(st: I18nState, l: Language, start: Language)
    requires st.hasWindow
    ensures Init(SetLang(st, l).(currentLang := start)).currentLang == l
  {
    ParseCode(l);
  }

  /** Both operations leave a browser document consistent. */
  lemma OperationsKeepConsistent(st: I18nState, l: Language)
    ensures Consistent(Init(st))
    ensures Consistent(SetLang(st, l))
  {
  }

  /** A translation table: key to text. */
  type Table = map<string, string>

  /** The Arabic and English tables. */
  datatype Tables = Tables(ar: Table, en: Table)

  function TableOf(ts: Tables, l: Language): Table {
    if l == Ar then ts.ar else ts.en
  }

  /** The entry for `key` when it is present and non-empty (a truthy
      string). */
  function Entry(t: Table, key: string): Option<string> {
    if key in t && t[key] != "" then Some(t[key]) else None
  }

  /** `t(key)`: the current language's entry, else the Arabic one, else
      the key itself. */
  function Translate(ts: Tables, l: Language, key: string): (r: string)
    ensures Entry(TableOf(ts, l), key).Some? ==> r == TableOf(ts, l)[key]
    ensures Entry(TableOf(ts, l), key).None? && Entry(ts.ar, key).Some? ==> r == ts.ar[key]
    ensures Entry(TableOf(ts, l), key).None? && Entry(ts.ar, key).None? ==> r == key
  {
    match Entry(TableOf(ts, l), key)
    case Some(s) => s
    case None =>
      match Entry(ts.ar, key)
      case Some(s) => s
      case None => key
  }

  /** A non-empty key never translates to the empty string. */
  lemma TranslateNonEmpty(ts: Tables, l: Language, key: string)
    requires key != ""
    ensures Translate(ts, l, key) != ""
  {
  }

  /** A key missing from the English table reads as in Arabic. */
  lemma MissingEnglishFallsBack(ts: Tables, key: string)
    requires key !in ts.en
    ensures Translate(ts, En, key) == Translate(ts, Ar, key)
  {
  }

  /** In Arabic, the English table plays no part. */
  lemma ArabicIgnoresEnglish(ts: Tables, en: Table, key: string)
    ensures Translate(ts, Ar, key) == Translate(ts.(en := en), Ar, key)
  {
  }
}

=== FILE: image_upload.dfy ===
/** The image picker: a bounded selection of image files with one preview
    per file, removal by position, and an upload that hands every preview
    to the caller and clears the picker. */
module ImageUpload {
  import opened Text
  import opened Seqs

  /** A picked file: name, MIME type and size in bytes. */
  datatype ImageFile = ImageFile(name: string, mimeType: string, size: int)

  /** The picker: its capacity, the selected files and their previews (data
      URLs). */
  datatype Picker = Picker(maxImages: nat, selected: seq<ImageFile>, previews: seq<string>)

  /** `maxImages` when the caller gives none. */
  const DefaultMaxImages := 5

  /** The largest accepted image: 5 MB. */
  const MaxImageBytes := 5 * 1024 * 1024

  /** An empty picker. */
  function NewPicker(maxImages: nat): (r: Picker)
    ensures r.selected == [] && r.previews == [] && r.maxImages == maxImages
  {
    Picker(maxImages, [], [])
  }

  /** A file is kept when its type is an image type and it is at most
      5 MB. */
  predicate ValidImage(f: ImageFile) {
    StartsWith(f.mimeType, "image/") && f.size <= MaxImageBytes
  }

  function ValidImageTest(): ImageFile -> bool {
    (f: ImageFile) => ValidImage(f)
  }

  /** The selection has room and a preview per file. */
  predicate Good(p: Picker) {
    |p.selected| <= p.maxImages && |p.previews| == |p.selected|
  }

  /** `handleFileSelect`: a batch that, counted with its invalid files,
      would overfill the picker is refused whole; otherwise the valid files
      are appended in order, each with its preview (`read` stands for the
      file reader's data URL). */
  function SelectFiles(p: Picker, files: seq<ImageFile>, read: ImageFile -> string): (r: Picker)
    ensures |p.selected| + |files| > p.maxImages ==> r == p
    ensures |p.selected| + |files| <= p.maxImages ==>
      && r.selected == p.selected + Filter(files, ValidImageTest())
      && r.previews == p.previews + seq(|Filter(files, ValidImageTest())|,
           i requires 0 <= i < |Filter(files, ValidImageTest())| => read(Filter(files, ValidImageTest())[i]))
    ensures r.maxImages == p.maxImages
    ensures forall f :: f in r.selected ==> f in p.selected || (f in files && ValidImage(f))
  {
    if |p.selected| + |files| > p.maxImages then p
    else
      var valid := Filter(files, ValidImageTest());
      Picker(p.maxImages, p.selected + valid,
        p.previews + seq(|valid|, i requires 0 <= i < |valid| => read(valid[i])))
  }

  /** Selecting never overfills the picker and keeps one preview per
      file. */
  lemma SelectKeepsGood(p: Picker, files: seq<ImageFile>, read: ImageFile -> string)
    requires Good(p)
    ensures Good(SelectFiles(p, files, read))
  {
  }

  /** Every file added by a selection is a valid image, and every valid
      file of an accepted batch is added. */
  lemma SelectAddsExactlyValid(p: Picker, files: seq<ImageFile>, read: ImageFile -> string, f: ImageFile)
    requires |p.selected| + |files| <= p.maxImages
    requires f !in p.selected
    ensures f in SelectFiles(p, files, read).selected <==> f in files && ValidImage(f)
  {
  }

  /** `s.filter((_, i) => i !== index)`: removes the element at `index`,
      when there is one. */
  function RemoveAt<T>(s: seq<T>, index: int): (r: seq<T>)
    ensures 0 <= index < |s| ==> |r| == |s| - 1
    ensures 0 <= index < |s| ==> forall j :: 0 <= j < |r| ==> r[j] == s[if j < index then j else j + 1]
    ensures !(0 <= index < |s|) ==> r == s
  {
    if 0 <= index < |s| then s[..index] + s[index + 1..] else s
  }

  /** `handleRemoveImage(index)`: the same position leaves both lists. */
  function RemoveImage(p: Picker, index: int): (r: Picker)
    ensures r.selected == RemoveAt(p.selected, index) && r.previews == RemoveAt(p.previews, index)
    ensures r.maxImages == p.maxImages
  {
    p.(selected := RemoveAt(p.selected, index), previews := RemoveAt(p.previews, index))
  }

  /** Each selected file with its preview. */
  function Pairs(p: Picker): (r: seq<(ImageFile, string)>)
    requires |p.previews| == |p.selected|
    ensures |r| == |p.selected|
    ensures forall j :: 0 <= j < |r| ==> r[j] == (p.selected[j], p.previews[j])
  {
    seq(|p.selected|, j requires 0 <= j < |p.selected| => (p.selected[j], p.previews[j]))
  }

  /** Removing from both lists is removing one pair: every remaining file
      keeps its own preview. */
  lemma RemoveKeepsPairs(p: Picker, index: int)
    requires Good(p)
    ensures Good(RemoveImage(p, index))
    ensures Pairs(RemoveImage(p, index)) == RemoveAt(Pairs(p), index)
  {
    var r := RemoveImage(p, index);
    assert |Pairs(r)| == |RemoveAt(Pairs(p), index)|;
    forall j | 0 <= j < |Pairs(r)| ensures Pairs(r)[j] == RemoveAt(Pairs(p), index)[j] {
      if 0 <= index < |p.selected| {
        var k := if j < index then j else j + 1;
        assert r.selected[j] == p.selected[k] && r.previews[j] == p.previews[k];
      }
    }
  }

  /** `handleUpload`: nothing when no file is selected; otherwise every
      preview is handed over, in order, and the picker is emptied. The
      second component is the sequence of callback arguments. */
  function Upload(p: Picker): (r: (Picker, seq<string>))
    ensures |p.selected| == 0 ==> r == (p, [])
    ensures |p.selected| > 0 ==> r.0 == NewPicker(p.maxImages) && r.1 == p.previews
  {
    if |p.selected| == 0 then (p, []) else (NewPicker(p.maxImages), p.previews)
  }

  /** After an upload the picker is empty and good, and uploading again
      hands over nothing. */
  lemma UploadTwice(p: Picker)
    requires |p.selected| > 0
    ensures Good(Upload(p).0) && Upload(Upload(p).0).1 == []
  {
  }
}

=== FILE: memory_api.dfy ===
/** The memory handlers (`GET` and `POST /api/memory`): memories are
    reached through the character they belong to, and a caller sees and
    adds memories only for characters they created. */
module MemoryApi {
  import opened Common
  import opened Seqs
  import opened Schema
  import opened Http

  const Unauthorized := "Unauthorized"
  const MissingFields := "Missing required fields"
  const CharacterNotFound := "Character not found"
  const DefaultPriority := "medium"

  /** A row of the memory listing: the memory with its character's name. */
  datatype MemoryView = MemoryView(
    id: int, characterId: int, characterName: string, content: string, priority: string, createdAt: int)

  function ViewOf(m: Memory, c: Character): MemoryView {
    MemoryView(m.id, m.characterId, c.name, m.content, m.priority, m.createdAt)
  }

  /** `m` joined with `c` passes the listing's join and filter. */
  predicate Joins(m: Memory, c: Character, caller: int) {
    m.characterId == c.id && c.creatorId == caller
  }

  /** The join rows of one memory. */
  function JoinOne(m: Memory, cs: seq<Character>, caller: int): (r: seq<MemoryView>)
    ensures forall v :: v in r <==> exists c :: c in cs && Joins(m, c, caller) && v == ViewOf(m, c)
  {
    if cs == [] then []
    else
      var rest := JoinOne(m, cs[1..], caller);
      assert forall c :: c in cs <==> c == cs[0] || c in cs[1..];
      (if Joins(m, cs[0], caller) then [ViewOf(m, cs[0])] else []) + rest
  }

  /** `memories inner join characters on characterId = id where creatorId = caller`. */
  function Join(ms: seq<Memory>, cs: seq<Character>, caller: int): (r: seq<MemoryView>)
    ensures forall v :: v in r <==> exists m, c :: m in ms && c in cs && Joins(m, c, caller) && v == ViewOf(m, c)
  {
    if ms == [] then []
    else
      var rest := Join(ms[1..], cs, caller);
      assert forall m :: m in ms <==> m == ms[0] || m in ms[1..];
      JoinOne(ms[0], cs, caller) + rest
  }

  function ViewCreatedAt(v: MemoryView): int { v.createdAt }

  /** `GET`: the caller's memories, oldest first, each with its character's
      name. Without a token it is a 401. Nothing is written. */
  function ListMemories(db: Db, caller: Option<int>): (r: Outcome<seq<MemoryView>>)
    ensures r.db == db
    ensures caller.None? <==> r.response.Error?
    ensures r.response.Error? ==> r.response == Error(StatusUnauthorized, Unauthorized)
    ensures r.response.Ok? ==>
      && r.response.status == StatusOk
      && (forall v :: v in r.response.payload <==>
            exists m, c :: m in db.memories && c in db.characters && Joins(m, c, caller.value) && v == ViewOf(m, c))
      && forall i, j :: 0 <= i < j < |r.response.payload| ==>
           r.response.payload[i].createdAt <= r.response.payload[j].createdAt
  {
    if caller.None? then Outcome(Error(StatusUnauthorized, Unauthorized), db)
    else
      var rows := Join(db.memories, db.characters, caller.value);
      var sorted := SortAscBy(rows, ViewCreatedAt);
      assert forall v :: v in sorted <==> v in multiset(sorted);
      assert forall v :: v in rows <==> v in multiset(rows);
      Outcome(Ok(StatusOk, sorted), db)
  }

  /** A `POST` body. */
  datatype MemoryRequest = MemoryRequest(characterId: Option<int>, content: Option<string>, priority: Option<string>)

  predicate MissingCharacter(req: MemoryRequest) {
    req.characterId.None? || req.characterId == Some(0)
  }

  /** The caller created a character with this id. */
  predicate OwnsCharacter(db: Db, caller: int, characterId: int) {
    exists c :: c in db.characters && c.id == characterId && c.creatorId == caller
  }

  /** `POST`: adds a memory to one of the caller's characters. Checks, in
      order: a token (401), a truthy `characterId` and `content` (400), a
      character with that id created by the caller (404). The priority
      defaults to `medium`. Identical requests add identical memories
      under different ids. */
  function CreateMemory(db: Db, caller: Option<int>, req: MemoryRequest, now: int): (r: Outcome<Memory>)
    ensures r.Failed(StatusUnauthorized) <==> caller.None?
    ensures r.Failed(StatusBadRequest) <==> caller.Some? && (MissingCharacter(req) || FalsyText(req.content))
    ensures r.Failed(StatusNotFound) <==>
      caller.Some? && !MissingCharacter(req) && !FalsyText(req.content)
      && !OwnsCharacter(db, caller.value, req.characterId.value)
    ensures r.Failed(StatusNotFound) ==> r.response.message == CharacterNotFound
    ensures r.response.Ok? <==>
      caller.Some? && !MissingCharacter(req) && !FalsyText(req.content)
      && OwnsCharacter(db, caller.value, req.characterId.value)
    ensures r.response.Error? ==> r.db == db
    ensures r.response.Ok? ==>
      var m := r.response.payload;
      && r.response.status == StatusCreated
      && m == Memory(db.nextId, req.characterId.value, req.content.value, OrElse(req.priority, DefaultPriority), now)
      && r.db == db.(memories := db.memories + [m], nextId := db.nextId + 1)
  {
    if caller.None? then Outcome(Error(StatusUnauthorized, Unauthorized), db)
    else if MissingCharacter(req) || FalsyText(req.content) then Outcome(Error(StatusBadRequest, MissingFields), db)
    else if !OwnsCharacter(db, caller.value, req.characterId.value) then
      Outcome(Error(StatusNotFound, CharacterNotFound), db)
    else
      var m := Memory(db.nextId, req.characterId.value, req.content.value, OrElse(req.priority, DefaultPriority), now);
      Outcome(Ok(StatusCreated, m), db.(memories := db.memories + [m], nextId := db.nextId + 1))
  }

  /** A memory just added shows up in the caller's listing. */
  lemma CreatedMemoryIsListed(db: Db, caller: int, req: MemoryRequest, now: int)
    requires CreateMemory(db, Some(caller), req, now).response.Ok?
    ensures var r := CreateMemory(db, Some(caller), req, now);
      exists c :: c in db.characters && c.id == req.characterId.value && c.creatorId == caller
        && ViewOf(r.response.payload, c) in ListMemories(r.db, Some(caller)).response.payload
  {
    var r := CreateMemory(db, Some(caller), req, now);
    var m := r.response.payload;
    var c :| c in db.characters && c.id == req.characterId.value && c.creatorId == caller;
    assert m in r.db.memories && c in r.db.characters && Joins(m, c, caller);
  }

  /** No de-duplication: the same request twice stores two memories with
      the same character, content and priority. */
  lemma CreateMemoryTwice(db: Db, caller: int, req: MemoryRequest, now: int, later: int)
    requires CreateMemory(db, Some(caller), req, now).response.Ok?
    ensures var r1 := CreateMemory(db, Some(caller), req, now);
      var r2 := CreateMemory(r1.db, Some(caller), req, later);
      && r2.response.Ok?
      && |r2.db.memories| == |db.memories| + 2
      && r1.response.payload.id != r2.response.payload.id
      && r1.response.payload.(id := 0, createdAt := 0) == r2.response.payload.(id := 0, createdAt := 0)
  {
    var r1 := CreateMemory(db, Some(caller), req, now);
    var c :| c in db.characters && c.id == req.characterId.value && c.creatorId == caller;
    assert c in r1.db.characters;
  }

  /** A successful `POST` keeps the store valid and every memory attached
      to an existing character. */
  lemma CreateMemoryKeepsInvariants(db: Db, caller: Option<int>, req: MemoryRequest, now: int)
    requires Valid(db) && RefIntegrity(db)
    ensures Valid(CreateMemory(db, caller, req, now).db)
    ensures RefIntegrity(CreateMemory(db, caller, req, now).db)
  {
    var r := CreateMemory(db, caller, req, now);
    if r.response.Ok? {
      var m := r.response.payload;
      var c :| c in db.characters && c.id == req.characterId.value && c.creatorId == caller.value;
      KeyedAppend(db.memories, [m], MemoryId, db.nextId, db.nextId + 1);
      KeyedAppend(db.messages, [], MessageId, db.nextId, db.nextId + 1);
      KeyedAppend(db.branches, [], BranchId, db.nextId, db.nextId + 1);
      KeyedAppend(db.conversations, [], ConversationId, db.nextId, db.nextId + 1);
      KeyedAppend(db.characters, [], CharacterId, db.nextId, db.nextId + 1);
      assert db.messages + [] == db.messages;
      assert db.branches + [] == db.branches;
      assert db.conversations + [] == db.conversations;
      assert db.characters + [] == db.characters;
      assert UserIds(r.db) == UserIds(db) && CharacterIds(r.db) == CharacterIds(db);
      assert ConversationIds(r.db) == ConversationIds(db);
    }
  }
}

=== FILE: memory_page.dfy ===
/** The memory management page: the add form and its reset, the edit
    request, and the priority label and colour shown for each memory. */
module MemoryPage {
  import opened Common
  import opened Schema
  import opened Http
  import opened MemoryApi

  /** The add form. */
  datatype MemoryForm = MemoryForm(characterId: int, content: string, priority: string)

  /** The form as the page opens it and as it is reset after an add. */
  const InitialMemoryForm := MemoryForm(0, "", "medium")

  /** The body the form is posted as: every field sent as it is. */
  function AddRequest(f: MemoryForm): (r: MemoryRequest)
    ensures r.characterId == Some(f.characterId) && r.content == Some(f.content)
    ensures r.priority == Some(f.priority)
  {
    MemoryRequest(Some(f.characterId), Some(f.content), Some(f.priority))
  }

  /** `handleAddMemory` against the memory endpoint: a successful add
      resets the form, a refused one leaves it as it was. */
  function AddMemory(db: Db, caller: Option<int>, f: MemoryForm, now: int): (r: (Outcome<Memory>, MemoryForm))
    ensures r.0 == CreateMemory(db, caller, AddRequest(f), now)
    ensures r.0.response.Ok? ==> r.1 == InitialMemoryForm
    ensures r.0.response.Error? ==> r.1 == f
  {
    var out := CreateMemory(db, caller, AddRequest(f), now);
    (out, if out.response.Ok? then InitialMemoryForm else f)
  }

  /** The untouched form is refused (no character chosen, no content) and
      nothing is stored. */
  lemma InitialFormRefused(db: Db, caller: int, now: int)
    ensures CreateMemory(db, Some(caller), AddRequest(InitialMemoryForm), now).Failed(StatusBadRequest)
    ensures CreateMemory(db, Some(caller), AddRequest(InitialMemoryForm), now).db == db
  {
  }

  /** Submitting the form again right after a successful add is refused:
      the reset form names no character. */
  lemma ResubmitAfterAddRefused(db: Db, caller: int, f: MemoryForm, now: int, later: int)
    requires AddMemory(db, Some(caller), f, now).0.response.Ok?
    ensures var (out, form) := AddMemory(db, Some(caller), f, now);
      AddMemory(out.db, Some(caller), form, later).0.Failed(StatusBadRequest)
  {
    InitialFormRefused(AddMemory(db, Some(caller), f, now).0.db, caller, later);
  }

  /** A memory as the page shows it. */
  datatype MemoryItem = MemoryItem(
    id: int, characterId: int, characterName: string, content: string, priority: string, createdAt: string)

  /** The `PUT` body of an edit: the content and the priority only. */
  datatype EditRequest = EditRequest(content: string, priority: string)

  function EditBody(m: MemoryItem): (r: EditRequest)
    ensures r.content == m.content && r.priority == m.priority
  {
    EditRequest(m.content, m.priority)
  }

  /** Nothing but the content and the priority reaches the edit request. */
  lemma EditBodyIgnoresRest(m: MemoryItem, id: int, characterId: int, characterName: string, createdAt: string)
    ensures EditBody(m) == EditBody(m.(id := id, characterId := characterId, characterName := characterName, createdAt := createdAt))
  {
  }

  /** The three known priorities. */
  predicate KnownPriority(p: string) {
    p == "high" || p == "medium" || p == "low"
  }

  const HighLabel := "عالية"
  const MediumLabel := "متوسطة"
  const LowLabel := "منخفضة"

  /** `getPriorityLabel`: the Arabic word for a known priority, any other
      text unchanged. */
  function PriorityLabel(p: string): (r: string)
    ensures p == "high" ==> r == HighLabel
    ensures p == "medium" ==> r == MediumLabel
    ensures p == "low" ==> r == LowLabel
    ensures !KnownPriority(p) ==> r == p
  {
    if p == "high" then HighLabel
    else if p == "medium" then MediumLabel
    else if p == "low" then LowLabel
    else p
  }

  const HighColor := "bg-red-500/20 text-red-200 border-red-500"
  const MediumColor := "bg-yellow-500/20 text-yellow-200 border-yellow-500"
  const LowColor := "bg-green-500/20 text-green-200 border-green-500"
  const OtherColor := "bg-gray-500/20 text-gray-200 border-gray-500"

  /** `getPriorityColor`: red, yellow and green for the known priorities,
      gray for anything else. */
  function PriorityColor(p: string): (r: string)
    ensures p == "high" ==> r == HighColor
    ensures p == "medium" ==> r == MediumColor
    ensures p == "low" ==> r == LowColor
    ensures !KnownPriority(p) ==> r == OtherColor
  {
    if p == "high" then HighColor
    else if p == "medium" then MediumColor
    else if p == "low" then LowColor
    else OtherColor
  }

  /** The two maps agree on what they recognise: a priority is shown in
      gray exactly when its label is the text itself. */
  lemma GrayIffUntranslated(p: string)
    ensures PriorityColor(p) == OtherColor <==> PriorityLabel(p) == p
  {
    assert |HighColor| == 41 && |MediumColor| == 50 && |LowColor| == 47 && |OtherColor| == 44;
    assert HighLabel[0] != 'h' && MediumLabel[0] != 'm' && LowLabel[0] != 'l';
  }

  /** Distinct known priorities get distinct labels and distinct colours. */
  lemma KnownPrioritiesDistinct(p: string, q: string)
    requires KnownPriority(p) && KnownPriority(q) && p != q
    ensures PriorityLabel(p) != PriorityLabel(q)
    ensures PriorityColor(p) != PriorityColor(q)
  {
    assert HighLabel[1] != MediumLabel[1] && MediumLabel[1] != LowLabel[1] && HighLabel[1] != LowLabel[1];
    assert |HighColor| == 41 && |MediumColor| == 50 && |LowColor| == 47;
  }
}

=== FILE: merge.dfy ===
/** The branch merge handler (`POST /api/chat/branches/merge`). */
module Merge {
  import opened Common
  import opened Seqs
  import opened Schema
  import opened Http
  import opened Timeline

  const BranchIdsRequired := "Source and target branch IDs are required"
  const SourceNotFound := "Source branch not found"
  const TargetNotFound := "Target branch not found"

  datatype MergeRequest = MergeRequest(sourceBranchId: Field, targetBranchId: Field)

  /** The first branch whose id is `id`; a `NaN` id finds nothing. */
  function FindBranch(bs: seq<Branch>, id: Option<int>): (r: Option<Branch>)
    ensures r.Some? ==> r.value in bs && id == Some(r.value.id)
    ensures r.None? <==> forall b :: b in bs ==> id != Some(b.id)
    ensures r.Some? ==> exists i :: 0 <= i < |bs| && bs[i] == r.value && forall j :: 0 <= j < i ==> id != Some(bs[j].id)
  {
    if bs == [] then None
    else if id == Some(bs[0].id) then Some(bs[0])
    else
      var r := FindBranch(bs[1..], id);
      assert r.Some? ==> exists i :: 0 <= i < |bs| && bs[i] == r.value && forall j :: 0 <= j < i ==> id != Some(bs[j].id) by {
        if r.Some? {
          var i :| 0 <= i < |bs[1..]| && bs[1..][i] == r.value && forall j :: 0 <= j < i ==> id != Some(bs[1..][j].id);
          assert bs[i + 1] == r.value;
        }
      }
      r
  }

  /** The copies a merge inserts: the source's messages in `createdAt`
      order, moved to the target's conversation and branch. */
  function MergeCopies(db: Db, source: Branch, target: Branch, now: int): (r: seq<Message>)
    ensures |r| == |Filter(db.messages, OnBranch(source.id))|
    ensures Contents(r) == Contents(BranchMessages(db.messages, source.id))
    ensures forall m :: m in r ==>
      m.conversationId == target.conversationId && m.branchId == Some(target.id) && m.createdAt == now
    ensures forall i :: 0 <= i < |r| ==> r[i].id == db.nextId + i
  {
    var src := BranchMessages(db.messages, source.id);
    assert |src| == |multiset(src)|;
    CopyMessages(src, target.conversationId, target.id, db.nextId, now)
  }

  /** The test `ne(branches.id, id)`: kept by `delete ... where id = id`. */
  function OtherBranch(id: int): Branch -> bool {
    (b: Branch) => b.id != id
  }

  /** The store after merging `source` into `target`: the copies are
      inserted, then every message of the source branch and the source row
      are deleted. */
  function Merged(db: Db, source: Branch, target: Branch, now: int): (r: Db)
    ensures forall m :: m in r.messages ==> m.branchId != Some(source.id)
    ensures forall b :: b in r.branches <==> b in db.branches && b.id != source.id
    ensures r.(messages := db.messages, branches := db.branches, nextId := db.nextId) == db
  {
    var copies := MergeCopies(db, source, target, now);
    db.(messages := Filter(db.messages + copies, OffBranch(source.id)),
        branches := Filter(db.branches, OtherBranch(source.id)),
        nextId := db.nextId + |copies|)
  }

  /** `POST`: both ids are required (400); the source is looked up first
      and reported missing first (404), then the target (404); otherwise
      the source is merged into the target. Failures change nothing. */
  function MergeBranches(db: Db, req: MergeRequest, now: int): (r: Outcome<bool>)
    ensures r.Failed(StatusBadRequest) <==> Falsy(req.sourceBranchId) || Falsy(req.targetBranchId)
    ensures r.response.Error? ==> r.db == db
    ensures r.response == Error(StatusNotFound, SourceNotFound) <==>
      && !Falsy(req.sourceBranchId) && !Falsy(req.targetBranchId)
      && forall b :: b in db.branches ==> ParseField(req.sourceBranchId) != Some(b.id)
    ensures r.response == Error(StatusNotFound, TargetNotFound) <==>
      && !Falsy(req.sourceBranchId) && !Falsy(req.targetBranchId)
      && FindBranch(db.branches, ParseField(req.sourceBranchId)).Some?
      && forall b :: b in db.branches ==> ParseField(req.targetBranchId) != Some(b.id)
    ensures r.response.Ok? <==>
      && !Falsy(req.sourceBranchId) && !Falsy(req.targetBranchId)
      && FindBranch(db.branches, ParseField(req.sourceBranchId)).Some?
      && FindBranch(db.branches, ParseField(req.targetBranchId)).Some?
    ensures r.response.Ok? ==>
      && r.response == Ok(StatusOk, true)
      && var source := FindBranch(db.branches, ParseField(req.sourceBranchId));
         var target := FindBranch(db.branches, ParseField(req.targetBranchId));
         source.Some? && target.Some? && r.db == Merged(db, source.value, target.value, now)
  {
    if Falsy(req.sourceBranchId) || Falsy(req.targetBranchId) then
      Outcome(Error(StatusBadRequest, BranchIdsRequired), db)
    else match FindBranch(db.branches, ParseField(req.sourceBranchId))
      case None => Outcome(Error(StatusNotFound, SourceNotFound), db)
      case Some(source) =>
        match FindBranch(db.branches, ParseField(req.targetBranchId))
        case None => Outcome(Error(StatusNotFound, TargetNotFound), db)
        case Some(target) => Outcome(Ok(StatusOk, true), Merged(db, source, target, now))
  }

  /** Merging two different branches: the messages afterwards are the old
      ones without the source's, followed by the copies. */
  lemma MergedMessages(db: Db, source: Branch, target: Branch, now: int)
    requires source.id != target.id
    ensures Merged(db, source, target, now).messages
         == Filter(db.messages, OffBranch(source.id)) + MergeCopies(db, source, target, now)
  {
    var copies := MergeCopies(db, source, target, now);
    FilterAppend(db.messages, copies, OffBranch(source.id));
    FilterAll(copies, OffBranch(source.id));
  }

  /** The target keeps its messages, in order, and gains exactly the
      source's messages after them. */
  lemma MergeTargetGrows(db: Db, source: Branch, target: Branch, now: int)
    requires source.id != target.id
    ensures var r := Merged(db, source, target, now);
      && Filter(r.messages, OnBranch(target.id))
         == Filter(db.messages, OnBranch(target.id)) + MergeCopies(db, source, target, now)
      && |Filter(r.messages, OnBranch(target.id))|
         == |Filter(db.messages, OnBranch(target.id))| + |Filter(db.messages, OnBranch(source.id))|
  {
    var copies := MergeCopies(db, source, target, now);
    var all := db.messages + copies;
    FilterFilter(all, OffBranch(source.id), OnBranch(target.id), OnBranch(target.id));
    FilterAppend(db.messages, copies, OnBranch(target.id));
    FilterAll(copies, OnBranch(target.id));
  }

  /** Branches other than the source and the target keep exactly their
      messages. */
  lemma MergeLeavesOtherBranches(db: Db, source: Branch, target: Branch, now: int, other: int)
    requires other != source.id && other != target.id
    ensures Filter(Merged(db, source, target, now).messages, OnBranch(other)) == Filter(db.messages, OnBranch(other))
  {
    var copies := MergeCopies(db, source, target, now);
    var all := db.messages + copies;
    FilterFilter(all, OffBranch(source.id), OnBranch(other), OnBranch(other));
    FilterAppend(db.messages, copies, OnBranch(other));
    FilterNone(copies, OnBranch(other));
  }

  /** Merging a branch into itself deletes the fresh copies along with the
      originals: the branch and all its messages are gone. */
  lemma MergeIntoItself(db: Db, b: Branch, now: int)
    ensures Merged(db, b, b, now).messages == Filter(db.messages, OffBranch(b.id))
    ensures Filter(Merged(db, b, b, now).messages, OnBranch(b.id)) == []
  {
    var copies := MergeCopies(db, b, b, now);
    FilterAppend(db.messages, copies, OffBranch(b.id));
    FilterNone(copies, OffBranch(b.id));
    FilterNone(Merged(db, b, b, now).messages, OnBranch(b.id));
  }

  /** The messages a merge leaves are keyed below the new counter and
      name only branches below it. */
  lemma MergedMessagesKeyed(db: Db, source: Branch, target: Branch, now: int)
    requires Valid(db)
    requires target in db.branches
    ensures var r := Merged(db, source, target, now);
      && KeyedBelow(r.messages, MessageId, r.nextId)
      && forall m :: m in r.messages && m.branchId.Some? ==> m.branchId.value < r.nextId
  {
    var copies := MergeCopies(db, source, target, now);
    AppendThenDeleteKeyed(db.messages, copies, OffBranch(source.id), db.nextId);
  }

  /** A merge keeps primary keys unique and below the fresh-id counter. */
  lemma MergeKeepsValid(db: Db, source: Branch, target: Branch, now: int)
    requires Valid(db)
    requires target in db.branches
    ensures Valid(Merged(db, source, target, now))
  {
    var r := Merged(db, source, target, now);
    var n := r.nextId;
    MergedMessagesKeyed(db, source, target, now);
    KeyedFilter(db.branches, OtherBranch(source.id), BranchId, db.nextId);
    KeyedAppend(r.branches, [], BranchId, db.nextId, n);
    KeyedAppend(db.memories, [], MemoryId, db.nextId, n);
    KeyedAppend(db.conversations, [], ConversationId, db.nextId, n);
    KeyedAppend(db.characters, [], CharacterId, db.nextId, n);
    assert r.branches + [] == r.branches;
    assert db.memories + [] == db.memories;
    assert db.conversations + [] == db.conversations;
    assert db.characters + [] == db.characters;
  }

  /** A merge into a branch of an existing conversation leaves no dangling
      reference: the copies carry the target's conversation, and every
      other row is an old one. */
  lemma MergeKeepsIntegrity(db: Db, source: Branch, target: Branch, now: int)
    requires RefIntegrity(db)
    requires target.conversationId in ConversationIds(db)
    ensures RefIntegrity(Merged(db, source, target, now))
  {
    var r := Merged(db, source, target, now);
    var copies := MergeCopies(db, source, target, now);
    assert ConversationIds(r) == ConversationIds(db);
    assert UserIds(r) == UserIds(db);
    assert CharacterIds(r) == CharacterIds(db);
    forall m | m in r.messages ensures m.conversationId in ConversationIds(r) {
      assert m in db.messages + copies;
    }
  }

  /** The branch `POST` stores any parsed conversation id, so a target
      branch may name a conversation that does not exist; merging a
      non-empty branch into such a target leaves copies whose conversation
      is missing. */
  lemma MergeCanDangle(db: Db, source: Branch, target: Branch, now: int, m: Message)
    requires target.conversationId !in ConversationIds(db)
    requires source.id != target.id
    requires m in db.messages && m.branchId == Some(source.id)
    ensures !RefIntegrity(Merged(db, source, target, now))
  {
    var r := Merged(db, source, target, now);
    var copies := MergeCopies(db, source, target, now);
    assert m in Filter(db.messages, OnBranch(source.id));
    assert |copies| > 0;
    MergedMessages(db, source, target, now);
    assert copies[0] in r.messages;
    assert ConversationIds(r) == ConversationIds(db);
  }

  /** `POST`: when every branch belongs to an existing conversation, a
      merge keeps both store invariants. */
  lemma MergeBranchesKeepsInvariants(db: Db, req: MergeRequest, now: int)
    requires Valid(db) && RefIntegrity(db)
    requires forall b :: b in db.branches ==> b.conversationId in ConversationIds(db)
    ensures Valid(MergeBranches(db, req, now).db) && RefIntegrity(MergeBranches(db, req, now).db)
  {
    var r := MergeBranches(db, req, now);
    if r.response.Ok? {
      var source := FindBranch(db.branches, ParseField(req.sourceBranchId)).value;
      var target := FindBranch(db.branches, ParseField(req.targetBranchId)).value;
      MergeKeepsValid(db, source, target, now);
      MergeKeepsIntegrity(db, source, target, now);
    }
  }
}

=== FILE: schema.dfy ===
/** The relational store: one record type per table, the database as a
    record of sequences with a shared fresh-id counter, the cascade-delete
    relations, the uniqueness constraints and the column defaults.

    The declared tables are users, characters, character_images,
    relationships, conversations, messages, subscriptions, favorites and
    generated_images. The branch and memory handlers also use a `branches`
    table, a `memories` table and a `messages.branchId` column that the
    schema file does not declare; they are added here with the columns the
    handlers read and write. */
module Schema {
  import opened Common
  import opened Seqs

  datatype User = User(
    id: int, email: string, password: string, username: string,
    avatar: Option<string>, bio: Option<string>, createdAt: int, updatedAt: int)

  /** The structured personality a character form sends. */
  datatype Personality = Personality(traits: seq<string>, mood: string, style: string, backstory: string)

  /** The structured attributes a character form sends. */
  datatype Attributes = Attributes(interests: seq<string>)

  /** A character. The personality, attributes and skills columns hold the
      serialised structured values (the JSON text itself is abstracted). */
  datatype Character = Character(
    id: int, creatorId: int, name: string, description: Option<string>,
    avatar: Option<string>, personality: Option<Personality>,
    attributes: Option<Attributes>, skills: Option<seq<string>>,
    isPublic: Option<bool>, createdAt: int, updatedAt: int)

  datatype CharacterImage = CharacterImage(
    id: int, characterId: int, imageUrl: string, isPrimary: bool, createdAt: int)

  datatype Relationship = Relationship(
    id: int, characterId: int, relatedCharacterId: int, relationshipType: string,
    description: Option<string>, createdAt: int)

  datatype Conversation = Conversation(
    id: int, userId: int, characterId: int, title: Option<string>,
    isArchived: bool, createdAt: int, updatedAt: int)

  /** A message; `branchId` is `None` on the unbranched timeline. */
  datatype Message = Message(
    id: int, conversationId: int, branchId: Option<int>, sender: string,
    content: string, isVoice: bool, voiceUrl: Option<string>, createdAt: int)

  datatype Branch = Branch(
    id: int, conversationId: int, name: string, parentId: Option<int>, createdAt: int)

  datatype Memory = Memory(
    id: int, characterId: int, content: string, priority: string, createdAt: int)

  datatype Subscription = Subscription(
    id: int, userId: int, plan: string, status: string, startDate: int,
    endDate: Option<int>, autoRenew: bool, createdAt: int)

  datatype Favorite = Favorite(
    id: int, userId: int, characterId: int, conversationId: Option<int>, createdAt: int)

  datatype GeneratedImage = GeneratedImage(
    id: int, conversationId: int, imageUrl: string, prompt: Option<string>, createdAt: int)

  /** The whole database. Every insert takes its id from `nextId`. */
  datatype Db = Db(
    users: seq<User>,
    characters: seq<Character>,
    characterImages: seq<CharacterImage>,
    relationships: seq<Relationship>,
    conversations: seq<Conversation>,
    messages: seq<Message>,
    branches: seq<Branch>,
    memories: seq<Memory>,
    subscriptions: seq<Subscription>,
    favorites: seq<Favorite>,
    generatedImages: seq<GeneratedImage>,
    nextId: nat)

  // Column defaults.
  const DefaultIsPublic := true
  const DefaultIsArchived := false
  const DefaultIsVoice := false
  const DefaultIsPrimary := false
  const DefaultPlan := "free"
  const DefaultStatus := "active"
  const DefaultAutoRenew := false

  function MessageId(m: Message): int { m.id }
  function BranchId(b: Branch): int { b.id }
  function MemoryId(m: Memory): int { m.id }
  function ConversationId(c: Conversation): int { c.id }
  function CharacterId(c: Character): int { c.id }

  /** Every row of `rows` has an id below `bound`, and no two different rows
      share an id. */
  ghost predicate KeyedBelow<T(!new)>(rows: seq<T>, id: T -> int, bound: int) {
    && (forall x :: x in rows ==> id(x) < bound)
    && (forall x, y :: x in rows && y in rows && id(x) == id(y) ==> x == y)
  }

  /** Primary keys of the tables the handlers insert into are unique and
      lie below the fresh-id counter, and so does every branch a message
      names. */
  ghost predicate Valid(db: Db) {
    && KeyedBelow(db.messages, MessageId, db.nextId)
    && KeyedBelow(db.branches, BranchId, db.nextId)
    && KeyedBelow(db.memories, MemoryId, db.nextId)
    && KeyedBelow(db.conversations, ConversationId, db.nextId)
    && KeyedBelow(db.characters, CharacterId, db.nextId)
    && (forall m :: m in db.messages && m.branchId.Some? ==> m.branchId.value < db.nextId)
  }

  /** Adding rows with fresh, distinct ids keeps a table keyed. */
  lemma KeyedAppend<T(!new)>(rows: seq<T>, extra: seq<T>, id: T -> int, bound: int, newBound: int)
    requires KeyedBelow(rows, id, bound)
    requires bound <= newBound
    requires forall x :: x in extra ==> bound <= id(x) < newBound
    requires forall x, y :: x in extra && y in extra && id(x) == id(y) ==> x == y
    ensures KeyedBelow(rows + extra, id, newBound)
  {
  }

  /** Removing rows keeps a table keyed. */
  lemma KeyedFilter<T(!new)>(rows: seq<T>, p: T -> bool, id: T -> int, bound: int)
    requires KeyedBelow(rows, id, bound)
    ensures KeyedBelow(Filter(rows, p), id, bound)
  {
  }

  function UserIds(db: Db): set<int> { set u | u in db.users :: u.id }
  function CharacterIds(db: Db): set<int> { set c | c in db.characters :: c.id }
  function ConversationIds(db: Db): set<int> { set c | c in db.conversations :: c.id }

  /** Every declared foreign key (and the memory -> character reference)
      points at an existing row. */
  ghost predicate RefIntegrity(db: Db) {
    && (forall c :: c in db.characters ==> c.creatorId in UserIds(db))
    && (forall i :: i in db.characterImages ==> i.characterId in CharacterIds(db))
    && (forall r :: r in db.relationships ==>
          r.characterId in CharacterIds(db) && r.relatedCharacterId in CharacterIds(db))
    && (forall c :: c in db.conversations ==>
          c.userId in UserIds(db) && c.characterId in CharacterIds(db))
    && (forall m :: m in db.messages ==> m.conversationId in ConversationIds(db))
    && (forall m :: m in db.memories ==> m.characterId in CharacterIds(db))
    && (forall s :: s in db.subscriptions ==> s.userId in UserIds(db))
    && (forall f :: f in db.favorites ==>
          && f.userId in UserIds(db) && f.characterId in CharacterIds(db)
          && (f.conversationId.Some? ==> f.conversationId.value in ConversationIds(db)))
    && (forall g :: g in db.generatedImages ==> g.conversationId in ConversationIds(db))
  }

  /** Characters removed when deleting `users` and `characters`: the named
      ones and every character created by a removed user. */
  function DoomedCharacters(db: Db, users: set<int>, characters: set<int>): set<int> {
    characters + set c | c in db.characters && c.creatorId in users :: c.id
  }

  /** Conversations removed: the named ones and every conversation of a
      removed user or a removed character. */
  function DoomedConversations(db: Db, users: set<int>, chars: set<int>, conversations: set<int>): set<int> {
    conversations + set c | c in db.conversations && (c.userId in users || c.characterId in chars) :: c.id
  }

  /** `r` is what remains of `db` after deleting the given users,
      characters and conversations together with every row that references
      them through an `onDelete: 'cascade'` foreign key (and the branches
      and memories of removed conversations and characters). */
  ghost predicate CascadeOf(db: Db, r: Db, users: set<int>, characters: set<int>, conversations: set<int>) {
    var chars := DoomedCharacters(db, users, characters);
    var convs := DoomedConversations(db, users, chars, conversations);
    && (forall u :: u in r.users <==> u in db.users && u.id !in users)
    && (forall c :: c in r.characters <==> c in db.characters && c.id !in characters && c.creatorId !in users)
    && (forall i :: i in r.characterImages <==> i in db.characterImages && i.characterId !in chars)
    && (forall x :: x in r.relationships <==>
          x in db.relationships && x.characterId !in chars && x.relatedCharacterId !in chars)
    && (forall c :: c in r.conversations <==>
          c in db.conversations && c.id !in conversations && c.userId !in users && c.characterId !in chars)
    && (forall m :: m in r.messages <==> m in db.messages && m.conversationId !in convs)
    && (forall b :: b in r.branches <==> b in db.branches && b.conversationId !in convs)
    && (forall m :: m in r.memories <==> m in db.memories && m.characterId !in chars)
    && (forall s :: s in r.subscriptions <==> s in db.subscriptions && s.userId !in users)
    && (forall f :: f in r.favorites <==>
          && f in db.favorites && f.userId !in users && f.characterId !in chars
          && (f.conversationId.None? || f.conversationId.value !in convs))
    && (forall g :: g in r.generatedImages <==> g in db.generatedImages && g.conversationId !in convs)
  }

  /** Deletes the given users, characters and conversations and everything
      that references them. */
  function Cascade(db: Db, users: set<int>, characters: set<int>, conversations: set<int>): (r: Db)
    ensures r.nextId == db.nextId
    ensures CascadeOf(db, r, users, characters, conversations)
  {
    var chars := DoomedCharacters(db, users, characters);
    var convs := DoomedConversations(db, users, chars, conversations);
    Db(
      Filter(db.users, (u: User) => u.id !in users),
      Filter(db.characters, (c: Character) => c.id !in characters && c.creatorId !in users),
      Filter(db.characterImages, (i: CharacterImage) => i.characterId !in chars),
      Filter(db.relationships, (x: Relationship) => x.characterId !in chars && x.relatedCharacterId !in chars),
      Filter(db.conversations, (c: Conversation) =>
        c.id !in conversations && c.userId !in users && c.characterId !in chars),
      Filter(db.messages, (m: Message) => m.conversationId !in convs),
      Filter(db.branches, (b: Branch) => b.conversationId !in convs),
      Filter(db.memories, (m: Memory) => m.characterId !in chars),
      Filter(db.subscriptions, (s: Subscription) => s.userId !in users),
      Filter(db.favorites, (f: Favorite) =>
        f.userId !in users && f.characterId !in chars
        && (f.conversationId.None? || f.conversationId.value !in convs)),
      Filter(db.generatedImages, (g: GeneratedImage) => g.conversationId !in convs),
      db.nextId)
  }

  /** Deleting a user removes the user, their characters, their
      conversations, their subscriptions and their favourites. */
  function DeleteUser(db: Db, userId: int): (r: Db)
    ensures r.nextId == db.nextId
    ensures CascadeOf(db, r, {userId}, {}, {})
  {
    Cascade(db, {userId}, {}, {})
  }

  /** What deleting a user removes, and that no reference dangles afterwards. */
  lemma DeleteUserEffect(db: Db, userId: int, r: Db)
    requires CascadeOf(db, r, {userId}, {}, {})
    ensures forall u :: u in r.users <==> u in db.users && u.id != userId
    ensures forall c :: c in db.characters && c.creatorId == userId ==> c !in r.characters
    ensures forall c :: c in db.conversations && c.userId == userId ==> c !in r.conversations
    ensures forall s :: s in r.subscriptions <==> s in db.subscriptions && s.userId != userId
    ensures forall f :: f in db.favorites && f.userId == userId ==> f !in r.favorites
    ensures RefIntegrity(db) ==> RefIntegrity(r)
  {
    if RefIntegrity(db) {
      CascadeKeepsIntegrity(db, r, {userId}, {}, {});
    }
  }

  /** Deleting a character removes its images, the relationships on either
      side, its conversations, its favourites and its memories. */
  function DeleteCharacter(db: Db, characterId: int): (r: Db)
    ensures r.nextId == db.nextId
    ensures CascadeOf(db, r, {}, {characterId}, {})
  {
    Cascade(db, {}, {characterId}, {})
  }

  /** What deleting a character removes and keeps. */
  lemma DeleteCharacterEffect(db: Db, characterId: int, r: Db)
    requires CascadeOf(db, r, {}, {characterId}, {})
    ensures forall c :: c in r.characters <==> c in db.characters && c.id != characterId
    ensures forall i :: i in r.characterImages <==> i in db.characterImages && i.characterId != characterId
    ensures forall x :: x in r.relationships <==>
      x in db.relationships && x.characterId != characterId && x.relatedCharacterId != characterId
    ensures forall c :: c in r.conversations <==> c in db.conversations && c.characterId != characterId
    ensures forall f :: f in db.favorites && f.characterId == characterId ==> f !in r.favorites
    ensures forall m :: m in r.memories <==> m in db.memories && m.characterId != characterId
    ensures forall u :: u in r.users <==> u in db.users
    ensures RefIntegrity(db) ==> RefIntegrity(r)
  {
    assert DoomedCharacters(db, {}, {characterId}) == {characterId};
    if RefIntegrity(db) {
      CascadeKeepsIntegrity(db, r, {}, {characterId}, {});
    }
  }

  /** Deleting a conversation removes its messages, generated images,
      favourites and branches, and no user, character or memory. */
  function DeleteConversation(db: Db, conversationId: int): (r: Db)
    ensures r.nextId == db.nextId
    ensures CascadeOf(db, r, {}, {}, {conversationId})
  {
    Cascade(db, {}, {}, {conversationId})
  }

  /** What deleting a conversation removes and keeps. */
  lemma DeleteConversationEffect(db: Db, conversationId: int, r: Db)
    requires CascadeOf(db, r, {}, {}, {conversationId})
    ensures forall c :: c in r.conversations <==> c in db.conversations && c.id != conversationId
    ensures forall m :: m in r.messages <==> m in db.messages && m.conversationId != conversationId
    ensures forall g :: g in r.generatedImages <==> g in db.generatedImages && g.conversationId != conversationId
    ensures forall f :: f in db.favorites && f.conversationId == Some(conversationId) ==> f !in r.favorites
    ensures forall b :: b in r.branches <==> b in db.branches && b.conversationId != conversationId
    ensures forall u :: u in r.users <==> u in db.users
    ensures forall c :: c in r.characters <==> c in db.characters
    ensures forall m :: m in r.memories <==> m in db.memories
    ensures RefIntegrity(db) ==> RefIntegrity(r)
  {
    assert DoomedCharacters(db, {}, {}) == {};
    assert DoomedConversations(db, {}, {}, {conversationId}) == {conversationId};
    if RefIntegrity(db) {
      CascadeKeepsIntegrity(db, r, {}, {}, {conversationId});
    }
  }

  /** Rows that survive a cascade keep their ids available as targets. */
  lemma CascadeKeepsTargets(db: Db, r: Db, users: set<int>, characters: set<int>, conversations: set<int>)
    requires CascadeOf(db, r, users, characters, conversations)
    ensures forall u :: u in db.users && u.id !in users ==> u.id in UserIds(r)
    ensures forall c :: c in db.characters && c.id !in DoomedCharacters(db, users, characters) ==>
      c.id in CharacterIds(r)
    ensures forall c ::
      (c in db.conversations
       && c.id !in DoomedConversations(db, users, DoomedCharacters(db, users, characters), conversations)) ==>
      c.id in ConversationIds(r)
  {
    var chars := DoomedCharacters(db, users, characters);
    var convs := DoomedConversations(db, users, chars, conversations);
    forall u | u in db.users && u.id !in users ensures u.id in UserIds(r) {
      assert u in r.users;
    }
    forall c | c in db.characters && c.id !in chars ensures c.id in CharacterIds(r) {
      assert c in r.characters;
    }
    forall c | c in db.conversations && c.id !in convs ensures c.id in ConversationIds(r) {
      assert c in r.conversations;
    }
  }

  /** After a cascade no character, conversation, message or generated
      image points at a removed row. */
  lemma CascadeKeepsOwnership(db: Db, r: Db, users: set<int>, characters: set<int>, conversations: set<int>)
    requires RefIntegrity(db)
    requires CascadeOf(db, r, users, characters, conversations)
    ensures forall c :: c in r.characters ==> c.creatorId in UserIds(r)
    ensures forall c :: c in r.conversations ==> c.userId in UserIds(r) && c.characterId in CharacterIds(r)
    ensures forall m :: m in r.messages ==> m.conversationId in ConversationIds(r)
    ensures forall g :: g in r.generatedImages ==> g.conversationId in ConversationIds(r)
  {
    var chars := DoomedCharacters(db, users, characters);
    var convs := DoomedConversations(db, users, chars, conversations);
    CascadeKeepsTargets(db, r, users, characters, conversations);
    forall c | c in r.characters ensures c.creatorId in UserIds(r) {
      var u :| u in db.users && u.id == c.creatorId;
    }
    forall c | c in r.conversations ensures c.userId in UserIds(r) && c.characterId in CharacterIds(r) {
      var u :| u in db.users && u.id == c.userId;
      var ch :| ch in db.characters && ch.id == c.characterId;
    }
    forall m | m in r.messages ensures m.conversationId in ConversationIds(r) {
      var c :| c in db.conversations && c.id == m.conversationId;
    }
    forall g | g in r.generatedImages ensures g.conversationId in ConversationIds(r) {
      var c :| c in db.conversations && c.id == g.conversationId;
    }
  }

  /** After a cascade no image, relationship, memory, subscription or
      favourite points at a removed row. */
  lemma CascadeKeepsAttachments(db: Db, r: Db, users: set<int>, characters: set<int>, conversations: set<int>)
    requires RefIntegrity(db)
    requires CascadeOf(db, r, users, characters, conversations)
    ensures forall i :: i in r.characterImages ==> i.characterId in CharacterIds(r)
    ensures forall x :: x in r.relationships ==>
      x.characterId in CharacterIds(r) && x.relatedCharacterId in CharacterIds(r)
    ensures forall m :: m in r.memories ==> m.characterId in CharacterIds(r)
    ensures forall s :: s in r.subscriptions ==> s.userId in UserIds(r)
    ensures forall f :: f in r.favorites ==>
      && f.userId in UserIds(r) && f.characterId in CharacterIds(r)
      && (f.conversationId.Some? ==> f.conversationId.value in ConversationIds(r))
  {
    CascadeKeepsTargets(db, r, users, characters, conversations);
    forall i | i in r.characterImages ensures i.characterId in CharacterIds(r) {
      var ch :| ch in db.characters && ch.id == i.characterId;
    }
    forall x | x in r.relationships
      ensures x.characterId in CharacterIds(r) && x.relatedCharacterId in CharacterIds(r)
    {
      var a :| a in db.characters && a.id == x.characterId;
      var b :| b in db.characters && b.id == x.relatedCharacterId;
    }
    forall m | m in r.memories ensures m.characterId in CharacterIds(r) {
      var ch :| ch in db.characters && ch.id == m.characterId;
    }
    forall s | s in r.subscriptions ensures s.userId in UserIds(r) {
      var u :| u in db.users && u.id == s.userId;
    }
    forall f | f in r.favorites
      ensures && f.userId in UserIds(r) && f.characterId in CharacterIds(r)
              && (f.conversationId.Some? ==> f.conversationId.value in ConversationIds(r))
    {
      var u :| u in db.users && u.id == f.userId;
      var ch :| ch in db.characters && ch.id == f.characterId;
      if f.conversationId.Some? {
        var c :| c in db.conversations && c.id == f.conversationId.value;
      }
    }
  }

  /** Cascading deletes never leave a dangling reference behind. */
  lemma CascadeKeepsIntegrity(db: Db, r: Db, users: set<int>, characters: set<int>, conversations: set<int>)
    requires RefIntegrity(db)
    requires CascadeOf(db, r, users, characters, conversations)
    ensures RefIntegrity(r)
  {
    CascadeKeepsOwnership(db, r, users, characters, conversations);
    CascadeKeepsAttachments(db, r, users, characters, conversations);
  }

  /** A table whose rows all come from a keyed table is keyed too. */
  lemma KeyedSubset<T(!new)>(rows: seq<T>, sub: seq<T>, id: T -> int, bound: int)
    requires KeyedBelow(rows, id, bound)
    requires forall x :: x in sub ==> x in rows
    ensures KeyedBelow(sub, id, bound)
  {
  }

  /** Cascading deletes keep primary keys unique and below the counter:
      every surviving row was a row before, and the counter is kept. */
  lemma CascadeKeepsValid(db: Db, r: Db, users: set<int>, characters: set<int>, conversations: set<int>)
    requires Valid(db)
    requires CascadeOf(db, r, users, characters, conversations)
    requires r.nextId == db.nextId
    ensures Valid(r)
  {
    KeyedSubset(db.messages, r.messages, MessageId, db.nextId);
    KeyedSubset(db.branches, r.branches, BranchId, db.nextId);
    KeyedSubset(db.memories, r.memories, MemoryId, db.nextId);
    KeyedSubset(db.conversations, r.conversations, ConversationId, db.nextId);
    KeyedSubset(db.characters, r.characters, CharacterId, db.nextId);
  }

  /** Deleting a user, a character or a conversation keeps both store
      invariants. */
  lemma DeletesKeepInvariants(db: Db, userId: int, characterId: int, conversationId: int)
    requires Valid(db) && RefIntegrity(db)
    ensures Valid(DeleteUser(db, userId)) && RefIntegrity(DeleteUser(db, userId))
    ensures Valid(DeleteCharacter(db, characterId)) && RefIntegrity(DeleteCharacter(db, characterId))
    ensures Valid(DeleteConversation(db, conversationId)) && RefIntegrity(DeleteConversation(db, conversationId))
  {
    CascadeKeepsValid(db, DeleteUser(db, userId), {userId}, {}, {});
    CascadeKeepsIntegrity(db, DeleteUser(db, userId), {userId}, {}, {});
    CascadeKeepsValid(db, DeleteCharacter(db, characterId), {}, {characterId}, {});
    CascadeKeepsIntegrity(db, DeleteCharacter(db, characterId), {}, {characterId}, {});
    CascadeKeepsValid(db, DeleteConversation(db, conversationId), {}, {}, {conversationId});
    CascadeKeepsIntegrity(db, DeleteConversation(db, conversationId), {}, {}, {conversationId});
  }

  /** No two users share an email, and no two share a username. */
  ghost predicate UniqueUsers(users: seq<User>) {
    forall i, j :: 0 <= i < j < |users| ==>
      users[i].email != users[j].email && users[i].username != users[j].username
  }

  datatype Violation = UniqueViolation | ForeignKeyViolation

  datatype Inserted = Inserted(db: Db) | Rejected(violation: Violation)

  /** Inserts a user; the unique constraints on `email` and `username`
      reject a duplicate of either. */
  function InsertUser(db: Db, email: string, password: string, username: string, now: int): (r: Inserted)
    ensures r.Rejected? <==> exists u :: u in db.users && (u.email == email || u.username == username)
    ensures r.Inserted? ==> r.db.users == db.users + [User(db.nextId, email, password, username, None, None, now, now)]
    ensures r.Inserted? && UniqueUsers(db.users) ==> UniqueUsers(r.db.users)
  {
    if exists u :: u in db.users && (u.email == email || u.username == username) then
      Rejected(UniqueViolation)
    else
      var users := db.users + [User(db.nextId, email, password, username, None, None, now, now)];
      assert forall i :: 0 <= i < |db.users| ==> db.users[i] in db.users;
      Inserted(db.(users := users, nextId := db.nextId + 1))
  }

  /** Inserts a subscription for an existing user; omitted columns take
      their defaults (plan `free`, status `active`, no auto-renewal). */
  function InsertSubscription(db: Db, userId: int, plan: Option<string>, status: Option<string>,
                              autoRenew: Option<bool>, now: int): (r: Inserted)
    ensures r.Rejected? <==> userId !in UserIds(db)
    ensures r.Inserted? ==> |r.db.subscriptions| == |db.subscriptions| + 1
    ensures r.Inserted? ==> var s := r.db.subscriptions[|db.subscriptions|];
      && s.userId == userId
      && s.plan == (if plan.None? then "free" else plan.value)
      && s.status == (if status.None? then "active" else status.value)
      && s.autoRenew == (autoRenew.Some? && autoRenew.value)
    ensures r.Inserted? && RefIntegrity(db) ==> RefIntegrity(r.db)
  {
    if userId !in UserIds(db) then Rejected(ForeignKeyViolation)
    else
      var s := Subscription(db.nextId, userId, plan.GetOr(DefaultPlan), status.GetOr(DefaultStatus),
                            now, None, autoRenew.GetOr(DefaultAutoRenew), now);
      Inserted(db.(subscriptions := db.subscriptions + [s], nextId := db.nextId + 1))
  }
}

=== FILE: seqs.dfy ===
/** Sequence operations behind the handlers' queries and list edits:
    `Array.prototype.filter`, and a stable sort standing for both
    `ORDER BY` and `Array.prototype.sort`. */
module Seqs {
  import opened Common

  /** `s.filter(p)`: the elements satisfying `p`, in their original order. */
  function Filter<T(!new)>(s: seq<T>, p: T -> bool): (r: seq<T>)
    ensures |r| <= |s|
    ensures forall x :: x in r <==> x in s && p(x)
    ensures forall i :: 0 <= i < |r| ==> p(r[i])
    ensures (forall i :: 0 <= i < |s| ==> p(s[i])) ==> r == s
  {
    if s == [] then []
    else (if p(s[0]) then [s[0]] else []) + Filter(s[1..], p)
  }

  /** `s.findIndex(p)`: the first position whose element satisfies `p`,
      with `None` for `-1`. */
  function FirstIndex<T>(s: seq<T>, p: T -> bool): (r: Option<nat>)
    ensures r.Some? ==> r.value < |s| && p(s[r.value])
    ensures r.Some? ==> forall j :: 0 <= j < r.value ==> !p(s[j])
    ensures r.None? <==> forall j :: 0 <= j < |s| ==> !p(s[j])
  {
    if s == [] then None
    else if p(s[0]) then Some(0)
    else match FirstIndex(s[1..], p)
      case None => None
      case Some(i) => Some(i + 1)
  }

  lemma {:induction false} FilterAppend<T(!new)>(a: seq<T>, b: seq<T>, p: T -> bool)
    ensures Filter(a + b, p) == Filter(a, p) + Filter(b, p)
    decreases |a|
  {
    if a != [] {
      assert (a + b)[1..] == a[1..] + b;
      FilterAppend(a[1..], b, p);
    } else {
      assert a + b == b;
    }
  }

  lemma {:induction false} FilterAll<T(!new)>(s: seq<T>, p: T -> bool)
    requires forall i :: 0 <= i < |s| ==> p(s[i])
    ensures Filter(s, p) == s
    decreases |s|
  {
    if s != [] {
      FilterAll(s[1..], p);
    }
  }

  lemma {:induction false} FilterNone<T(!new)>(s: seq<T>, p: T -> bool)
    requires forall i :: 0 <= i < |s| ==> !p(s[i])
    ensures Filter(s, p) == []
    decreases |s|
  {
    if s != [] {
      FilterNone(s[1..], p);
    }
  }

  /** Two tests that agree on every element of `s` select the same elements. */
  lemma {:induction false} FilterCongruent<T(!new)>(s: seq<T>, p: T -> bool, q: T -> bool)
    requires forall i :: 0 <= i < |s| ==> p(s[i]) == q(s[i])
    ensures Filter(s, p) == Filter(s, q)
    decreases |s|
  {
    if s != [] {
      FilterCongruent(s[1..], p, q);
    }
  }

  /** Filtering twice keeps what passes both tests. */
  lemma {:induction false} FilterFilter<T(!new)>(s: seq<T>, p: T -> bool, q: T -> bool, pq: T -> bool)
    requires forall x :: pq(x) == (p(x) && q(x))
    ensures Filter(Filter(s, p), q) == Filter(s, pq)
    decreases |s|
  {
    if s != [] {
      FilterFilter(s[1..], p, q, pq);
      var rest := Filter(s[1..], p);
      if p(s[0]) {
        assert Filter(s, p) == [s[0]] + rest;
        assert ([s[0]] + rest)[1..] == rest;
        assert Filter([s[0]] + rest, q) == (if q(s[0]) then [s[0]] else []) + Filter(rest, q);
      } else {
        assert Filter(s, p) == rest;
      }
    }
  }

  /** Filtering keeps every element that passes as often as it occurs,
      and no element that fails. */
  lemma {:induction false} FilterMultiset<T(!new)>(s: seq<T>, p: T -> bool, x: T)
    ensures multiset(Filter(s, p))[x] == if p(x) then multiset(s)[x] else 0
    decreases |s|
  {
    if s != [] {
      FilterMultiset(s[1..], p, x);
      assert s == [s[0]] + s[1..];
      assert multiset(s) == multiset{s[0]} + multiset(s[1..]);
    }
  }

  /** An element paired with the key it is ordered by. */
  datatype Keyed<T> = Keyed(key: int, item: T)

  /** `s` lists keys in non-increasing order. */
  ghost predicate SortedDesc<T>(s: seq<Keyed<T>>) {
    forall i, j :: 0 <= i < j < |s| ==> s[i].key >= s[j].key
  }

  /** The elements of `s` whose key is `k`, in their order in `s`. */
  function WithKey<T>(s: seq<Keyed<T>>, k: int): seq<Keyed<T>> {
    if s == [] then []
    else (if s[0].key == k then [s[0]] else []) + WithKey(s[1..], k)
  }

  /** Places `x` in front of the first element whose key is not larger. */
  function Insert<T>(x: Keyed<T>, s: seq<Keyed<T>>): (r: seq<Keyed<T>>)
    requires SortedDesc(s)
    ensures SortedDesc(r)
    ensures multiset(r) == multiset(s) + multiset{x}
    ensures |r| == |s| + 1
  {
    if s == [] || s[0].key <= x.key then [x] + s
    else
      var t := Insert(x, s[1..]);
      assert s == [s[0]] + s[1..];
      MultisetBound(t, s[1..], x, s[0].key);
      [s[0]] + t
  }

  /** A bound on the keys of `u` and on `x` bounds the keys of any
      arrangement of `u` and `x`. */
  lemma MultisetBound<T>(t: seq<Keyed<T>>, u: seq<Keyed<T>>, x: Keyed<T>, b: int)
    requires multiset(t) == multiset(u) + multiset{x}
    requires x.key <= b && forall i :: 0 <= i < |u| ==> u[i].key <= b
    ensures forall i :: 0 <= i < |t| ==> t[i].key <= b
  {
    forall i | 0 <= i < |t| ensures t[i].key <= b {
      assert t[i] in multiset(t);
      if t[i] != x {
        assert t[i] in multiset(u);
        var j :| 0 <= j < |u| && u[j] == t[i];
      }
    }
  }

  /** A stable sort by non-increasing key (insertion sort). */
  function SortDesc<T>(s: seq<Keyed<T>>): (r: seq<Keyed<T>>)
    ensures SortedDesc(r)
    ensures multiset(r) == multiset(s)
    ensures |r| == |s|
  {
    if s == [] then []
    else
      assert s == [s[0]] + s[1..];
      Insert(s[0], SortDesc(s[1..]))
  }

  lemma WithKeyCons<T>(e: Keyed<T>, t: seq<Keyed<T>>, k: int)
    ensures WithKey([e] + t, k) == (if e.key == k then [e] else []) + WithKey(t, k)
  {
    assert ([e] + t)[1..] == t;
  }

  lemma {:induction false} InsertStable<T>(x: Keyed<T>, s: seq<Keyed<T>>, k: int)
    requires SortedDesc(s)
    ensures WithKey(Insert(x, s), k) == (if x.key == k then [x] else []) + WithKey(s, k)
    decreases |s|
  {
    if s == [] || s[0].key <= x.key {
      WithKeyCons(x, s, k);
    } else {
      var t := Insert(x, s[1..]);
      var xs: seq<Keyed<T>> := if x.key == k then [x] else [];
      var head: seq<Keyed<T>> := if s[0].key == k then [s[0]] else [];
      assert x.key == k ==> head == [];
      calc {
        WithKey(Insert(x, s), k);
      == { assert Insert(x, s) == [s[0]] + t; }
        WithKey([s[0]] + t, k);
      == { WithKeyCons(s[0], t, k); }
        head + WithKey(t, k);
      == { InsertStable(x, s[1..], k); }
        head + (xs + WithKey(s[1..], k));
      == { assert head + (xs + WithKey(s[1..], k)) == xs + (head + WithKey(s[1..], k)); }
        xs + (head + WithKey(s[1..], k));
      == { WithKeyCons(s[0], s[1..], k); assert [s[0]] + s[1..] == s; }
        xs + WithKey(s, k);
      }
    }
  }

  /** Stability: for every key, the elements with that key keep their
      relative order. */
  lemma {:induction false} SortStable<T>(s: seq<Keyed<T>>, k: int)
    ensures WithKey(SortDesc(s), k) == WithKey(s, k)
    decreases |s|
  {
    if s != [] {
      SortStable(s[1..], k);
      InsertStable(s[0], SortDesc(s[1..]), k);
    }
  }

  /** The items of a keyed list, in order. */
  function Items<T>(s: seq<Keyed<T>>): (r: seq<T>)
    ensures |r| == |s|
    ensures forall i :: 0 <= i < |s| ==> r[i] == s[i].item
  {
    seq(|s|, i requires 0 <= i < |s| => s[i].item)
  }

  lemma {:induction false} ItemsAppend<T>(a: seq<Keyed<T>>, b: seq<Keyed<T>>)
    ensures Items(a + b) == Items(a) + Items(b)
  {
  }

  /** Lists that are permutations of each other have permuted items. */
  lemma {:induction false} ItemsMultiset<T>(a: seq<Keyed<T>>, b: seq<Keyed<T>>)
    requires multiset(a) == multiset(b)
    ensures multiset(Items(a)) == multiset(Items(b))
    decreases |a|
  {
    if a == [] {
      assert |b| == |multiset(b)| == 0;
    } else {
      var x := a[0];
      assert x in multiset(b);
      var j :| 0 <= j < |b| && b[j] == x;
      var b' := b[..j] + b[j + 1..];
      assert b == b[..j] + [x] + b[j + 1..];
      assert a == [x] + a[1..];
      assert multiset(b) == multiset(b[..j]) + multiset{x} + multiset(b[j + 1..]);
      assert multiset(b') == multiset(b[..j]) + multiset(b[j + 1..]);
      assert multiset(a) == multiset{x} + multiset(a[1..]);
      assert multiset(a[1..]) == multiset(a) - multiset{x};
      assert multiset(b') == multiset(b) - multiset{x};
      ItemsMultiset(a[1..], b');
      ItemsAppend(b[..j] + [x], b[j + 1..]);
      ItemsAppend(b[..j], [x]);
      ItemsAppend(b[..j], b[j + 1..]);
      ItemsAppend([x], a[1..]);
    }
  }

  /** Pairs every element with its key. */
  function KeyedBy<T>(s: seq<T>, key: T -> int): (r: seq<Keyed<T>>)
    ensures |r| == |s|
    ensures forall i :: 0 <= i < |s| ==> r[i] == Keyed(key(s[i]), s[i])
    ensures Items(r) == s
  {
    seq(|s|, i requires 0 <= i < |s| => Keyed(key(s[i]), s[i]))
  }

  /** Stable sort of `s` by non-increasing `key`; this is what
      `ORDER BY ... DESC` and a descending comparator in
      `Array.prototype.sort` produce. */
  function SortDescBy<T>(s: seq<T>, key: T -> int): (r: seq<T>)
    ensures |r| == |s|
    ensures multiset(r) == multiset(s)
    ensures forall i, j :: 0 <= i < j < |r| ==> key(r[i]) >= key(r[j])
  {
    var ks := KeyedBy(s, key);
    var sorted := SortDesc(ks);
    ItemsMultiset(sorted, ks);
    assert forall i :: 0 <= i < |sorted| ==> sorted[i].key == key(sorted[i].item) by {
      forall i | 0 <= i < |sorted| ensures sorted[i].key == key(sorted[i].item) {
        assert sorted[i] in multiset(ks);
      }
    }
    Items(sorted)
  }

  /** The key that orders by `key` in reverse. */
  function Negated<T>(key: T -> int): T -> int {
    x => -key(x)
  }

  /** Stable sort of `s` by non-decreasing `key` (`ORDER BY ... ASC`). */
  function SortAscBy<T>(s: seq<T>, key: T -> int): (r: seq<T>)
    ensures |r| == |s|
    ensures multiset(r) == multiset(s)
    ensures forall i, j :: 0 <= i < j < |r| ==> key(r[i]) <= key(r[j])
  {
    var r := SortDescBy(s, Negated(key));
    assert forall i, j :: 0 <= i < j < |r| ==> -key(r[i]) >= -key(r[j]);
    r
  }

  /** Sorting a list whose keys are all equal leaves it as it is. */
  lemma {:induction false} SortDescConstant<T>(s: seq<Keyed<T>>, k: int)
    requires forall i :: 0 <= i < |s| ==> s[i].key == k
    ensures SortDesc(s) == s
    decreases |s|
  {
    if s != [] {
      SortDescConstant(s[1..], k);
      assert s == [s[0]] + s[1..];
    }
  }

  lemma SortDescByConstant<T>(s: seq<T>, key: T -> int, k: int)
    requires forall i :: 0 <= i < |s| ==> key(s[i]) == k
    ensures SortDescBy(s, key) == s
  {
    SortDescConstant(KeyedBy(s, key), k);
  }

  /** Stability at its simplest: rows that tie on the key come out in the
      order they went in. */
  lemma SortAscByConstant<T>(s: seq<T>, key: T -> int, k: int)
    requires forall i :: 0 <= i < |s| ==> key(s[i]) == k
    ensures SortAscBy(s, key) == s
  {
    SortDescByConstant(s, Negated(key), -k);
  }

  /** `.limit(n)` and `.slice(0, n)`: the first `n` elements, or all of
      them when there are fewer. */
  function Limit<T>(s: seq<T>, n: nat): (r: seq<T>)
    ensures |r| == if |s| < n then |s| else n
    ensures r <= s
  {
    if |s| <= n then s else s[..n]
  }

  /** Splicing out an element the test rejects does not change the filter. */
  lemma FilterSpliceRejected<T(!new)>(a: seq<T>, x: T, b: seq<T>, p: T -> bool)
    requires !p(x)
    ensures Filter(a + b, p) == Filter(a + [x] + b, p)
  {
    assert Filter([x], p) == [] by {
      assert [x][1..] == [];
    }
    calc {
      Filter(a + [x] + b, p);
    == { FilterAppend(a + [x], b, p); }
      Filter(a + [x], p) + Filter(b, p);
    == { FilterAppend(a, [x], p); }
      Filter(a, p) + Filter(b, p);
    == { FilterAppend(a, b, p); }
      Filter(a + b, p);
    }
  }

  /** Splicing out an element the test accepts removes one from the filter. */
  lemma FilterSpliceAccepted<T(!new)>(a: seq<T>, x: T, b: seq<T>, p: T -> bool)
    requires p(x)
    ensures |Filter(a + b, p)| == |Filter(a + [x] + b, p)| - 1
  {
    assert [x][1..] == [];
    assert Filter([x], p) == [x];
    FilterAppend(a + [x], b, p);
    FilterAppend(a, [x], p);
    FilterAppend(a, b, p);
  }

  /** No element occurs twice. */
  ghost predicate NoRepeats<T>(s: seq<T>) {
    forall i, j :: 0 <= i < j < |s| ==> s[i] != s[j]
  }

  /** A list without repeats has as many elements as it has distinct ones. */
  lemma {:induction false} NoRepeatsCard<T>(s: seq<T>)
    requires NoRepeats(s)
    ensures |set x | x in s| == |s|
    decreases |s|
  {
    if s != [] {
      var rest := s[1..];
      assert NoRepeats(rest) by {
        forall i, j | 0 <= i < j < |rest| ensures rest[i] != rest[j] {
          assert rest[i] == s[i + 1] && rest[j] == s[j + 1];
        }
      }
      NoRepeatsCard(rest);
      assert (set x | x in s) == {s[0]} + (set x | x in rest) by {
        assert s == [s[0]] + rest;
      }
      assert s[0] !in rest by {
        forall k | 0 <= k < |rest| ensures rest[k] != s[0] {
          assert rest[k] == s[k + 1];
        }
      }
    }
  }

  /** An element at two positions occurs at least twice. */
  lemma MultisetTwice<T>(s: seq<T>, i: nat, j: nat)
    requires i < j < |s| && s[i] == s[j]
    ensures multiset(s)[s[i]] >= 2
  {
    assert s == s[..j] + [s[j]] + s[j + 1..];
    assert s[..j][i] == s[i];
    assert s[i] in multiset(s[..j]);
    assert multiset(s) == multiset(s[..j]) + multiset{s[j]} + multiset(s[j + 1..]);
  }
}

=== FILE: spa_app.dfy ===
/** The browser application's state transitions that do not render:
    opening a chat with a character, removing the last reply before it is
    regenerated, the character list filters, the login, register and
    create-character form rules, and saving a custom character. */
module SpaApp {
  import opened Common
  import opened Text
  import opened Seqs
  import opened Http
  import opened SpaStore

  /** A character as the application lists it. */
  datatype SpaCharacter = SpaCharacter(
    id: int, name: string, description: Option<string>, avatar: string,
    personality: string, traits: Option<seq<string>>, skills: seq<string>,
    dialect: Option<string>, creator: Option<string>, category: Option<string>,
    greeting: Option<string>, systemPrompt: string, isPublic: bool)

  /** The signed-in user. */
  datatype SpaUser = SpaUser(username: string, email: string, joinedAt: int)

  /** The application object: the signed-in user and token, the saved
      lists, the built-in characters (the default ones followed by the
      Arabic ones), the custom characters, the open chat and the page. */
  datatype App = App(
    user: Option<SpaUser>, token: Option<string>, store: Store,
    builtIn: seq<SpaCharacter>, custom: seq<SpaCharacter>,
    currentChat: Option<Conv>, page: string)

  /** `this.characters`. */
  function Characters(app: App): seq<SpaCharacter> {
    app.builtIn + app.custom
  }

  /** `navigate(page)`; the sidebar and memory-panel flags are not modelled. */
  function Navigate(app: App, page: string): (r: App)
    ensures r.page == page
    ensures r.(page := app.page) == app
  {
    app.(page := page)
  }

  // ---- Opening a chat ----

  function CharHasId(id: int): SpaCharacter -> bool {
    (c: SpaCharacter) => c.id == id
  }

  function ForChar(charId: int): Conv -> bool {
    (c: Conv) => c.charId == charId
  }

  /** `characters.findIndex(c => c.id == id)`, with `None` for `-1`. */
  function CharIndex(chars: seq<SpaCharacter>, id: int): (r: Option<nat>)
    ensures r.Some? ==> r.value < |chars| && chars[r.value].id == id
    ensures r.Some? ==> forall j :: 0 <= j < r.value ==> chars[j].id != id
    ensures r.None? <==> forall j :: 0 <= j < |chars| ==> chars[j].id != id
  {
    FirstIndex(chars, CharHasId(id))
  }

  /** `characters.find(c => c.id == id)`: the first character with that id. */
  function FindChar(chars: seq<SpaCharacter>, id: int): (r: Option<SpaCharacter>)
    ensures r.Some? ==> r.value in chars && r.value.id == id
    ensures r.None? <==> forall c :: c in chars ==> c.id != id
    ensures r.Some? ==> r.value == chars[CharIndex(chars, id).value]
  {
    match CharIndex(chars, id)
    case None => None
    case Some(i) => Some(chars[i])
  }

  /** `conversations.find(c => c.charId == charId)`. */
  function FindByChar(cs: seq<Conv>, charId: int): (r: Option<Conv>)
    ensures r.Some? ==> r.value in cs && r.value.charId == charId
    ensures r.None? <==> forall c :: c in cs ==> c.charId != charId
  {
    match FirstIndex(cs, ForChar(charId))
    case None => None
    case Some(i) => Some(cs[i])
  }

  /** The bot's first words: the character's greeting, or an introduction
      in the current language. */
  function GreetingText(ch: SpaCharacter, lang: string): (r: string)
    ensures !FalsyText(ch.greeting) ==> r == ch.greeting.value
    ensures FalsyText(ch.greeting) && lang == "ar" ==> r == "مرحباً! أنا " + ch.name
    ensures FalsyText(ch.greeting) && lang != "ar" ==> r == "Hello! I'm " + ch.name
  {
    OrElse(ch.greeting, if lang == "ar" then "مرحباً! أنا " + ch.name else "Hello! I'm " + ch.name)
  }

  /** The conversation record created for a first chat at `now`. */
  function NewConv(ch: SpaCharacter, charId: int, now: int): (r: Conv)
    ensures r.id == "conv_" + IdString(now) && r.charId == charId
    ensures r.charName == ch.name && r.lastMessage == OrElse(ch.greeting, "")
    ensures r.startedAt == now && r.lastMessageAt == now
  {
    Conv("conv_" + IdString(now), charId, ch.name, ch.avatar, now, OrElse(ch.greeting, ""), now)
  }

  function Greeting(ch: SpaCharacter, lang: string, now: int): (r: ChatMessage)
    ensures r.sender == "bot" && r.text == GreetingText(ch, lang) && r.timestamp == now
  {
    ChatMessage("msg_" + IdString(now), "bot", GreetingText(ch, lang), now)
  }

  /** `startChat(charId)` in language `lang` at instant `now`. */
  function StartChat(app: App, charId: int, lang: string, now: int): (r: App)
    ensures app.user.None? ==> r == app.(page := "login")
    ensures app.user.Some? && FindChar(Characters(app), charId).None? ==> r == app
    ensures app.user.Some? && FindChar(Characters(app), charId).Some? ==>
      && r.page == "chat" && r.currentChat.Some? && r.currentChat.value.charId == charId
      && r.currentChat.value in r.store.conversations
      && r.user == app.user && r.builtIn == app.builtIn && r.custom == app.custom
    ensures app.user.Some? && FindByChar(app.store.conversations, charId).Some? ==> r.store == app.store
  {
    if app.user.None? then Navigate(app, "login")
    else match FindChar(Characters(app), charId)
      case None => app
      case Some(ch) =>
        match FindByChar(app.store.conversations, charId)
        case Some(conv) => Navigate(app.(currentChat := Some(conv)), "chat")
        case None =>
          var c := NewConv(ch, charId, now);
          var st := SaveMessage(app.store, c.id, Greeting(ch, lang, now)).0;
          UpsertRecords(st.conversations, c, c);
          Navigate(app.(store := SaveConversation(st, c), currentChat := Some(c)), "chat")
  }

  /** A first chat adds a conversation for the character whose message list
      is the greeting; when no list was stored under the new id, the
      greeting is the only message. */
  lemma StartChatGreets(app: App, charId: int, lang: string, now: int)
    requires app.user.Some? && FindChar(Characters(app), charId).Some?
    requires FindByChar(app.store.conversations, charId).None?
    ensures var r := StartChat(app, charId, lang, now);
      var ch := FindChar(Characters(app), charId).value;
      && r.currentChat == Some(NewConv(ch, charId, now))
      && MessagesOf(r.store, r.currentChat.value.id)
         == MessagesOf(app.store, r.currentChat.value.id) + [Greeting(ch, lang, now)]
      && (r.currentChat.value.id !in app.store.messages ==>
            MessagesOf(r.store, r.currentChat.value.id) == [Greeting(ch, lang, now)])
  {
  }

  /** Find-or-create: opening the same character's chat again, at any
      later instant, reuses the conversation and changes no saved list. */
  lemma StartChatReuses(app: App, charId: int, lang: string, now: int, later: int)
    requires app.user.Some? && FindChar(Characters(app), charId).Some?
    ensures var once := StartChat(app, charId, lang, now);
      && StartChat(once, charId, lang, later).store == once.store
      && StartChat(once, charId, lang, later).currentChat.value.charId == charId
  {
    var once := StartChat(app, charId, lang, now);
    assert FindByChar(once.store.conversations, charId).Some?;
  }

  // ---- Regenerating a reply ----

  /** The index of the last message from `sender`. */
  function LastFrom(ms: seq<ChatMessage>, sender: string): (r: Option<nat>)
    ensures r.Some? ==> r.value < |ms| && ms[r.value].sender == sender
    ensures r.Some? ==> forall j :: r.value < j < |ms| ==> ms[j].sender != sender
    ensures r.None? <==> forall j :: 0 <= j < |ms| ==> ms[j].sender != sender
  {
    if ms == [] then None
    else if ms[|ms| - 1].sender == sender then Some(|ms| - 1)
    else LastFrom(ms[..|ms| - 1], sender)
  }

  /** The index of the last bot message. */
  function LastBot(ms: seq<ChatMessage>): (r: Option<nat>)
    ensures r.Some? ==> r.value < |ms| && ms[r.value].sender == "bot"
    ensures r.Some? ==> forall j :: r.value < j < |ms| ==> ms[j].sender != "bot"
    ensures r.None? <==> forall j :: 0 <= j < |ms| ==> ms[j].sender != "bot"
  {
    LastFrom(ms, "bot")
  }

  /** The text of the last user message, or `""` when there is none. */
  function LastUserText(ms: seq<ChatMessage>): (r: string)
    ensures (forall j :: 0 <= j < |ms| ==> ms[j].sender != "user") ==> r == ""
    ensures (exists j :: 0 <= j < |ms| && ms[j].sender == "user") ==>
      exists j :: 0 <= j < |ms| && ms[j].sender == "user" && ms[j].text == r
        && forall k :: j < k < |ms| ==> ms[k].sender != "user"
  {
    match LastFrom(ms, "user")
    case None => ""
    case Some(i) => ms[i].text
  }

  /** The test `m.sender !== 'bot'`. */
  function NotBot(): ChatMessage -> bool {
    (m: ChatMessage) => m.sender != "bot"
  }

  /** The test `m.sender === 'bot'`. */
  function IsBot(): ChatMessage -> bool {
    (m: ChatMessage) => m.sender == "bot"
  }

  /** The list with its last bot message spliced out. */
  function RemoveLastBot(ms: seq<ChatMessage>): (r: seq<ChatMessage>)
    ensures LastBot(ms).None? ==> r == ms
    ensures LastBot(ms).Some? ==> |r| == |ms| - 1
    ensures LastBot(ms).Some? ==> r[..LastBot(ms).value] == ms[..LastBot(ms).value]
    ensures LastBot(ms).Some? ==> r[LastBot(ms).value..] == ms[LastBot(ms).value + 1..]
  {
    match LastBot(ms)
    case None => ms
    case Some(i) => ms[..i] + ms[i + 1..]
  }

  /** Removing the last bot message keeps every other message, in order,
      and removes exactly one bot message when there is one. */
  lemma RemoveLastBotKeeps(ms: seq<ChatMessage>)
    ensures Filter(RemoveLastBot(ms), NotBot()) == Filter(ms, NotBot())
    ensures LastBot(ms).Some? ==> |Filter(RemoveLastBot(ms), IsBot())| == |Filter(ms, IsBot())| - 1
  {
    if LastBot(ms).Some? {
      var i := LastBot(ms).value;
      var a, b := ms[..i], ms[i + 1..];
      assert ms == a + [ms[i]] + b;
      FilterSpliceRejected(a, ms[i], b, NotBot());
      FilterSpliceAccepted(a, ms[i], b, IsBot());
    }
  }

  /** The message edit `regenerateResponse` makes before asking for a new
      reply: none (`None`) with fewer than two messages or without a
      non-empty user message; otherwise the last bot message is removed. */
  function Regenerate(ms: seq<ChatMessage>): (r: Option<seq<ChatMessage>>)
    ensures r.None? <==> |ms| < 2 || LastUserText(ms) == ""
    ensures r.Some? ==> r.value == RemoveLastBot(ms)
  {
    if |ms| < 2 then None
    else if LastUserText(ms) == "" then None
    else Some(RemoveLastBot(ms))
  }

  /** `regenerateResponse()` up to the request for a new reply: nothing
      happens without an open chat, while a reply is being typed, for an
      unknown character or when `Regenerate` declines. */
  function RegenerateApp(app: App, isTyping: bool): (r: App)
    ensures app.currentChat.None? || isTyping ==> r == app
    ensures r.(store := app.store) == app
    ensures r.store.conversations == app.store.conversations && r.store.favorites == app.store.favorites
    ensures app.currentChat.Some? ==>
      forall k :: k != app.currentChat.value.id ==> MessagesOf(r.store, k) == MessagesOf(app.store, k)
    ensures r != app ==> (app.currentChat.Some? &&
      Regenerate(MessagesOf(app.store, app.currentChat.value.id)) == Some(MessagesOf(r.store, app.currentChat.value.id)))
    ensures (&& app.currentChat.Some? && !isTyping && FindChar(Characters(app), app.currentChat.value.charId).Some?
             && Regenerate(MessagesOf(app.store, app.currentChat.value.id)).Some?) ==>
      MessagesOf(r.store, app.currentChat.value.id) == Regenerate(MessagesOf(app.store, app.currentChat.value.id)).value
  {
    if app.currentChat.None? || isTyping then app
    else
      var conv := app.currentChat.value;
      if FindChar(Characters(app), conv.charId).None? then app
      else match Regenerate(MessagesOf(app.store, conv.id))
        case None => app
        case Some(filtered) => app.(store := SetMessages(app.store, conv.id, filtered))
  }

  // ---- Character list filters ----

  /** The search test: the lower-cased query occurs in the lower-cased
      name, description (or `''`) or space-joined traits (or none). */
  predicate MatchesQuery(c: SpaCharacter, q: string) {
    var lq := ToLower(q);
    || Contains(ToLower(c.name), lq)
    || Contains(ToLower(OrElse(c.description, "")), lq)
    || Contains(ToLower(Join(c.traits.GetOr([]), " ")), lq)
  }

  /** The type chips: Arabic characters have a dialect, English ones do not,
      custom ones are not the system's; any other value lets all through. */
  predicate MatchesType(c: SpaCharacter, kind: string) {
    if kind == "arabic" then !FalsyText(c.dialect)
    else if kind == "english" then FalsyText(c.dialect)
    else if kind == "custom" then c.creator != Some("System") && c.creator != Some("النظام")
    else true
  }

  predicate MatchesCategory(c: SpaCharacter, category: string) {
    category == "all" || c.category == Some(category)
  }

  /** A character is shown when it passes all three tests. */
  predicate Visible(c: SpaCharacter, q: string, kind: string, category: string) {
    MatchesQuery(c, q) && MatchesType(c, kind) && MatchesCategory(c, category)
  }

  function QueryTest(q: string): SpaCharacter -> bool {
    (c: SpaCharacter) => MatchesQuery(c, q)
  }

  function TypeTest(kind: string): SpaCharacter -> bool {
    (c: SpaCharacter) => MatchesType(c, kind)
  }

  function CategoryTest(category: string): SpaCharacter -> bool {
    (c: SpaCharacter) => MatchesCategory(c, category)
  }

  function VisibleTest(q: string, kind: string, category: string): SpaCharacter -> bool {
    (c: SpaCharacter) => Visible(c, q, kind, category)
  }

  /** The filter stages of `renderCharacters`, each applied only when its
      control is set. */
  function SearchStage(chars: seq<SpaCharacter>, q: string): seq<SpaCharacter> {
    if q != "" then Filter(chars, QueryTest(q)) else chars
  }

  function TypeStage(chars: seq<SpaCharacter>, kind: string): seq<SpaCharacter> {
    if kind == "arabic" || kind == "english" || kind == "custom" then Filter(chars, TypeTest(kind)) else chars
  }

  function CategoryStage(chars: seq<SpaCharacter>, category: string): seq<SpaCharacter> {
    if category != "all" then Filter(chars, CategoryTest(category)) else chars
  }

  function VisibleCharacters(chars: seq<SpaCharacter>, q: string, kind: string, category: string): (r: seq<SpaCharacter>)
    ensures forall c :: c in r <==> c in chars && Visible(c, q, kind, category)
  {
    var a := SearchStage(chars, q);
    var b := TypeStage(a, kind);
    assert forall c :: c in a <==> c in chars && MatchesQuery(c, q) by {
      if q == "" {
        forall c | c in chars ensures MatchesQuery(c, q) {
          EmptyIsContained(ToLower(c.name));
        }
      }
    }
    CategoryStage(b, category)
  }

  /** Each stage only drops characters: when every character passes a test,
      applying it changes nothing. */
  lemma {:induction false} SkipStage(chars: seq<SpaCharacter>, p: SpaCharacter -> bool)
    requires forall c :: p(c)
    ensures Filter(chars, p) == chars
  {
  }

  /** The three stages are one order-preserving filter by the conjunction. */
  lemma VisibleIsOneFilter(chars: seq<SpaCharacter>, q: string, kind: string, category: string)
    ensures VisibleCharacters(chars, q, kind, category) == Filter(chars, VisibleTest(q, kind, category))
  {
    var a := SearchStage(chars, q);
    var b := TypeStage(a, kind);
    var qt := QueryTest(q);
    var tt := TypeTest(kind);
    var ct := CategoryTest(category);
    if q == "" {
      forall c: SpaCharacter ensures MatchesQuery(c, q) {
        EmptyIsContained(ToLower(c.name));
      }
      SkipStage(chars, qt);
    }
    assert a == Filter(chars, qt);
    if !(kind == "arabic" || kind == "english" || kind == "custom") {
      SkipStage(a, tt);
    }
    assert b == Filter(a, tt);
    if category == "all" {
      SkipStage(b, ct);
    }
    var qtt := (c: SpaCharacter) => MatchesQuery(c, q) && MatchesType(c, kind);
    FilterFilter(chars, qt, tt, qtt);
    FilterFilter(chars, qtt, ct, VisibleTest(q, kind, category));
  }

  /** An empty search lets every character through, so the guard on the
      search box only saves work. */
  lemma EmptySearchKeepsAll(chars: seq<SpaCharacter>)
    ensures Filter(chars, QueryTest("")) == chars
  {
    forall c: SpaCharacter ensures MatchesQuery(c, "") {
      EmptyIsContained(ToLower(c.name));
    }
  }

  // ---- Form rules ----

  const DefaultAvatar := "\U{1F60A}"
  const AnonymousCreator := "مجهول"

  /** Login: the trimmed user name must not be empty and the password must
      have at least six characters. */
  function LoginForm(user: string, pass: string, now: int): (r: Option<SpaUser>)
    ensures r.Some? <==> Trim(user) != "" && |pass| >= 6
    ensures r.Some? ==> r.value.username == Trim(user) && r.value.email == Trim(user) + "@lordai.com"
  {
    var u := Trim(user);
    if u != "" && |pass| >= 6 then Some(SpaUser(u, u + "@lordai.com", now)) else None
  }

  /** White space around the user name makes no difference. */
  lemma LoginIgnoresSpaces(user: string, pass: string, now: int)
    ensures LoginForm(Trim(user), pass, now) == LoginForm(user, pass, now)
  {
    TrimIdempotent(user);
  }

  /** Register: a trimmed user name of at least three characters, a
      non-empty trimmed e-mail and a password of at least six. */
  function RegisterForm(user: string, email: string, pass: string, now: int): (r: Option<SpaUser>)
    ensures r.Some? <==> |Trim(user)| >= 3 && Trim(email) != "" && |pass| >= 6
    ensures r.Some? ==> r.value.username == Trim(user) && r.value.email == Trim(email)
  {
    var u := Trim(user);
    var e := Trim(email);
    if |u| >= 3 && e != "" && |pass| >= 6 then Some(SpaUser(u, e, now)) else None
  }

  /** Every name register accepts is one login accepts too. */
  lemma RegisteredCanLogIn(user: string, email: string, pass: string, now: int)
    requires RegisterForm(user, email, pass, now).Some?
    ensures LoginForm(user, pass, now).Some?
  {
  }

  /** Signing in stores the user and a token made from the instant. */
  function SaveUser(app: App, u: SpaUser, now: int): (r: App)
    ensures r.user == Some(u) && r.token == Some("token_" + IdString(now))
    ensures r.(user := app.user, token := app.token) == app
  {
    app.(user := Some(u), token := Some("token_" + IdString(now)))
  }

  /** `value.split(',').map(t => t.trim()).filter(Boolean)`: the trimmed
      non-empty pieces between commas, in order. */
  function CommaList(s: string): (r: seq<string>)
    ensures forall x :: x in r ==> x != "" && ',' !in x && Trim(x) == x
    ensures forall x :: x in r <==> x != "" && exists p :: p in Split(s, ',') && Trim(p) == x
    ensures r == Filter(TrimAll(Split(s, ',')), NonEmptyText())
  {
    Pieces(s, ',')
  }

  /** A piece that a comma list can hold: non-empty, no comma, no white
      space at either end. */
  predicate ListItem(s: string) {
    s != "" && ',' !in s && !IsSpace(s[0]) && !IsSpace(s[|s| - 1])
  }

  lemma {:induction false} NonEmptyKeeps(parts: seq<string>)
    requires forall i :: 0 <= i < |parts| ==> parts[i] != ""
    ensures NonEmpty(parts) == parts
    decreases |parts|
  {
    if parts != [] {
      NonEmptyKeeps(parts[1..]);
    }
  }

  lemma TrimAllKeeps(items: seq<string>)
    requires forall i :: 0 <= i < |items| ==> ListItem(items[i])
    ensures TrimAll(items) == items
  {
    forall i | 0 <= i < |items| ensures Trim(items[i]) == items[i] {
      TrimKeepsInner(items[i]);
    }
  }

  lemma CommaListEmpty()
    ensures CommaList("") == []
  {
    assert Split("", ',') == [""];
  }

  /** Round trip: writing list items joined by commas and reading them back
      gives the items. */
  lemma CommaListJoin(items: seq<string>)
    requires forall i :: 0 <= i < |items| ==> ListItem(items[i])
    ensures CommaList(Join(items, ",")) == items
  {
    if items == [] {
      CommaListEmpty();
    } else {
      assert "," == [','];
      SplitJoin(items, ',');
      TrimAllKeeps(items);
      NonEmptyKeeps(items);
    }
  }

  /** The create-character form as the page reads it. */
  datatype CreateFields = CreateFields(
    name: string, description: string, avatar: string, personality: string,
    dialect: string, category: string, traits: string, skills: string,
    greeting: string, prompt: Option<string>)

  /** The create-character form: name and description are required after
      trimming; traits and skills become comma lists; the avatar, greeting
      and prompt have fallbacks. Id and creator are set when saving. */
  function CreateForm(f: CreateFields, lang: string): (r: Option<SpaCharacter>)
    ensures r.Some? <==> Trim(f.name) != "" && Trim(f.description) != ""
    ensures r.Some? ==> && r.value.name == Trim(f.name) && r.value.description == Some(Trim(f.description))
                        && r.value.traits == Some(CommaList(f.traits)) && r.value.skills == CommaList(f.skills)
                        && r.value.isPublic
    ensures r.Some? ==> r.value.avatar == (if f.avatar == "" then DefaultAvatar else f.avatar)
    ensures r.Some? ==> r.value.dialect == (if f.dialect == "" then None else Some(f.dialect))
    ensures r.Some? && Trim(f.greeting) != "" ==> r.value.greeting == Some(Trim(f.greeting))
    ensures r.Some? && Trim(f.greeting) == "" ==> (r.value.greeting ==
      Some((if lang == "ar" then "مرحباً! أنا" else "Hello! I am") + " " + Trim(f.name) + "!"))
  {
    var name := Trim(f.name);
    var desc := Trim(f.description);
    if name != "" && desc != "" then
      var greeting := Trim(f.greeting);
      var intro := if lang == "ar" then "مرحباً! أنا" else "Hello! I am";
      var prompt := match f.prompt case Some(p) => Trim(p) case None => "";
      Some(SpaCharacter(
        0, name, Some(desc), if f.avatar == "" then DefaultAvatar else f.avatar,
        f.personality, Some(CommaList(f.traits)), CommaList(f.skills),
        if f.dialect == "" then None else Some(f.dialect), None, Some(f.category),
        Some(if greeting != "" then greeting else intro + " " + name + "!"), prompt, true))
    else None
  }

  /** `saveCustomCharacter(ch)` at instant `now`: the character gets the
      instant as id, the user name (or "unknown") as creator, is made
      public and is appended to the custom characters. */
  function SaveCustomCharacter(app: App, ch: SpaCharacter, now: int): (r: (App, SpaCharacter))
    ensures r.1.id == now && r.1.isPublic
    ensures r.1.creator == Some(if app.user.Some? && app.user.value.username != "" then app.user.value.username else AnonymousCreator)
    ensures r.1.(id := ch.id, creator := ch.creator, isPublic := ch.isPublic) == ch
    ensures r.0.custom == app.custom + [r.1]
    ensures Characters(r.0) == Characters(app) + [r.1]
    ensures r.0.(custom := app.custom) == app
  {
    var creator := if app.user.Some? && app.user.value.username != "" then app.user.value.username else AnonymousCreator;
    var saved := ch.(id := now, creator := Some(creator), isPublic := true);
    (app.(custom := app.custom + [saved]), saved)
  }

  /** When no character had the instant as id, the saved character is the
      one found under it. */
  lemma SavedCharacterFound(app: App, ch: SpaCharacter, now: int)
    requires forall c :: c in Characters(app) ==> c.id != now
    ensures FindChar(Characters(SaveCustomCharacter(app, ch, now).0), now) == Some(SaveCustomCharacter(app, ch, now).1)
  {
    var r := SaveCustomCharacter(app, ch, now);
    var cs := Characters(r.0);
    assert cs == Characters(app) + [r.1];
    assert cs[|cs| - 1].id == now;
    var i := CharIndex(cs, now).value;
    assert i == |cs| - 1;
  }
}

=== FILE: spa_store.dfy ===
/** The browser application's saved state: conversations, the message list
    of each conversation and the favourite characters, each kept under its
    own storage key and read back as an empty list when the key is
    missing. */
module SpaStore {
  import opened Common
  import opened Seqs

  /** One chat message (`{id, sender, text, timestamp}`). */
  datatype ChatMessage = ChatMessage(id: string, sender: string, text: string, timestamp: int)

  /** One conversation record of the conversation list. */
  datatype Conv = Conv(
    id: string, charId: int, charName: string, charAvatar: string,
    startedAt: int, lastMessage: string, lastMessageAt: int)

  /** The stored lists: the conversation list, the message list of each
      conversation id (the key `lordai_messages_<id>`) and the favourite
      character ids. */
  datatype Store = Store(
    conversations: seq<Conv>,
    messages: map<string, seq<ChatMessage>>,
    favorites: seq<int>)

  /** `getMessages(id)`: the stored list, or `[]` when there is none. */
  function MessagesOf(st: Store, id: string): (r: seq<ChatMessage>)
    ensures id !in st.messages ==> r == []
    ensures id in st.messages ==> r == st.messages[id]
  {
    if id in st.messages then st.messages[id] else []
  }

  // ---- Conversation upsert and delete ----

  /** `cs.findIndex(x => x.id === id)`, with `None` for `-1`. */
  function FindConv(cs: seq<Conv>, id: string): (r: Option<nat>)
    ensures r.Some? ==> r.value < |cs| && cs[r.value].id == id
    ensures r.Some? ==> forall j :: 0 <= j < r.value ==> cs[j].id != id
    ensures r.None? <==> forall j :: 0 <= j < |cs| ==> cs[j].id != id
  {
    FirstIndex(cs, SameConv(id))
  }

  /** `saveConversation(c)` on the list: the first record with the same id
      is replaced in place, otherwise `c` is appended. */
  function Upsert(cs: seq<Conv>, c: Conv): (r: seq<Conv>)
    ensures FindConv(cs, c.id).None? ==> r == cs + [c]
    ensures FindConv(cs, c.id).Some? ==> |r| == |cs|
    ensures FindConv(cs, c.id).Some? ==> forall j :: 0 <= j < |cs| ==>
      r[j] == if j == FindConv(cs, c.id).value then c else cs[j]
  {
    match FindConv(cs, c.id)
    case Some(i) => cs[i := c]
    case None => cs + [c]
  }

  /** After an upsert the record found under `c.id` is `c`. */
  lemma UpsertFinds(cs: seq<Conv>, c: Conv)
    ensures FindConv(Upsert(cs, c), c.id).Some?
    ensures Upsert(cs, c)[FindConv(Upsert(cs, c), c.id).value] == c
  {
    var r := Upsert(cs, c);
    match FindConv(cs, c.id)
    case Some(i) =>
      assert r[i].id == c.id;
    case None =>
      assert r[|cs|] == c;
  }

  /** Saving the same record twice is saving it once. */
  lemma UpsertIdempotent(cs: seq<Conv>, c: Conv)
    ensures Upsert(Upsert(cs, c), c) == Upsert(cs, c)
  {
    var r := Upsert(cs, c);
    UpsertFinds(cs, c);
    var k := FindConv(r, c.id).value;
    assert r[k := c] == r;
  }

  /** No record is lost and none but `c` is added. */
  lemma UpsertRecords(cs: seq<Conv>, c: Conv, x: Conv)
    ensures x in Upsert(cs, c) ==> x in cs || x == c
    ensures x in cs && x.id != c.id ==> x in Upsert(cs, c)
    ensures c in Upsert(cs, c)
  {
    UpsertFinds(cs, c);
    var r := Upsert(cs, c);
    if x in r {
      var j :| 0 <= j < |r| && r[j] == x;
      if FindConv(cs, c.id).Some? && j != FindConv(cs, c.id).value {
        assert cs[j] == x;
      }
    }
    if x in cs && x.id != c.id {
      var j :| 0 <= j < |cs| && cs[j] == x;
      assert r[j] == x;
    }
  }

  function SaveConversation(st: Store, c: Conv): (r: Store)
    ensures r.messages == st.messages && r.favorites == st.favorites
    ensures r.conversations == Upsert(st.conversations, c)
  {
    st.(conversations := Upsert(st.conversations, c))
  }

  /** The test `c.id !== id`. */
  function OtherConv(id: string): Conv -> bool {
    (c: Conv) => c.id != id
  }

  /** `deleteConversation(id)`: every record with that id is removed and
      its message list is dropped; everything else stays. */
  function DeleteConversation(st: Store, id: string): (r: Store)
    ensures forall c :: c in r.conversations <==> c in st.conversations && c.id != id
    ensures r.conversations == Filter(st.conversations, OtherConv(id))
    ensures id !in r.messages && MessagesOf(r, id) == []
    ensures forall k :: k != id ==> MessagesOf(r, k) == MessagesOf(st, k)
    ensures r.favorites == st.favorites
  {
    Store(Filter(st.conversations, OtherConv(id)), st.messages - {id}, st.favorites)
  }

  /** Deleting what was just saved leaves the list as deleting alone would. */
  lemma {:induction false} DeleteAfterUpsert(cs: seq<Conv>, c: Conv)
    ensures Filter(Upsert(cs, c), OtherConv(c.id)) == Filter(cs, OtherConv(c.id))
  {
    match FindConv(cs, c.id)
    case None =>
      FilterAppend(cs, [c], OtherConv(c.id));
    case Some(i) =>
      var r := Upsert(cs, c);
      assert cs == cs[..i] + [cs[i]] + cs[i + 1..];
      assert r == cs[..i] + [c] + cs[i + 1..];
      FilterAppend(cs[..i] + [cs[i]], cs[i + 1..], OtherConv(c.id));
      FilterAppend(cs[..i], [cs[i]], OtherConv(c.id));
      FilterAppend(cs[..i] + [c], cs[i + 1..], OtherConv(c.id));
      FilterAppend(cs[..i], [c], OtherConv(c.id));
  }

  lemma DeleteAfterSave(st: Store, c: Conv)
    ensures DeleteConversation(SaveConversation(st, c), c.id) == DeleteConversation(st, c.id)
  {
    DeleteAfterUpsert(st.conversations, c);
  }

  // ---- Messages ----

  /** `saveMessage(id, m)`: `m` is appended to the conversation's list,
      and the extended list is returned. */
  function SaveMessage(st: Store, id: string, m: ChatMessage): (r: (Store, seq<ChatMessage>))
    ensures MessagesOf(r.0, id) == MessagesOf(st, id) + [m]
    ensures r.1 == MessagesOf(r.0, id)
    ensures forall k :: k != id ==> MessagesOf(r.0, k) == MessagesOf(st, k)
    ensures r.0.conversations == st.conversations && r.0.favorites == st.favorites
  {
    var ms := MessagesOf(st, id) + [m];
    (SetMessages(st, id, ms), ms)
  }

  /** `localStorage.setItem('lordai_messages_' + id, ...)`: stores one
      conversation's list and leaves the others. */
  function SetMessages(st: Store, id: string, ms: seq<ChatMessage>): (r: Store)
    ensures MessagesOf(r, id) == ms
    ensures forall k :: k != id ==> MessagesOf(r, k) == MessagesOf(st, k)
    ensures r.conversations == st.conversations && r.favorites == st.favorites
  {
    st.(messages := st.messages[id := ms])
  }

  /** The test `c.id === id`. */
  function SameConv(id: string): Conv -> bool {
    (c: Conv) => c.id == id
  }

  /** The number of messages of the conversations in `cs`, each
      conversation counted as often as it is listed. */
  function MessagesIn(cs: seq<Conv>, st: Store): nat {
    if cs == [] then 0 else |MessagesOf(st, cs[0].id)| + MessagesIn(cs[1..], st)
  }

  /** `getTotalMessages()`. */
  function TotalMessages(st: Store): nat {
    MessagesIn(st.conversations, st)
  }

  lemma {:induction false} MessagesInGrows(cs: seq<Conv>, st: Store, id: string, m: ChatMessage)
    ensures MessagesIn(cs, SaveMessage(st, id, m).0) == MessagesIn(cs, st) + |Filter(cs, SameConv(id))|
    decreases |cs|
  {
    if cs != [] {
      MessagesInGrows(cs[1..], st, id, m);
    }
  }

  /** Saving a message raises the total by one for every listed
      conversation with that id: by exactly one when the id is listed once,
      and not at all for a conversation that is not listed. */
  lemma SaveMessageTotal(st: Store, id: string, m: ChatMessage)
    ensures TotalMessages(SaveMessage(st, id, m).0) == TotalMessages(st) + |Filter(st.conversations, SameConv(id))|
  {
    MessagesInGrows(st.conversations, st, id, m);
  }

  // ---- Favourites ----

  /** `favs.indexOf(x)`, with `None` for `-1`. */
  function Position(favs: seq<int>, x: int): (r: Option<nat>)
    ensures r.Some? ==> r.value < |favs| && favs[r.value] == x && x !in favs[..r.value]
    ensures r.None? <==> x !in favs
  {
    if favs == [] then None
    else if favs[0] == x then Some(0)
    else match Position(favs[1..], x)
      case None => None
      case Some(i) =>
        assert favs[..i + 1] == [favs[0]] + favs[1..][..i];
        Some(i + 1)
  }

  /** `toggleFavorite(x)` on the list: the first occurrence is spliced out
      when there is one, otherwise `x` is appended. */
  function Toggle(favs: seq<int>, x: int): (r: seq<int>)
    ensures x !in favs ==> r == favs + [x]
    ensures x in favs ==> |r| == |favs| - 1 && multiset(r) == multiset(favs) - multiset{x}
    ensures x in favs ==>
      exists i :: 0 <= i < |favs| && favs[i] == x && x !in favs[..i] && r == favs[..i] + favs[i + 1..]
  {
    match Position(favs, x)
    case Some(i) =>
      assert favs == favs[..i] + [x] + favs[i + 1..];
      favs[..i] + favs[i + 1..]
    case None => favs + [x]
  }

  /** No id is listed twice. */
  ghost predicate Distinct(favs: seq<int>) {
    forall i, j :: 0 <= i < j < |favs| ==> favs[i] != favs[j]
  }

  /** On a list without repeats toggling flips membership of `x` only, and
      the list stays without repeats. */
  lemma ToggleFlips(favs: seq<int>, x: int, y: int)
    requires Distinct(favs)
    ensures Distinct(Toggle(favs, x))
    ensures x in Toggle(favs, x) <==> x !in favs
    ensures y != x ==> (y in Toggle(favs, x) <==> y in favs)
  {
    var r := Toggle(favs, x);
    match Position(favs, x)
    case None =>
      assert r == favs + [x];
    case Some(i) =>
      assert r == favs[..i] + favs[i + 1..];
      assert forall a :: 0 <= a < |r| ==> r[a] == favs[if a < i then a else a + 1];
      if y != x && y in favs {
        var b :| 0 <= b < |favs| && favs[b] == y;
        assert r[if b < i then b else b - 1] == y;
      }
  }

  /** Toggling an absent id twice restores the list. */
  lemma ToggleTwiceAbsent(favs: seq<int>, x: int)
    requires x !in favs
    ensures Toggle(Toggle(favs, x), x) == favs
  {
    var r := favs + [x];
    assert Position(r, x) == Some(|favs|);
    assert r[..|favs|] == favs;
  }

  /** Toggling a present id twice keeps the same ids but moves it to the
      end: the list is restored only when it was already last. */
  lemma ToggleTwicePresent(favs: seq<int>, x: int)
    requires Distinct(favs) && x in favs
    ensures multiset(Toggle(Toggle(favs, x), x)) == multiset(favs)
    ensures Toggle(Toggle(favs, x), x) == favs <==> favs[|favs| - 1] == x
  {
    var i := Position(favs, x).value;
    var r := Toggle(favs, x);
    ToggleFlips(favs, x, x);
    assert Toggle(r, x) == r + [x];
    assert multiset(r + [x]) == multiset(r) + multiset{x};
    if favs[|favs| - 1] == x {
      assert i == |favs| - 1;
      assert r == favs[..i];
      assert r + [x] == favs;
    }
  }
}

=== FILE: text.dfy ===
/** The JavaScript string operations the application relies on:
    `trim`, `split` on one character, `join`, `toLowerCase`, `includes`,
    `startsWith`, `Number.prototype.toString` and `parseInt`. */
module Text {
  import opened Common
  import opened Seqs

  /** The characters JavaScript's `trim` and the regular expression `\s`
      treat as white space (WhiteSpace and LineTerminator of ECMAScript). */
  predicate IsSpace(c: char) {
    || c in {' ', '\t', '\n', '\r', '\U{B}', '\U{C}', '\U{A0}', '\U{1680}'}
    || c in {'\U{2028}', '\U{2029}', '\U{202F}', '\U{205F}', '\U{3000}', '\U{FEFF}'}
    || ('\U{2000}' <= c <= '\U{200A}')
  }

  /** Number of white-space characters at the start of `s`. */
  function LeadingSpaces(s: string): (k: nat)
    ensures k <= |s|
    ensures forall i :: 0 <= i < k ==> IsSpace(s[i])
    ensures k < |s| ==> !IsSpace(s[k])
  {
    if s == [] || !IsSpace(s[0]) then 0 else 1 + LeadingSpaces(s[1..])
  }

  /** Number of white-space characters at the end of `s`. */
  function TrailingSpaces(s: string): (k: nat)
    ensures k <= |s|
    ensures forall i :: |s| - k <= i < |s| ==> IsSpace(s[i])
    ensures k < |s| ==> !IsSpace(s[|s| - k - 1])
  {
    if s == [] || !IsSpace(s[|s| - 1]) then 0 else 1 + TrailingSpaces(s[..|s| - 1])
  }

  /** `String.prototype.trim`. */
  function Trim(s: string): (r: string)
    ensures r == [] || (!IsSpace(r[0]) && !IsSpace(r[|r| - 1]))
    ensures |r| <= |s| - LeadingSpaces(s)
    ensures r == s[LeadingSpaces(s)..][..|r|]
    ensures forall i :: 0 <= i < |s| && !IsSpace(s[i]) ==> r != []
    ensures forall i :: 0 <= i < |s| && (i < LeadingSpaces(s) || LeadingSpaces(s) + |r| <= i) ==> IsSpace(s[i])
    ensures |r| == |s| - LeadingSpaces(s) - TrailingSpaces(s[LeadingSpaces(s)..])
  {
    var a := s[LeadingSpaces(s)..];
    a[..|a| - TrailingSpaces(a)]
  }

  lemma TrimIdempotent(s: string)
    ensures Trim(Trim(s)) == Trim(s)
  {
    var r := Trim(s);
    if r != [] {
      assert LeadingSpaces(r) == 0;
      assert TrailingSpaces(r) == 0;
    }
  }

  /** Trimming removes nothing from a string without surrounding white space. */
  lemma TrimKeepsInner(s: string)
    requires s == [] || (!IsSpace(s[0]) && !IsSpace(s[|s| - 1]))
    ensures Trim(s) == s
  {
    if s != [] {
      assert LeadingSpaces(s) == 0;
      assert TrailingSpaces(s) == 0;
    }
  }

  /** Index of the first occurrence of `c` in `s`. */
  function IndexOf(s: string, c: char): (r: Option<nat>)
    ensures r.Some? ==> r.value < |s| && s[r.value] == c && c !in s[..r.value]
    ensures r.None? ==> c !in s
  {
    if s == [] then None
    else if s[0] == c then Some(0)
    else match IndexOf(s[1..], c)
      case None => None
      case Some(i) => Some(i + 1)
  }

  /** `parts.join(glue)`. */
  function Join(parts: seq<string>, glue: string): (r: string)
  {
    if |parts| == 0 then ""
    else if |parts| == 1 then parts[0]
    else parts[0] + glue + Join(parts[1..], glue)
  }

  /** `s.split(sep)` for a one-character separator: the pieces between
      separators, always at least one (possibly empty) piece. */
  function Split(s: string, sep: char): (r: seq<string>)
    ensures |r| >= 1
    ensures forall i :: 0 <= i < |r| ==> sep !in r[i]
    ensures Join(r, [sep]) == s
    decreases |s|
  {
    match IndexOf(s, sep)
    case None => [s]
    case Some(i) =>
      var rest := Split(s[i + 1..], sep);
      assert s == s[..i] + [sep] + s[i + 1..];
      [s[..i]] + rest
  }

  /** Splitting a joined list of separator-free pieces gives the pieces back. */
  lemma {:induction false} SplitJoin(parts: seq<string>, sep: char)
    requires |parts| >= 1
    requires forall i :: 0 <= i < |parts| ==> sep !in parts[i]
    ensures Split(Join(parts, [sep]), sep) == parts
    decreases |parts|
  {
    if |parts| == 1 {
      assert IndexOf(parts[0], sep).None?;
    } else {
      var tail := Join(parts[1..], [sep]);
      var s := parts[0] + [sep] + tail;
      assert Join(parts, [sep]) == s;
      IndexOfConcat(parts[0], sep, tail);
      assert s[|parts[0]| + 1..] == tail;
      assert s[..|parts[0]|] == parts[0];
      SplitJoin(parts[1..], sep);
      assert [parts[0]] + parts[1..] == parts;
    }
  }

  lemma {:induction false} IndexOfConcat(a: string, c: char, b: string)
    requires c !in a
    ensures IndexOf(a + [c] + b, c) == Some(|a|)
    decreases |a|
  {
    if a != [] {
      assert (a + [c] + b)[1..] == a[1..] + [c] + b;
      IndexOfConcat(a[1..], c, b);
    }
  }

  /** `.map(t => t.trim())` over a list of strings. */
  function TrimAll(parts: seq<string>): (r: seq<string>)
    ensures |r| == |parts|
    ensures forall i :: 0 <= i < |r| ==> r[i] == Trim(parts[i])
  {
    seq(|parts|, i requires 0 <= i < |parts| => Trim(parts[i]))
  }

  function NonEmptyText(): string -> bool {
    (x: string) => x != ""
  }

  /** `.filter(Boolean)` over a list of strings: drops the empty ones and
      keeps the others, in order. */
  function NonEmpty(parts: seq<string>): (r: seq<string>)
    ensures |r| <= |parts|
    ensures forall i :: 0 <= i < |r| ==> r[i] != ""
    ensures forall x :: x in r <==> x in parts && x != ""
    ensures r == Filter(parts, NonEmptyText())
  {
    if parts == [] then []
    else (if parts[0] == "" then [] else [parts[0]]) + NonEmpty(parts[1..])
  }

  /** `s.split(sep).map(t => t.trim())` with the empty pieces dropped: the
      trimmed non-empty pieces of `s`, in order. */
  function Pieces(s: string, sep: char): (r: seq<string>)
    ensures forall x :: x in r <==> x != "" && exists p :: p in Split(s, sep) && Trim(p) == x
    ensures forall i :: 0 <= i < |r| ==> sep !in r[i] && Trim(r[i]) == r[i]
    ensures r == Filter(TrimAll(Split(s, sep)), NonEmptyText())
  {
    var trimmed := TrimAll(Split(s, sep));
    TrimAllMembers(Split(s, sep));
    TrimAllClean(Split(s, sep), sep);
    var r := NonEmpty(trimmed);
    assert forall i :: 0 <= i < |r| ==> r[i] in trimmed;
    r
  }

  /** The trimmed pieces are exactly the trimmings of the pieces. */
  lemma TrimAllMembers(parts: seq<string>)
    ensures forall x :: x in TrimAll(parts) <==> exists p :: p in parts && Trim(p) == x
  {
    var trimmed := TrimAll(parts);
    forall x ensures x in trimmed <==> exists p :: p in parts && Trim(p) == x {
      if x in trimmed {
        var i :| 0 <= i < |trimmed| && trimmed[i] == x;
        assert parts[i] in parts;
      }
      if p :| p in parts && Trim(p) == x {
        var i :| 0 <= i < |parts| && parts[i] == p;
        assert trimmed[i] == x;
      }
    }
  }

  /** Trimming pieces free of `sep` gives trimmed pieces free of `sep`. */
  lemma TrimAllClean(parts: seq<string>, sep: char)
    requires forall i :: 0 <= i < |parts| ==> sep !in parts[i]
    ensures forall x :: x in TrimAll(parts) ==> sep !in x && Trim(x) == x
  {
    var trimmed := TrimAll(parts);
    forall x | x in trimmed ensures sep !in x && Trim(x) == x {
      var i :| 0 <= i < |trimmed| && trimmed[i] == x;
      TrimIdempotent(parts[i]);
      TrimKeepsOut(parts[i], sep);
    }
  }

  /** ASCII `toLowerCase`; letters outside A-Z are left as they are. */
  function LowerChar(c: char): (r: char)
    ensures 'A' <= c <= 'Z' ==> r as int == c as int + 32
    ensures !('A' <= c <= 'Z') ==> r == c
  {
    if 'A' <= c <= 'Z' then (c as int + 32) as char else c
  }

  function ToLower(s: string): (r: string)
    ensures |r| == |s|
    ensures forall i :: 0 <= i < |s| ==> r[i] == LowerChar(s[i])
  {
    seq(|s|, i requires 0 <= i < |s| => LowerChar(s[i]))
  }

  /** `s.includes(sub)`: `sub` occurs somewhere in `s`. */
  function Contains(s: string, sub: string): (r: bool)
    ensures r <==> exists i :: 0 <= i <= |s| - |sub| && sub <= s[i..]
  {
    if sub <= s then (assert sub <= s[0..]; true)
    else if s == [] then false
    else
      var r := Contains(s[1..], sub);
      assert forall i :: 1 <= i <= |s| ==> s[i..] == s[1..][i - 1..];
      assert r ==> exists i :: 0 <= i <= |s| - |sub| && sub <= s[i..] by {
        if r {
          var j :| 0 <= j <= |s[1..]| - |sub| && sub <= s[1..][j..];
          assert sub <= s[j + 1..];
        }
      }
      r
  }

  lemma EmptyIsContained(s: string)
    ensures Contains(s, "")
  {
  }

  /** `s.startsWith(prefix)`. */
  predicate StartsWith(s: string, prefix: string) {
    prefix <= s
  }

  predicate IsDigit(c: char) {
    '0' <= c <= '9'
  }

  function DigitChar(d: nat): (c: char)
    requires d < 10
    ensures IsDigit(c)
  {
    ('0' as int + d) as char
  }

  function DigitValue(c: char): (d: nat)
    requires IsDigit(c)
    ensures d < 10
  {
    c as int - '0' as int
  }

  /** `n.toString()` for a non-negative integer: its decimal digits. */
  function DecimalString(n: nat): (r: string)
    ensures |r| >= 1
    ensures forall i :: 0 <= i < |r| ==> IsDigit(r[i])
    ensures ValueOf(r) == n
  {
    if n < 10 then [DigitChar(n)]
    else
      var r := DecimalString(n / 10) + [DigitChar(n % 10)];
      assert r[..|r| - 1] == DecimalString(n / 10);
      r
  }

  /** The number a string of decimal digits denotes. */
  function ValueOf(digits: string): nat
    requires forall i :: 0 <= i < |digits| ==> IsDigit(digits[i])
  {
    if digits == [] then 0
    else ValueOf(digits[..|digits| - 1]) * 10 + DigitValue(digits[|digits| - 1])
  }

  /** Length of the longest prefix of `s` made of decimal digits. */
  function DigitPrefix(s: string): (k: nat)
    ensures k <= |s|
    ensures forall i :: 0 <= i < k ==> IsDigit(s[i])
    ensures k < |s| ==> !IsDigit(s[k])
  {
    if s == [] || !IsDigit(s[0]) then 0 else 1 + DigitPrefix(s[1..])
  }

  predicate IsHexDigit(c: char) {
    IsDigit(c) || 'a' <= c <= 'f' || 'A' <= c <= 'F'
  }

  function HexDigitValue(c: char): (d: nat)
    requires IsHexDigit(c)
    ensures d < 16
    ensures IsDigit(c) ==> d == DigitValue(c)
  {
    if IsDigit(c) then DigitValue(c)
    else if 'a' <= c <= 'f' then c as int - 'a' as int + 10
    else c as int - 'A' as int + 10
  }

  /** The number a string of hexadecimal digits denotes. */
  function HexValueOf(digits: string): nat
    requires forall i :: 0 <= i < |digits| ==> IsHexDigit(digits[i])
  {
    if digits == [] then 0
    else HexValueOf(digits[..|digits| - 1]) * 16 + HexDigitValue(digits[|digits| - 1])
  }

  /** Length of the longest prefix of `s` made of hexadecimal digits. */
  function HexPrefix(s: string): (k: nat)
    ensures k <= |s|
    ensures forall i :: 0 <= i < k ==> IsHexDigit(s[i])
    ensures k < |s| ==> !IsHexDigit(s[k])
  {
    if s == [] || !IsHexDigit(s[0]) then 0 else 1 + HexPrefix(s[1..])
  }

  /** Without a radix, `parseInt` reads text starting `0x` or `0X` in base 16. */
  predicate HasHexPrefix(u: string) {
    |u| >= 2 && u[0] == '0' && (u[1] == 'x' || u[1] == 'X')
  }

  /** `parseInt(s)` with no radix: leading white space is skipped, an
      optional sign is read, then `0x`/`0X` selects base 16 and otherwise
      base 10, and the longest run of digits of that base is the value; no
      digits gives NaN, written `None`. */
  function ParseInt(s: string): (r: Option<int>)
    ensures var u := Unsigned(s[LeadingSpaces(s)..]);
      r.None? <==> if HasHexPrefix(u) then HexPrefix(u[2..]) == 0 else DigitPrefix(u) == 0
    ensures var t := s[LeadingSpaces(s)..]; var u := Unsigned(t);
      r.Some? && !HasHexPrefix(u) ==> r.value == Signed(t, ValueOf(u[..DigitPrefix(u)]))
    ensures var t := s[LeadingSpaces(s)..]; var u := Unsigned(t);
      r.Some? && HasHexPrefix(u) ==> r.value == Signed(t, HexValueOf(u[2..][..HexPrefix(u[2..])]))
  {
    var t := s[LeadingSpaces(s)..];
    var u := Unsigned(t);
    if HasHexPrefix(u) then
      var k := HexPrefix(u[2..]);
      if k == 0 then None else Some(Signed(t, HexValueOf(u[2..][..k])))
    else
      var k := DigitPrefix(u);
      if k == 0 then None else Some(Signed(t, ValueOf(u[..k])))
  }

  /** The text after an optional leading sign. */
  function Unsigned(t: string): string {
    if t != [] && (t[0] == '+' || t[0] == '-') then t[1..] else t
  }

  /** `v` with the sign `t` starts with. */
  function Signed(t: string, v: nat): int {
    var w: int := v;
    if t != [] && t[0] == '-' then -w else w
  }

  /** `parseInt("0x1A")` reads base 16: it is 26. */
  lemma HexExample()
    ensures ParseInt("0x1A") == Some(26)
  {
    var u := "0x1A";
    assert LeadingSpaces(u) == 0 && u[0..] == u && Unsigned(u) == u;
    assert HasHexPrefix(u) && u[2..] == "1A";
    assert HexPrefix("1A") == 2 by {
      assert "1A"[1..] == "A" && "A"[1..] == "";
    }
    assert "1A"[..2] == "1A" && "1A"[..1] == "1";
    assert HexValueOf("1") == 1 by {
      assert "1"[..0] == "";
    }
  }

  /** The sign comes before the prefix: `parseInt(" -0Xff")` is -255. */
  lemma SignedHexExample()
    ensures ParseInt(" -0Xff") == Some(-255)
  {
    var s := " -0Xff";
    assert LeadingSpaces(s) == 1 by {
      assert s[1..] == "-0Xff";
    }
    assert s[1..] == "-0Xff" && Unsigned("-0Xff") == "0Xff";
    assert HasHexPrefix("0Xff") && "0Xff"[2..] == "ff";
    assert HexPrefix("ff") == 2 by {
      assert "ff"[1..] == "f" && "f"[1..] == "";
    }
    assert "ff"[..2] == "ff" && "ff"[..1] == "f";
    assert HexValueOf("f") == 15 by {
      assert "f"[..0] == "";
    }
  }

  /** A bare prefix has no digits: `parseInt("0x")` is NaN. */
  lemma BareHexPrefixExample()
    ensures ParseInt("0x") == None
  {
    var u := "0x";
    assert LeadingSpaces(u) == 0 && u[0..] == u && Unsigned(u) == u;
    assert HasHexPrefix(u) && u[2..] == "";
  }

  /** Only `0x` switches base: `parseInt("012")` is 12, not octal. */
  lemma LeadingZeroExample()
    ensures ParseInt("012") == Some(12)
  {
    var u := "012";
    assert LeadingSpaces(u) == 0 && u[0..] == u && Unsigned(u) == u;
    assert !HasHexPrefix(u);
    assert DigitPrefix(u) == 3 by {
      assert u[1..] == "12" && "12"[1..] == "2" && "2"[1..] == "";
    }
    assert u[..3] == u && u[..2] == "01" && "01"[..1] == "0" && "0"[..0] == "";
  }

  /** The decimal text of a number parses back to that number. */
  lemma ParseDecimal(n: nat)
    ensures ParseInt(DecimalString(n)) == Some(n)
  {
    var d := DecimalString(n);
    assert LeadingSpaces(d) == 0;
    assert d[0..] == d;
    assert Unsigned(d) == d;
    assert !HasHexPrefix(d) by {
      if |d| >= 2 {
        assert IsDigit(d[1]);
      }
    }
    DigitPrefixAll(d);
    assert d[..|d|] == d;
  }

  lemma {:induction false} DigitPrefixAll(s: string)
    requires forall i :: 0 <= i < |s| ==> IsDigit(s[i])
    ensures DigitPrefix(s) == |s|
    decreases |s|
  {
    if s != [] {
      DigitPrefixAll(s[1..]);
    }
  }

  /** The decimal text of a number determines the number. */
  lemma DecimalInjective(m: nat, n: nat)
    requires DecimalString(m) == DecimalString(n)
    ensures m == n
  {
    assert ValueOf(DecimalString(m)) == m;
  }

  /** The maximal runs of non-white-space characters of `s`, in order.
      These are the non-empty results of `s.split(/\s+/)`. */
  function Words(s: string): (r: seq<string>)
    ensures forall i :: 0 <= i < |r| ==> r[i] != [] && forall j :: 0 <= j < |r[i]| ==> !IsSpace(r[i][j])
    decreases |s|
  {
    var t := s[LeadingSpaces(s)..];
    if t == [] then []
    else
      var k := WordLength(t);
      [t[..k]] + Words(t[k..])
  }

  /** Length of the run of non-white-space characters at the start of `s`. */
  function WordLength(s: string): (k: nat)
    ensures k <= |s|
    ensures forall i :: 0 <= i < k ==> !IsSpace(s[i])
    ensures k < |s| ==> IsSpace(s[k])
    ensures s != [] && !IsSpace(s[0]) ==> k >= 1
  {
    if s == [] || IsSpace(s[0]) then 0 else 1 + WordLength(s[1..])
  }

  /** Trimming only removes characters. */
  lemma TrimKeepsOut(s: string, c: char)
    requires c !in s
    ensures c !in Trim(s)
  {
  }
}

=== FILE: timeline.dfy ===
/** Messages as the branch handlers see them: the part of a message that
    is copied between branches, the copying itself, and a branch's
    messages in `createdAt` order. */
module Timeline {
  import opened Common
  import opened Seqs
  import opened Schema

  /** What a copy keeps of a message: sender, text and voice attachment. */
  datatype Content = Content(sender: string, content: string, isVoice: bool, voiceUrl: Option<string>)

  function ContentOf(m: Message): Content {
    Content(m.sender, m.content, m.isVoice, m.voiceUrl)
  }

  function Contents(ms: seq<Message>): (r: seq<Content>)
    ensures |r| == |ms|
    ensures forall i :: 0 <= i < |ms| ==> r[i] == ContentOf(ms[i])
  {
    seq(|ms|, i requires 0 <= i < |ms| => ContentOf(ms[i]))
  }

  lemma ContentsAppend(a: seq<Message>, b: seq<Message>)
    ensures Contents(a + b) == Contents(a) + Contents(b)
  {
  }

  /** The inserts of a copy loop: one new message per message of `ms`, in
      order, with consecutive fresh ids from `firstId`, placed in the given
      conversation and branch and stamped `now`. */
  function CopyMessages(ms: seq<Message>, conversationId: int, branchId: int, firstId: int, now: int): (r: seq<Message>)
    ensures |r| == |ms|
    ensures Contents(r) == Contents(ms)
    ensures forall i :: 0 <= i < |r| ==> r[i].id == firstId + i
    ensures forall m :: m in r ==>
      m.conversationId == conversationId && m.branchId == Some(branchId) && m.createdAt == now
    ensures forall m :: m in r ==> firstId <= m.id < firstId + |ms|
  {
    seq(|ms|, i requires 0 <= i < |ms| =>
      Message(firstId + i, conversationId, Some(branchId), ms[i].sender, ms[i].content,
              ms[i].isVoice, ms[i].voiceUrl, now))
  }

  /** The test `eq(messages.branchId, b)`. */
  function OnBranch(b: int): Message -> bool {
    (m: Message) => m.branchId == Some(b)
  }

  /** The test `ne(messages.branchId, b)`: kept by `delete ... where branchId = b`. */
  function OffBranch(b: int): Message -> bool {
    (m: Message) => m.branchId != Some(b)
  }

  function MessageCreatedAt(m: Message): int { m.createdAt }

  /** `select from messages where branchId = b order by createdAt`. */
  function BranchMessages(msgs: seq<Message>, b: int): (r: seq<Message>)
    ensures forall m :: m in r <==> m in msgs && m.branchId == Some(b)
    ensures multiset(r) == multiset(Filter(msgs, OnBranch(b)))
    ensures forall i, j :: 0 <= i < j < |r| ==> r[i].createdAt <= r[j].createdAt
  {
    var f := Filter(msgs, OnBranch(b));
    var r := SortAscBy(f, MessageCreatedAt);
    assert forall m :: m in r <==> m in multiset(r);
    assert forall m :: m in f <==> m in multiset(f);
    r
  }

  /** Messages of a branch that no message named before are exactly the
      messages just added to it, when they were all added at one instant. */
  lemma FreshBranchMessages(msgs: seq<Message>, added: seq<Message>, b: int, now: int)
    requires forall m :: m in msgs ==> m.branchId != Some(b)
    requires forall m :: m in added ==> m.branchId == Some(b) && m.createdAt == now
    ensures BranchMessages(msgs + added, b) == added
  {
    FilterAppend(msgs, added, OnBranch(b));
    FilterNone(msgs, OnBranch(b));
    FilterAll(added, OnBranch(b));
    assert Filter(msgs + added, OnBranch(b)) == added;
    SortAscByConstant(added, MessageCreatedAt, now);
  }

  /** The copies of a copy loop have distinct ids. */
  lemma CopiesKeyed(ms: seq<Message>, conversationId: int, branchId: int, firstId: int, now: int)
    ensures var r := CopyMessages(ms, conversationId, branchId, firstId, now);
      forall x, y :: x in r && y in r && MessageId(x) == MessageId(y) ==> x == y
  {
    var r := CopyMessages(ms, conversationId, branchId, firstId, now);
    forall x, y | x in r && y in r && MessageId(x) == MessageId(y) ensures x == y {
      var i :| 0 <= i < |r| && r[i] == x;
      var j :| 0 <= j < |r| && r[j] == y;
      assert i == j;
    }
  }

  /** Adding branches and messages with fresh, distinct ids below the new
      counter keeps the store valid. */
  lemma AddKeepsValid(db: Db, r: Db, bs: seq<Branch>, ms: seq<Message>)
    requires Valid(db)
    requires r.branches == db.branches + bs && r.messages == db.messages + ms
    requires r.memories == db.memories && r.conversations == db.conversations && r.characters == db.characters
    requires db.nextId <= r.nextId
    requires forall b :: b in bs ==> db.nextId <= b.id < r.nextId
    requires forall x, y :: x in bs && y in bs && BranchId(x) == BranchId(y) ==> x == y
    requires forall m :: m in ms ==> db.nextId <= m.id < r.nextId
    requires forall x, y :: x in ms && y in ms && MessageId(x) == MessageId(y) ==> x == y
    requires forall m :: m in ms && m.branchId.Some? ==> m.branchId.value < r.nextId
    ensures Valid(r)
  {
    var n := r.nextId;
    KeyedAppend(db.messages, ms, MessageId, db.nextId, n);
    KeyedAppend(db.branches, bs, BranchId, db.nextId, n);
    KeyedAppend(db.memories, [], MemoryId, db.nextId, n);
    KeyedAppend(db.conversations, [], ConversationId, db.nextId, n);
    KeyedAppend(db.characters, [], CharacterId, db.nextId, n);
    assert db.memories + [] == db.memories;
    assert db.conversations + [] == db.conversations;
    assert db.characters + [] == db.characters;
  }

  /** Adding one branch with the next id, then messages with the ids after
      it, keeps the store valid. */
  lemma GrowKeepsValid(db: Db, r: Db, b: Branch)
    requires Valid(db)
    requires b.id == db.nextId && r.branches == db.branches + [b]
    requires |db.messages| <= |r.messages| && r.messages[..|db.messages|] == db.messages
    requires forall i :: |db.messages| <= i < |r.messages| ==>
      r.messages[i].id == db.nextId + 1 + i - |db.messages| && r.messages[i].branchId == Some(db.nextId)
    requires r.nextId == db.nextId + 1 + |r.messages| - |db.messages|
    requires r.memories == db.memories && r.conversations == db.conversations && r.characters == db.characters
    ensures Valid(r)
  {
    var k := |db.messages|;
    var added := r.messages[k..];
    assert r.messages == db.messages + added;
    forall x, y | x in added && y in added && MessageId(x) == MessageId(y) ensures x == y {
      var i :| 0 <= i < |added| && added[i] == x;
      var j :| 0 <= j < |added| && added[j] == y;
      assert r.messages[k + i] == x && r.messages[k + j] == y;
    }
    forall m | m in added ensures db.nextId <= m.id < r.nextId && m.branchId == Some(db.nextId) {
      var i :| 0 <= i < |added| && added[i] == m;
      assert r.messages[k + i] == m;
    }
    AddKeepsValid(db, r, [b], added);
  }

  /** Appending messages with consecutive fresh ids and then deleting some
      keeps the message table keyed. */
  lemma AppendThenDeleteKeyed(msgs: seq<Message>, added: seq<Message>, p: Message -> bool, bound: int)
    requires KeyedBelow(msgs, MessageId, bound)
    requires forall m :: m in msgs && m.branchId.Some? ==> m.branchId.value < bound
    requires forall i :: 0 <= i < |added| ==> added[i].id == bound + i
    requires forall m :: m in added && m.branchId.Some? ==> m.branchId.value < bound
    ensures KeyedBelow(Filter(msgs + added, p), MessageId, bound + |added|)
    ensures forall m :: m in Filter(msgs + added, p) && m.branchId.Some? ==> m.branchId.value < bound + |added|
  {
    forall x, y | x in added && y in added && MessageId(x) == MessageId(y) ensures x == y {
      var i :| 0 <= i < |added| && added[i] == x;
      var j :| 0 <= j < |added| && added[j] == y;
    }
    KeyedAppend(msgs, added, MessageId, bound, bound + |added|);
    KeyedFilter(msgs + added, p, MessageId, bound + |added|);
  }
}
